=== FILE: README.md ===
# A small C compiler: parser, type checker and code generator

This project models three passes of a compiler for a subset of C written
in Java:

- the recursive-descent **parser** (`src/parser/Parser.java`). It reads
  tokens with up to two tokens of look-ahead (`lookAhead(2)` decides
  between a struct declaration, a variable and a function) and builds the
  abstract syntax tree. It counts syntax errors: `error(...)` skips a
  second report about the token that caused the last one, but `parseType`
  and `parseMLB` also bump the counter themselves, without that check
  (`parseType` in required mode can add two errors for one missing type).
- the **type checker** (`src/sem/TypeCheckVisitor.java`). It registers the
  struct declarations, checks the declared types, and types the
  expressions it visits, bottom-up. It does not visit array indexes (it
  reads the type already stored in the index node), cast operands
  (likewise), the expression of an expression statement, or the bodies of
  `while` and `if`. It counts an error for each rule that is broken. Some
  ill-formed trees make it throw: a NullPointerException, or a
  ClassCastException where a field is read from a value whose type is not
  a struct.
- the **code generator** (`src/gen/CodeGenerator.java`). It lays out struct
  fields, and then makes two passes:
  - pass 0 writes the `.data` segment: one `.space` line per global, and
    one numbered `.asciiz` line per string literal;
  - pass 1 writes the `.text` segment: one label per function, and the
    `print_s` calls.

  It finishes with the default exit.

Module layout:

- `ast.dfy` (module `Ast`): the syntax tree shared by the three passes.
  A Java `null` child is the `Missing` expression.
- `tokens.dfy` (module `Tokens`): the token stream and `Integer.parseInt`.
- `parser.dfy` (module `Parser`):
  - a reference grammar: one pure function per parse method (`ExpAt`,
    `LevelAt`, `MLBAt`, `StructArrayAt`, `StmtAt`, `BlockAt`,
    `ProgramAt`, ...). Each gives the tree read from a position of the
    token stream and the position where reading stops;
  - the `Parser` class. Its fields are the current position, the
    look-ahead buffer (positions in the token stream), the error counter,
    the last error token, and a `crashed` flag for the exception that
    aborts `parse()`. Each parsing method is a method of that class, proved
    to return the grammar's tree and to stop at the grammar's position;
  - the shapes the grammar builds and their lemmas: `FoldLeft` for chains
    of binary operators, `Postfix` for field and index suffixes,
    `WrapPointers` and `WrapArrays` for declarators.
- `parser_examples.dfy` (module `ParserExamples`): what the grammar builds
  for `a + b * c`, `a - b - c`, `- a + b` and `a.f[i].g`, for any names.
- `typecheck.dfy` (module `TypeCheck`): pure reference functions for every
  typing rule (`CheckExpr`, `CheckStmt`, `CheckProgram`, ...). The outcome
  `Thrown` stands for the NullPointerException or ClassCastException. The `TypeCheckVisitor`
  class carries the struct table, the current return type, the error
  counter and a `thrown` flag. Each visit method is proved to change the
  counter exactly as the reference function says.
- `codegen.dfy` (module `CodeGen`):
  - 32-bit integer arithmetic and the register stack;
  - `findSize` and the struct layout, both as the code computes it
    (`LayoutAsWritten`, which the code generator uses) and as evidently
    intended (`Layout`);
  - the output as a sequence of `Line` values, whose text is
    `RenderAll(writer)`;
  - pure functions for the two passes (`NumberExpr` ... `NumberFuns` for
    pass 0, `EmitExpr` ... `EmitFuns` for pass 1) and `ProgramLines` for
    the whole file;
  - the `CodeGenerator` class, whose visit methods are proved against
    those functions;
  - `EmittedProgram`, which proves the shape of the file.

## Model

| member | source | states |
|---|---|---|
| Tokens.PastTheEndIsEof | src/parser/Parser.java:92-97 | once the input is used up the lexer answers only EOF, so a non-EOF token lies inside the input |
| Tokens.ParseInt | src/parser/Parser.java:173 | `Integer.parseInt`: a result exists only for an optionally signed run of decimal digits; its value is the signed value of the digits; such a run parses exactly when that value fits in 32 bits |
| Tokens.SignedValue | src/parser/Parser.java:173 | the value of an optionally signed digit run: the digits' decimal value, negated after `-`; `ParseIntRoundTrip` reads back every 32-bit value's text |
| Tokens.ParseIntExamples | src/parser/Parser.java:553 | "42" and "-7" parse to their values; the empty string throws |
| Parser.FoldLeft | src/parser/Parser.java:344-452 | the tree of one precedence level: each operator makes a node whose left child is everything read before it; `FoldLeftSubtraction` and `FoldLeftExtend` give its shape |
| Parser.Postfix | src/parser/Parser.java:594-608 | `.f` and `[e]` suffixes applied in the order read; `PostfixAppend` and `PostfixLastOutermost` give its shape |
| Parser.WrapPointers | src/parser/Parser.java:226-229 | one pointer level per `*`; `WrapPointersCompose` adds them up |
| Parser.WrapArrays | src/parser/Parser.java:170-176 | one array per `[n]`, in the order read; `WrapArraysAppend` and `ArraySuffixExample` give the nesting |
| Parser.LiteralOf | src/parser/Parser.java:545-558 | a literal token yields its node; it fails exactly for an int literal that does not parse or a char literal with no character; any other token yields a null expression |
| Parser.LevelTokensBuildTheirLevel | src/parser/Parser.java:356-479 | every operator token accepted at a precedence level builds an operator of that level |
| Parser.LevelTokensExact | src/parser/Parser.java:356-479 | the token list a precedence level accepts holds exactly the tokens `TokenLevel` assigns to that level, so the loops stop at the same tokens the grammar functions do |
| Parser.FoldLeftSubtraction | src/parser/Parser.java:431-452 | `a - b - c` folds as `(a - b) - c`, the tree `LeftAssociativityExample` shows the grammar builds |
| Parser.FoldLeftExtend | src/parser/Parser.java:356-479 | one more operator at a level wraps the tree built so far as its left operand |
| Parser.PostfixAppend | src/parser/Parser.java:594-608 | applying suffixes in two runs equals applying them all at once |
| Parser.PostfixLastOutermost | src/parser/Parser.java:594-608 | the last `.f` or `[e]` suffix is the outermost node |
| Parser.PostfixExample | src/parser/Parser.java:594-608 | `a.f[i].g` is a field access of an array access of a field access |
| Parser.WrapArraysAppend | src/parser/Parser.java:170-176 | the array dimensions of a declarator wrap the type left to right, so the last dimension is outermost |
| Parser.ArraySuffixExample | src/parser/Parser.java:170-176 | `t x[2][3]` declares an array of 3 arrays of 2 elements of `t` |
| Parser.WrapPointersCompose | src/parser/Parser.java:226-229 | stars add up: m stars followed by n stars give m + n pointer levels |
| Parser.StarsRun | src/parser/Parser.java:226-229 | the stars getType counts are exactly the run of `*` tokens after the type, and the token after them is not `*` |
| Parser.TypeAt | src/parser/Parser.java:214-231 | getType: the base type the token names, wrapped once per following `*`; the type token is always consumed |
| Parser.SizesRead | src/parser/Parser.java:170-176 | the k-th array size of a declarator is what `Integer.parseInt` reads from the literal of the k-th `[n]`, three tokens apart, and the run ends at a token that is not `[` |
| Parser.DeclaratorAt | src/parser/Parser.java:166-177 | a declaration: the type with its pointers and array sizes, named by the token after the stars; it consumes at least the type and the name |
| Parser.VarDeclsAt | src/parser/Parser.java:161-182 | parseVarDecls: with `(` two tokens ahead it reads nothing and stays; otherwise declarations while a type starts; it never moves back |
| Parser.VarDeclsFromAt | src/parser/Parser.java:165-181 | after a type has started: that declaration, `;` and the declarations after it; at least one, and progress |
| Parser.StructDeclAt | src/parser/Parser.java:147-155 | one struct declaration: named by the token after `struct`, its fields the declarations after `{`, ending after `} ;`; progress |
| Parser.StructDeclsAt | src/parser/Parser.java:143-158 | declarations while `struct` has `{` two tokens ahead; the list is empty exactly when nothing is consumed |
| Parser.FirstParamAt | src/parser/Parser.java:246-260 | the optional first parameter: at most one, read where a type starts |
| Parser.MoreParamsAt | src/parser/Parser.java:261-276 | a parameter after each comma; it stops at a token that is not a comma |
| Parser.ParamsAt | src/parser/Parser.java:245-278 | parseParams: the first parameter, then those after commas; it stops at a token that is not a comma |
| Parser.FunDeclAt | src/parser/Parser.java:186-195 | a function: its type, the name after it, then (past the `(`) the parameters, `)` and the body; progress |
| Parser.FunRestAt | src/parser/Parser.java:192-195 | the parameters of a function whose type and name are read, then its body; progress |
| Parser.FunBodyAt | src/parser/Parser.java:193-195 | `)` and the block of a function; progress |
| Parser.FunDeclsAt | src/parser/Parser.java:184-198 | parseFunDecls: functions while a type starts; it never moves back |
| Parser.IncludesEnd | src/parser/Parser.java:135-141 | where the `#include` lines end: at or after the start, at a token that is not `#include` |
| Parser.ProgramAt | src/parser/Parser.java:125-132 | parseProgram: includes, structs, globals and functions in that order, then the token expected to be EOF; progress |
| Parser.StmtAt | src/parser/Parser.java:291-342 | parseStmt: the first token picks a block, a conditional, a return or an expression statement; progress |
| Parser.BlockAt | src/parser/Parser.java:280-289 | parseBlock: declarations and statements; the last token consumed is the `}` or EOF that stopped the loop |
| Parser.StmtsAt | src/parser/Parser.java:283-286 | the statements of a block: it stops exactly at `}` or EOF |
| Parser.CondStmtAt | src/parser/Parser.java:295-317 | `while` builds a loop and `if` a conditional; progress |
| Parser.CondTailAt | src/parser/Parser.java:300-317 | after the condition: the body, and for `if` the optional `else`; a loop for `while` and a conditional otherwise |
| Parser.ElseAt | src/parser/Parser.java:309-312 | without `else` there is no else-branch and nothing is consumed |
| Parser.ConditionAt | src/parser/Parser.java:297-299 | `( e )`: consumes at least the two brackets |
| Parser.ReturnAt | src/parser/Parser.java:318-326 | a return whose value is never null; at a token that starts no expression it is a bare `return;` ending after the `;` |
| Parser.ExprStmtAt | src/parser/Parser.java:327-339 | an assignment only when `=` follows and the right-hand side is not null, and otherwise an expression statement |
| Parser.ExpAt | src/parser/Parser.java:344-353 | parseExp: the six levels then the suffixes; it stops at neither `.` nor `[`; it makes progress when an expression is required, and yields null without consuming at a token that starts nothing when it is optional |
| Parser.LevelAt | src/parser/Parser.java:344-451 | one level: its first operand, then its loop; it stops where no operator of this level or a tighter one follows |
| Parser.LevelLoopAt | src/parser/Parser.java:347-450 | a level's loop: each operator of the level joins the tree so far and the next operand; with no such operator the tree is returned unchanged |
| Parser.OperandAt | src/parser/Parser.java:344-451 | the right operand of an operator: the next level, or parseMLB(1) at the tightest; progress, and it stops before any tighter operator |
| Parser.MLBAt | src/parser/Parser.java:454-479 | parseMLB: a token that starts no operand gives null and is consumed only when an operand is required; `-` builds `0 - e` |
| Parser.SizeOfAt | src/parser/Parser.java:481-495 | `sizeof ( type )` builds a sizeof node; progress |
| Parser.VAtAt | src/parser/Parser.java:497-515 | getVAt: a dereference of a bracket or a name, or null, followed in every case by its suffixes; it never moves back |
| Parser.IdentOrFuncAt | src/parser/Parser.java:518-543 | a name is a variable, or a call when `(` follows, followed by its suffixes; progress |
| Parser.ArgsAt | src/parser/Parser.java:526-536 | the arguments of a call: none exactly at `)` |
| Parser.MoreArgsAt | src/parser/Parser.java:531-534 | an argument after each comma; it stops at a token that is not a comma |
| Parser.StructArrayAt | src/parser/Parser.java:594-608 | parseStructArray: it stops at neither `.` nor `[`; with no suffix it returns the expression and consumes nothing |
| Parser.BracketAt | src/parser/Parser.java:572-591 | getBracket: a cast when a type starts, and otherwise an expression and `)`; progress |
| Parser.CastAt | src/parser/Parser.java:580-584 | `type ) e` builds a cast node; progress |
| Parser.Parser.constructor | src/parser/Parser.java:29-38 | a new parser stands on the first token with no errors and an empty buffer |
| Parser.Parser.Error | src/parser/Parser.java:47-65 | the count goes up by one unless the last error was reported at the same token; the current token becomes the last error token |
| Parser.Parser.LookAhead | src/parser/Parser.java:71-86 | returns the i-th token after the current one and fills the buffer up to it, without consuming anything |
| Parser.Parser.NextToken | src/parser/Parser.java:92-97 | advances by exactly one token, taking it from the buffer when there is one and from the lexer otherwise |
| Parser.Parser.Accept | src/parser/Parser.java:117-122 | true exactly when the current token's class is one of those expected |
| Parser.Parser.Expect | src/parser/Parser.java:103-112 | returns the current token when it is expected and changes nothing; otherwise returns null and reports one error, or none when that token was already reported |
| Parser.Parser.ExpectNext | src/parser/Parser.java:103-112 | `expect(...); nextToken();`: always advances one token, and adds no error when the token was expected |
| Parser.Parser.ParseType | src/parser/Parser.java:200-212 | true at `int`, `char` or `void` without consuming, or at `struct` followed by an identifier (consuming `struct`), and false otherwise; success and the optional form add no error; a missing required type reports an error and then adds one more, so the count grows by 2, or by 1 when that token was already reported |
| Parser.Parser.ParseStructType | src/parser/Parser.java:233-239 | at `struct` it consumes it and answers whether an identifier follows; elsewhere it answers false and consumes nothing |
| Parser.Parser.BaseType | src/parser/Parser.java:214-224 | the base type named by the current token: int, char or void, or else a struct named by the token's text |
| Parser.Parser.GetType | src/parser/Parser.java:214-231 | returns `TypeAt`'s type, one pointer per `*` (`StarsRun`), and stops after the last `*` |
| Parser.Parser.ParseDim | src/parser/Parser.java:170-175 | consumes `[ n ]`; the size is what `Integer.parseInt` reads from the literal; the parse is aborted after this call exactly when it was before or `Integer.parseInt` rejects the literal's text |
| Parser.Parser.ParseArrayDims | src/parser/Parser.java:170-176 | wraps the type in one array per `[n]`, in order, with the sizes read from the literals (`SizesRead`), and consumes exactly those suffixes |
| Parser.Parser.ParseIncludes | src/parser/Parser.java:135-141 | stops where `IncludesEnd` says; when there is no include it reports nothing |
| Parser.Parser.ParseDeclarator | src/parser/Parser.java:166-177 | returns `DeclaratorAt`'s declaration: the base type, one pointer per `*`, one array per `[n]` with its literal's size, named by the token after the stars; it stops where that declaration ends |
| Parser.Parser.ParseVarDecls | src/parser/Parser.java:161-182 | returns `VarDeclsAt`'s declarations and stops where they end; with `(` two tokens ahead it changes no count; when a declaration is required but none is read, an error is counted |
| Parser.Parser.ParseVarDeclsFrom | src/parser/Parser.java:166-179 | returns `VarDeclsFromAt`'s declarations and stops where they end |
| Parser.Parser.AtStructDecl | src/parser/Parser.java:146 | the loop goes on exactly at `struct` with `{` two tokens ahead |
| Parser.Parser.ParseStructDecl | src/parser/Parser.java:147-155 | returns `StructDeclAt`'s declaration, name and fields, and stops after its `;` |
| Parser.Parser.ParseStructHeader | src/parser/Parser.java:147-151 | the name is the token after `struct`, and exactly `struct name {` is consumed |
| Parser.Parser.ParseStructDeclTurn | src/parser/Parser.java:146-156 | one turn of the loop: the declaration read extends the list so far, keeping `StructDeclsAt`'s invariant, and it makes progress |
| Parser.Parser.ParseStructDecls | src/parser/Parser.java:143-158 | returns `StructDeclsAt`'s declarations and stops where they end, at a token that starts no struct declaration |
| Parser.Parser.ParseFirstParam | src/parser/Parser.java:246-260 | returns `FirstParamAt`'s parameter, if any; at a token that starts no type it reports nothing |
| Parser.Parser.ParseCommaParam | src/parser/Parser.java:261-276 | one `, type name` turn: the parameter read extends the list so far, keeping `MoreParamsAt`'s invariant, and it makes progress |
| Parser.Parser.ParseParams | src/parser/Parser.java:245-278 | returns `ParamsAt`'s parameters and stops where they end; an empty list such as `()` reports nothing |
| Parser.Parser.ParseMoreParams | src/parser/Parser.java:261-276 | returns `MoreParamsAt`'s parameters; without a comma it reports nothing |
| Parser.Parser.ParseSizeOf | src/parser/Parser.java:481-496 | returns `SizeOfAt`'s node, the sizeof of the type read, and stops after `)` |
| Parser.Parser.ParseMLB | src/parser/Parser.java:454-479 | returns `MLBAt`'s operand and stops where it ends; at a token that starts no operand it reports nothing in optional mode, and in required mode adds exactly one error and records that token as the last error token |
| Parser.Parser.ParseOtherOperand | src/parser/Parser.java:462-477 | the literal, `-`, `(` and no-operand cases of parseMLB: the operand and end position are `MLBAt`'s; at a token that starts no operand it reports nothing in optional mode, and in required mode adds exactly one error (without `error(...)`'s same-token check) and records that token |
| Parser.Parser.ParseLiteral | src/parser/Parser.java:545-558 | the literal's node, one token consumed and no error; the parse is aborted after this call exactly when it was before or the literal does not parse (`Integer.parseInt` or `charAt(0)` throws) |
| Parser.Parser.ParseLevel | src/parser/Parser.java:344-452 | returns `LevelAt`'s tree and stops where it ends; with nothing to parse in optional mode it reports nothing |
| Parser.Parser.ParseLevelLoop | src/parser/Parser.java:347-450 | returns `LevelLoopAt`'s tree and stops where it ends; without an operator of the level it reports nothing |
| Parser.Parser.ParseLevelStep | src/parser/Parser.java:347-449 | the operator built is the one the current token names, of this level, and its right operand is `OperandAt`'s |
| Parser.Parser.ParseOperand | src/parser/Parser.java:344-479 | returns `OperandAt`'s operand and stops where it ends |
| Parser.Parser.ParseExp | src/parser/Parser.java:344-354 | returns `ExpAt`'s tree and stops where it ends; with nothing to parse in optional mode it reports nothing |
| Parser.Parser.GetNeg | src/parser/Parser.java:560-570 | builds `0 - e` where `e` is the whole `parseExp(1)` after the `-`, and stops where it ends |
| Parser.Parser.GetBracket | src/parser/Parser.java:572-591 | returns `BracketAt`'s cast or bracketed expression and stops where it ends |
| Parser.Parser.GetCast | src/parser/Parser.java:580-584 | returns `CastAt`'s cast and stops where it ends |
| Parser.Parser.GetVAt | src/parser/Parser.java:497-515 | returns `VAtAt`'s tree: a dereference of a bracket or a name (null otherwise), under the suffixes that follow in every case |
| Parser.Parser.GetIdentorFunc | src/parser/Parser.java:518-543 | returns `IdentOrFuncAt`'s variable or call, under its suffixes, and stops where it ends |
| Parser.Parser.ParseNameOrCall | src/parser/Parser.java:518-540 | the variable or call a name reads as, stopping where its suffixes start |
| Parser.Parser.ParseCall | src/parser/Parser.java:526-537 | `( args )`: `ArgsAt`'s arguments, stopping after `)` |
| Parser.Parser.ParseArgs | src/parser/Parser.java:526-536 | returns `ArgsAt`'s arguments and stops where they end |
| Parser.Parser.ParseMoreArgs | src/parser/Parser.java:531-534 | returns `MoreArgsAt`'s arguments and stops where they end |
| Parser.Parser.ParseCommaArg | src/parser/Parser.java:531-534 | one `, e` turn: the argument read extends the list so far, keeping `MoreArgsAt`'s invariant, and it makes progress |
| Parser.Parser.ParseStructArray | src/parser/Parser.java:594-608 | returns `StructArrayAt`'s tree and stops where it ends; with no suffix it reports nothing |
| Parser.Parser.ParseField | src/parser/Parser.java:594-608 | the `.f` case, as `StructArrayAt` gives it |
| Parser.Parser.ParseIndex | src/parser/Parser.java:594-608 | the `[e]` case, as `StructArrayAt` gives it |
| Parser.Parser.ParseBlock | src/parser/Parser.java:280-289 | returns `BlockAt`'s block, declarations and statements, and stops after the `}` or EOF |
| Parser.Parser.ParseStmts | src/parser/Parser.java:283-286 | returns `StmtsAt`'s statements and stops at `}` or EOF |
| Parser.Parser.ParseStmt | src/parser/Parser.java:291-342 | returns `StmtAt`'s statement and stops where it ends |
| Parser.Parser.ParseCondStmt | src/parser/Parser.java:295-317 | returns `CondStmtAt`'s loop or conditional and stops where it ends |
| Parser.Parser.ParseCondTail | src/parser/Parser.java:300-317 | returns `CondTailAt`'s statement and stops where it ends |
| Parser.Parser.ParseElse | src/parser/Parser.java:309-312 | returns `ElseAt`'s optional else-branch and stops where it ends |
| Parser.Parser.ParseElseBranch | src/parser/Parser.java:309-312 | `else s`: the statement after `else`, as `ElseAt` gives it |
| Parser.Parser.ParseCondition | src/parser/Parser.java:297-299 | returns `ConditionAt`'s expression and stops after `)` |
| Parser.Parser.ParseReturn | src/parser/Parser.java:318-326 | returns `ReturnAt`'s return and stops after `;` |
| Parser.Parser.ParseExprStmt | src/parser/Parser.java:327-339 | returns `ExprStmtAt`'s assignment or expression statement and stops after `;` |
| Parser.Parser.ParseFunHeader | src/parser/Parser.java:187-191 | the return type is `TypeAt`'s; the name is the token after the stars; it consumes exactly type, name and `(` |
| Parser.Parser.ParseFunDecl | src/parser/Parser.java:187-195 | returns `FunDeclAt`'s function and stops where it ends |
| Parser.Parser.ParseFunRest | src/parser/Parser.java:192-195 | returns `FunRestAt`'s function and stops where it ends |
| Parser.Parser.ParseFunBody | src/parser/Parser.java:193-195 | returns `FunBodyAt`'s function and stops where it ends |
| Parser.Parser.ParseFunDecls | src/parser/Parser.java:184-198 | returns `FunDeclsAt`'s functions and stops where they end; at a token that starts no type it reports nothing |
| Parser.Parser.ParseDecls | src/parser/Parser.java:126-129 | the structs, globals and functions of `ProgramAt`, in that order, stopping at the token expected to be EOF |
| Parser.Parser.ParseProgram | src/parser/Parser.java:125-132 | returns `ProgramAt`'s program; parsing stops at the end of input, or a syntax error is recorded at the token where it stopped |
| Parser.Parser.Parse | src/parser/Parser.java:33-38 | returns None if a `parseInt` or `charAt` exception aborted the parse, and otherwise `ProgramAt`'s program; it stops where `ProgramAt` ends, at the end of input or at a reported syntax error |
| ParserExamples.LevelsPass | src/parser/Parser.java:344-451 | when a level's result is followed by no operator at all, every looser level returns that result unchanged |
| ParserExamples.ExpressionEnds | src/parser/Parser.java:344-353 | a level's result followed by `;` or `]` is the whole expression |
| ParserExamples.SumOfTwo | src/parser/Parser.java:413-428 | an operand, `+` or `-`, and a second operand followed by `;` make one additive node |
| ParserExamples.FieldIndexField | src/parser/Parser.java:594-608 | after a name, `.f [ i ] .g` followed by `;` is read as those three suffixes and nothing more |
| ParserExamples.PrecedenceExample | src/parser/Parser.java:413-451 | `a + b * c ;` parses to `a + (b * c)`: the product is the right operand of the sum |
| ParserExamples.LeftAssociativityExample | src/parser/Parser.java:413-428 | `a - b - c ;` parses to `(a - b) - c` |
| ParserExamples.UnaryMinusExample | src/parser/Parser.java:560-570 | `- a + b ;` parses to `0 - (a + b)`, because the minus sign takes a whole expression |
| ParserExamples.PostfixChainExample | src/parser/Parser.java:594-608 | `a . f [ i ] . g ;` parses to the suffixes `.f`, `[i]`, `.g` applied to `a` in that order |
| TypeCheck.TypeErrors | src/sem/TypeCheckVisitor.java:12-18 | a declared type costs one error exactly when it is void or names a struct not yet registered |
| TypeCheck.DeclErrors | src/sem/TypeCheckVisitor.java:76-81 | the errors of visiting declarations in order; `DeclErrorsZeroIff` gives when they are zero |
| TypeCheck.DeclErrorsZeroIff | src/sem/TypeCheckVisitor.java:76-81 | a list of declarations adds no error exactly when none is void or of an unknown struct, and at most one error per declaration |
| TypeCheck.Registered | src/sem/TypeCheckVisitor.java:21-22 | the struct table after `put`s in order; `RegisteredLookup` gives its contents |
| TypeCheck.RegisteredLookup | src/sem/TypeCheckVisitor.java:21-22 | a name is in the struct table exactly when some declaration has it, and it maps to the last such declaration |
| TypeCheck.InitialSlot | src/ast/ChrLiteral.java:6-9 | the type slot a node holds before it is visited: a character literal's constructor sets `char`, and likewise for the other literals; null otherwise; `CastOfUnvisitedVariableThrows` and `IndexingKeepsArrayType` show its effect |
| TypeCheck.EqualityRule | src/sem/TypeCheckVisitor.java:151-159 | `==` and `!=` only: a null left type throws; a struct, array or void left operand throws when the right is null, and is an error unless both sides are equal; otherwise the result is the left type and adds no error |
| TypeCheck.ArithRule | src/sem/TypeCheckVisitor.java:160-168 | every other operator, `||` and `&&` included: the result is int exactly when both operands are int; otherwise the result is null and at least one error |
| TypeCheck.FieldType | src/sem/TypeCheckVisitor.java:190-204 | the type of the first field with the name, or none when no field has it |
| TypeCheck.CastRule | src/sem/TypeCheckVisitor.java:223-238 | char to int gives int; an array casts to a pointer to its element type only when the target is that element; a pointer casts to any pointer; anything else is an error; casting a null type to int throws |
| TypeCheck.CheckExpr | src/sem/TypeCheckVisitor.java:84-238 | a null expression throws; sizeof is int; a call or variable takes its declaration's type and throws when unresolved |
| TypeCheck.IndexRule | src/sem/TypeCheckVisitor.java:178-187 | indexing an array or pointer by an int keeps the array or pointer type; a null index type throws; anything else is an error |
| TypeCheck.FieldRule | src/sem/TypeCheckVisitor.java:190-204 | a field access throws unless the record is a registered struct; its type is that of the first field named so, and it is one error exactly when there is none |
| TypeCheck.AssignRule | src/sem/TypeCheckVisitor.java:262-270 | a null left type throws; between well-formed types, assigning an array to an array is exactly one error; assigning to void is always an error |
| TypeCheck.ReturnRule | src/sem/TypeCheckVisitor.java:273-284 | in a void function a return costs one error, or two with a value; otherwise it throws exactly when there is no value or the value throws, and it adds no error beyond the value's exactly when the types match |
| TypeCheck.CheckStmt | src/sem/TypeCheckVisitor.java:241-259 | a `while` or `if` throws exactly when its condition does, and adds one error exactly when the condition is not int; an expression statement is not checked |
| TypeCheck.CondRule | src/sem/TypeCheckVisitor.java:246-259 | a condition throws exactly when it throws, and costs exactly one more error unless its type is int |
| TypeCheck.CheckAssign | src/sem/TypeCheckVisitor.java:262-270 | both sides are visited first: a throwing left side throws, and the count is at least the two sides' errors |
| TypeCheck.CheckBlock | src/sem/TypeCheckVisitor.java:32-42 | the declarations' errors come first and are always counted; a block without statements has only those |
| TypeCheck.StmtsCount | src/sem/TypeCheckVisitor.java:37-39 | the statements visited in order; `StmtsThrownStays` shows a throw stops the rest |
| TypeCheck.CheckFun | src/sem/TypeCheckVisitor.java:46-55 | the parameters, then the body's declarations, are always counted |
| TypeCheck.FunsCount | src/sem/TypeCheckVisitor.java:68-70 | the functions visited in order; `FunsThrownStays` shows a throw stops the later ones |
| TypeCheck.StructErrors | src/sem/TypeCheckVisitor.java:59-62 | the field errors of each struct, seen with the structs registered so far; `ForwardStructReferenceReported` shows a later struct is unknown |
| TypeCheck.CheckProgram | src/sem/TypeCheckVisitor.java:58-73 | the struct and global errors are always counted; without functions there are no others |
| TypeCheck.FirstFieldWins | src/sem/TypeCheckVisitor.java:190-204 | with repeated field names the first declaration gives the type |
| TypeCheck.DeclaredStructIsKnown | src/sem/TypeCheckVisitor.java:58-73 | a variable of any struct declared in the program is accepted |
| TypeCheck.ForwardStructReferenceReported | src/sem/TypeCheckVisitor.java:21-29 | a field whose struct is declared only later in the program is reported |
| TypeCheck.CastOfUnvisitedVariableThrows | src/sem/TypeCheckVisitor.java:223-238 | `(int)` of a char variable throws, because the variable's type slot is read before it is visited; `(int)'a'` is int |
| TypeCheck.IndexingKeepsArrayType | src/sem/TypeCheckVisitor.java:178-187 | `a[3]` on an int array has the array's type; `a[i]` with a variable index throws for the same unvisited-slot reason |
| TypeCheck.StmtsThrownStays | src/sem/TypeCheckVisitor.java:37-39 | once a statement throws, the rest of the block does not run |
| TypeCheck.FunsThrownStays | src/sem/TypeCheckVisitor.java:68-70 | once a function throws, the later functions are not checked |
| TypeCheck.TypeCheckVisitor.constructor | src/sem/TypeCheckVisitor.java:93-95 | starts with no structs, no return type and no errors |
| TypeCheck.TypeCheckVisitor.VisitType | src/sem/TypeCheckVisitor.java:12-18 | returns the type and adds its declaration error |
| TypeCheck.TypeCheckVisitor.VisitVarDecl | src/sem/TypeCheckVisitor.java:76-81 | adds the error of the declared type |
| TypeCheck.TypeCheckVisitor.VisitVarDecls | src/sem/TypeCheckVisitor.java:33-35 | adds the errors of every declaration |
| TypeCheck.TypeCheckVisitor.VisitStructTypeDecl | src/sem/TypeCheckVisitor.java:21-29 | registers the struct first, so its own fields may name it, and then adds its fields' errors |
| TypeCheck.TypeCheckVisitor.VisitExpr | src/sem/TypeCheckVisitor.java:84-238 | the type, the type slot and the error count follow `CheckExpr` |
| TypeCheck.TypeCheckVisitor.VisitBinOp | src/sem/TypeCheckVisitor.java:148-170 | follows `CheckExpr` on a binary operation |
| TypeCheck.TypeCheckVisitor.EqualityCheck | src/sem/TypeCheckVisitor.java:151-159 | follows `EqualityRule` |
| TypeCheck.TypeCheckVisitor.ArithCheck | src/sem/TypeCheckVisitor.java:160-168 | follows `ArithRule` |
| TypeCheck.TypeCheckVisitor.VisitArrayAccessExpr | src/sem/TypeCheckVisitor.java:178-187 | follows `CheckExpr`, and so `IndexRule` |
| TypeCheck.TypeCheckVisitor.VisitFieldAccessExpr | src/sem/TypeCheckVisitor.java:190-204 | follows `CheckExpr`, and so `FieldRule` |
| TypeCheck.TypeCheckVisitor.VisitValueAtExpr | src/sem/TypeCheckVisitor.java:207-215 | follows `CheckExpr` on a dereference |
| TypeCheck.TypeCheckVisitor.VisitTypecastExpr | src/sem/TypeCheckVisitor.java:223-238 | follows `CastRule` |
| TypeCheck.TypeCheckVisitor.VisitStmt | src/sem/TypeCheckVisitor.java:241-284 | the error count or the throw follows `CheckStmt` in the current function |
| TypeCheck.TypeCheckVisitor.VisitCond | src/sem/TypeCheckVisitor.java:246-259 | follows `CondRule`: a condition costs one error unless it is int |
| TypeCheck.TypeCheckVisitor.VisitAssign | src/sem/TypeCheckVisitor.java:262-270 | follows `CheckAssign` |
| TypeCheck.TypeCheckVisitor.AssignTypes | src/sem/TypeCheckVisitor.java:262-270 | follows `AssignRule` on the two sides' types |
| TypeCheck.TypeCheckVisitor.VisitReturn | src/sem/TypeCheckVisitor.java:273-284 | follows `ReturnRule` for the current function's return type |
| TypeCheck.TypeCheckVisitor.VisitBlock | src/sem/TypeCheckVisitor.java:32-42 | follows `CheckBlock`: the declarations, then the statements until one throws |
| TypeCheck.TypeCheckVisitor.VisitFunDecl | src/sem/TypeCheckVisitor.java:46-55 | records the return type, then follows `CheckFun` |
| TypeCheck.TypeCheckVisitor.VisitProgram | src/sem/TypeCheckVisitor.java:58-73 | the struct table is the registered declarations and the errors follow `CheckProgram` |
| TypeCheck.TypeCheckVisitor.VisitStructDecls | src/sem/TypeCheckVisitor.java:59-62 | from an empty table: registers every struct and adds each one's field errors, seen with the structs declared so far |
| TypeCheck.TypeCheckVisitor.VisitFunDecls | src/sem/TypeCheckVisitor.java:68-70 | checks the functions in order until one throws |
| CodeGen.Int32 | src/gen/CodeGenerator.java:340 | Java `int` arithmetic wraps into the 32-bit range |
| CodeGen.Int32Wraps | src/gen/CodeGenerator.java:340 | wrapping changes a value by a multiple of 2^32 and keeps a value that already fits |
| CodeGen.Int32Add | src/gen/CodeGenerator.java:68-72 | wrapping after each addition equals wrapping once at the end |
| CodeGen.Int32Mul | src/gen/CodeGenerator.java:340 | wrapping an intermediate product equals wrapping once at the end |
| CodeGen.NatToString | src/gen/CodeGenerator.java:138 | the decimal text of a number is a non-empty run of digits |
| CodeGen.NatToStringRoundTrip | src/gen/CodeGenerator.java:190-191 | reading the decimal text back gives the number |
| CodeGen.ParseIntRoundTrip | src/parser/Parser.java:173 | `Integer.parseInt` of the decimal text of any 32-bit value, negative ones and the minimum included, gives that value back |
| CodeGen.NatToStringInjective | src/gen/CodeGenerator.java:190-191 | distinct numbers have distinct texts, so distinct string labels |
| CodeGen.Push | src/gen/CodeGenerator.java:33-35 | pushing puts the register on top and leaves the rest |
| CodeGen.Pop | src/gen/CodeGenerator.java:25-31 | an empty stack raises the allocation error; otherwise the top register is returned and removed |
| CodeGen.PopAfterPush | src/gen/CodeGenerator.java:25-35 | popping right after a push returns that register and restores the stack |
| CodeGen.PopAll | src/gen/CodeGenerator.java:25-31 | k pops return the top k registers, most recent first, and leave the bottom |
| CodeGen.FindSize | src/gen/CodeGenerator.java:330-345 | the size in bytes of a type, within the 32-bit range unless it is a struct |
| CodeGen.FindSizeFails | src/gen/CodeGenerator.java:330-345 | the size fails exactly when the type holds, through arrays, a struct that is unknown or has no fields |
| CodeGen.FindSizeFrame | src/gen/CodeGenerator.java:59-60 | adding a struct leaves the sizes of types that do not reach it unchanged |
| CodeGen.NestedIntArraySize | src/gen/CodeGenerator.java:331-340 | an `int[m][n]` is `n * m * 4` bytes, wrapped |
| CodeGen.PlaceField | src/gen/CodeGenerator.java:65-70 | placing a field adds one offset, or fails when its size does |
| CodeGen.LayoutPrefix | src/gen/CodeGenerator.java:62-71 | after n turns of the loop there are n offsets, whether `first` stays set as the code does or is cleared after the first field as intended |
| CodeGen.CloseLayout | src/gen/CodeGenerator.java:72 | the closing entry is appended after the field offsets, and it fails when there is no field |
| CodeGen.LayoutAsWritten | src/gen/CodeGenerator.java:59-74 | the list visitStructTypeDecl registers: one entry per field and a closing entry, and only for a struct with fields; `LayoutAsWrittenOverlaps` gives its contents |
| CodeGen.LayoutAsWrittenStep | src/gen/CodeGenerator.java:64-71 | every turn of the loop as written takes the `first` branch |
| CodeGen.LayoutPrefixAsWritten | src/gen/CodeGenerator.java:62-71 | as written, the loop places every field at offset 0, and its last size is that of the last field placed |
| CodeGen.LayoutAsWrittenOverlaps | src/gen/CodeGenerator.java:59-74 | as written, every field of a struct is at offset 0 and the closing entry is the last field's size alone; an empty struct has no layout |
| CodeGen.LayoutAsWrittenOverlapsFields | src/gen/CodeGenerator.java:59-74 | `struct p {int x; char y; int z;}` gets offsets 0, 0, 0 and size 4 as written, where the intended layout gives 0, 4, 5 and size 9 |
| CodeGen.Layout | src/gen/CodeGenerator.java:59-74 | the intended layout, with `first` cleared after the first field (not what the code does): one entry per field and a closing entry, only for a struct with fields |
| CodeGen.LayoutPrefixStep | src/gen/CodeGenerator.java:64-71 | in the intended loop, one more turn places the next field after the last one |
| CodeGen.LayoutClosed | src/gen/CodeGenerator.java:72 | the intended layout exists exactly when there is a field, and it ends at the last field's offset plus its size |
| CodeGen.PlaceFieldSized | src/gen/CodeGenerator.java:65-70 | a field of known size goes at 0 when `first` is set, and otherwise right after the previous field |
| CodeGen.RunningSumStep | src/gen/CodeGenerator.java:68-70 | the wrapped running position equals the wrapped sum of the sizes before |
| CodeGen.PackedStep | src/gen/CodeGenerator.java:64-71 | in the intended loop, each placed field sits at the sum of the sizes before it |
| CodeGen.LayoutPrefixPacked | src/gen/CodeGenerator.java:62-71 | in the intended loop, for fields of known size, the first n offsets are the running sums of their sizes |
| CodeGen.LayoutPacked | src/gen/CodeGenerator.java:59-74 | the intended layout packs the fields: each sits at the sum of the sizes before it, and the total is the sum of all sizes; an empty struct has no layout |
| CodeGen.Render | src/gen/CodeGenerator.java:99-194 | the text of one written line; `RenderAllLines` relates it to the output |
| CodeGen.RenderAll | src/gen/CodeGenerator.java:37 | the text of all lines written; `RenderAllLines` and `RenderAllAppend` give its contents |
| CodeGen.RenderAllLines | src/gen/CodeGenerator.java:37 | the k-th line printed is the text of the k-th line written |
| CodeGen.RenderAllAppend | src/gen/CodeGenerator.java:37 | printing more lines appends their texts |
| CodeGen.StringLines | src/gen/CodeGenerator.java:188-194 | the `.asciiz` lines of the numbered literals; `StringLinesAt` gives each one |
| CodeGen.StringLinesAt | src/gen/CodeGenerator.java:188-194 | the k-th literal of a run is labelled with the id it was given, counting up |
| CodeGen.NumberExpr | src/gen/CodeGenerator.java:188-194 | in pass 0 a string literal takes the next id and its text is recorded for the data segment |
| CodeGen.NumberArgs | src/gen/CodeGenerator.java:207-209 | the arguments of a call are numbered one by one |
| CodeGen.NumberArgsFirst | src/gen/CodeGenerator.java:207-209 | the first argument is numbered first, so its literals come first |
| CodeGen.NumberStmt | src/gen/CodeGenerator.java:291-328 | pass 0 over a statement; `NumberedStmtLoads` ties it to pass 1 |
| CodeGen.NumberBlock | src/gen/CodeGenerator.java:78-81 | pass 0 leaves a block's declarations alone |
| CodeGen.NumberStmts | src/gen/CodeGenerator.java:79-81 | every statement of a block is visited in pass 0 |
| CodeGen.NumberFuns | src/gen/CodeGenerator.java:119-121 | pass 0 visits every function and keeps the names in order |
| CodeGen.EmitExpr | src/gen/CodeGenerator.java:205-232 | pass 1 over an expression; `NumberedExprLoads` shows it loads only labels numbered in pass 0 |
| CodeGen.EmitStmt | src/gen/CodeGenerator.java:291-328 | pass 1 over a statement; `NumberedStmtLoads` shows it loads only labels numbered in pass 0 |
| CodeGen.EmitBlock | src/gen/CodeGenerator.java:82-89 | pass 1 over a block; `NumberedBlockLoads` and `BodyLinesHaveNoLabels` give what it writes |
| CodeGen.EmitStmts | src/gen/CodeGenerator.java:86-88 | pass 1 over the statements of a block; `NumberedStmtsLoads` gives what it loads |
| CodeGen.EmitFun | src/gen/CodeGenerator.java:95-104 | pass 1 writes the function's label first |
| CodeGen.EmitFuns | src/gen/CodeGenerator.java:126-128 | pass 1 over the functions; `EmittedFunctions` and `EmitFunsPrefix` give what it writes |
| CodeGen.StructTable | src/gen/CodeGenerator.java:109-112 | every struct declared gets its layout as the code computes it (`LayoutAsWritten`), or the build fails |
| CodeGen.SpaceLines | src/gen/CodeGenerator.java:115-118 | one `.space` line per global, and it fails exactly when a global's size does |
| CodeGen.SpaceLinesContents | src/gen/CodeGenerator.java:136-144 | the k-th `.space` line names the k-th global with its size |
| CodeGen.ProgramLines | src/gen/CodeGenerator.java:107-133 | the whole file; `EmittedProgram` gives its shape |
| CodeGen.StructGlobalAsWritten | src/gen/CodeGenerator.java:59-144 | for `struct p {int x; char y; int z;}; struct p g;` the file reserves `g: .space 4`, the size of `z` alone |
| CodeGen.NumberedExprLoads | src/gen/CodeGenerator.java:205-232 | every label a `print_s` loads in pass 1 is one numbered for that expression in pass 0, and a `print_s` of a literal loads that literal |
| CodeGen.NumberedStmtLoads | src/gen/CodeGenerator.java:291-328 | the labels a statement loads in pass 1 are among those it numbered in pass 0 |
| CodeGen.NumberedWhileLoads | src/gen/CodeGenerator.java:297-301 | the same for a `while` |
| CodeGen.NumberedIfLoads | src/gen/CodeGenerator.java:304-311 | the same for an `if` |
| CodeGen.NumberedBlockLoads | src/gen/CodeGenerator.java:77-92 | the same for a block |
| CodeGen.NumberedStmtsLoads | src/gen/CodeGenerator.java:77-92 | the same for the statements of a block |
| CodeGen.LabelsAppend | src/gen/CodeGenerator.java:99 | the labels of joined output are the labels of its parts in order |
| CodeGen.BodyLinesHaveNoLabels | src/gen/CodeGenerator.java:77-92 | a function body writes no label |
| CodeGen.EmittedFunctions | src/gen/CodeGenerator.java:124-128 | pass 1 writes exactly one label per function, in declaration order, and loads only labels numbered in pass 0 |
| CodeGen.FunNames | src/gen/CodeGenerator.java:126-128 | the names of the first n functions, in order |
| CodeGen.EmitFunsPrefix | src/gen/CodeGenerator.java:126-128 | the text of the first n functions depends only on those functions |
| CodeGen.EmittedProgram | src/gen/CodeGenerator.java:107-133 | the output file is `.data`, one `.space` per global and no other, the literals labelled 0, 1, ... in order, `.text`, one label per function in order, and the exit; every loaded label is defined in the data segment |
| CodeGen.Assembled | src/gen/CodeGenerator.java:107-133 | the file splits into its data and text regions at the positions given by their lengths |
| CodeGen.LaidOutLines | src/gen/CodeGenerator.java:107-133 | in that layout only the globals' lines are `.space` lines, and every loaded label is a defined literal |
| CodeGen.OperandsAreSkipped | src/gen/CodeGenerator.java:235-240 | operands of a binary operation are not visited, so a `print_s` inside one numbers and writes nothing |
| CodeGen.CodeGenerator.constructor | src/gen/CodeGenerator.java:19-21 | starts with the temporary registers on the stack and nothing written |
| CodeGen.CodeGenerator.GetRegister | src/gen/CodeGenerator.java:25-31 | follows `Pop` |
| CodeGen.CodeGenerator.FreeRegister | src/gen/CodeGenerator.java:33-35 | follows `Push` |
| CodeGen.CodeGenerator.VisitStructTypeDecl | src/gen/CodeGenerator.java:59-74 | records the layout as the code computes it, every field at offset 0 (`LayoutAsWrittenOverlaps`), and fails exactly when there is none |
| CodeGen.CodeGenerator.VisitVarDecl | src/gen/CodeGenerator.java:136-144 | in pass 0 it writes the `.space` line of the variable, and fails exactly when its size does; in pass 1 it writes nothing |
| CodeGen.CodeGenerator.VisitExpr | src/gen/CodeGenerator.java:147-288 | in pass 0 it numbers the literals and writes their `.asciiz` lines, as `NumberExpr` says; in pass 1 it writes what `EmitExpr` says |
| CodeGen.CodeGenerator.VisitStringLiteral | src/gen/CodeGenerator.java:188-194 | pass 0 gives the literal the next id and writes its `.asciiz` line; pass 1 writes nothing |
| CodeGen.CodeGenerator.VisitFunCallExpr | src/gen/CodeGenerator.java:205-232 | pass 0 numbers the arguments; pass 1 writes the three-line `print_s` sequence loading the literal's label, and nothing for the other calls |
| CodeGen.CodeGenerator.VisitTypecastExpr | src/gen/CodeGenerator.java:283-288 | pass 0 visits the operand; pass 1 writes nothing |
| CodeGen.CodeGenerator.VisitStmt | src/gen/CodeGenerator.java:291-328 | follows `NumberStmt` in pass 0 and `EmitStmt` in pass 1 |
| CodeGen.CodeGenerator.VisitBlockStmt | src/gen/CodeGenerator.java:77-92 | the same for a nested block |
| CodeGen.CodeGenerator.VisitWhile | src/gen/CodeGenerator.java:297-301 | the same for a `while`: the condition, then the body |
| CodeGen.CodeGenerator.VisitIf | src/gen/CodeGenerator.java:304-311 | the same for an `if`: the condition, the then-branch, then any else-branch |
| CodeGen.CodeGenerator.VisitReturn | src/gen/CodeGenerator.java:323-328 | the same for a `return` |
| CodeGen.CodeGenerator.VisitAssign | src/gen/CodeGenerator.java:314-320 | the same for an assignment: the left side, then the right |
| CodeGen.CodeGenerator.VisitExprStmt | src/gen/CodeGenerator.java:291-294 | the same for an expression statement |
| CodeGen.CodeGenerator.VisitBlock | src/gen/CodeGenerator.java:77-92 | follows `NumberBlock` in pass 0 and `EmitBlock` in pass 1 |
| CodeGen.CodeGenerator.NumberBlockStmts | src/gen/CodeGenerator.java:78-81 | the pass-0 loop over the statements follows `NumberBlock` |
| CodeGen.CodeGenerator.EmitBlockStmts | src/gen/CodeGenerator.java:82-89 | the pass-1 loops over the declarations and statements follow `EmitBlock` |
| CodeGen.CodeGenerator.VisitFunDecl | src/gen/CodeGenerator.java:95-104 | pass 0 numbers the body and keeps the rest of the declaration; pass 1 writes the label and the body, as `EmitFun` says |
| CodeGen.CodeGenerator.VisitStructDecls | src/gen/CodeGenerator.java:109-112 | the struct table is the layouts of all declared structs as the code computes them (`StructTable`), and it fails exactly when one has none |
| CodeGen.CodeGenerator.VisitGlobals | src/gen/CodeGenerator.java:116-118 | appends exactly the `.space` lines of the globals |
| CodeGen.CodeGenerator.NumberFunDecls | src/gen/CodeGenerator.java:119-121 | the pass-0 loop over the functions follows `NumberFuns` |
| CodeGen.CodeGenerator.EmitFunDecls | src/gen/CodeGenerator.java:126-128 | the pass-1 loop over the functions follows `EmitFuns` |
| CodeGen.CodeGenerator.VisitProgram | src/gen/CodeGenerator.java:107-133 | appends exactly `ProgramLines`, whose shape `EmittedProgram` gives, and fails exactly when that does |
| CodeGen.CodeGenerator.EmitProgram | src/gen/CodeGenerator.java:39-44 | the file holds exactly `ProgramLines` of the program |

## Left out

- The lexer is not part of this model. The parser reads a fixed sequence
  of tokens, and past its end it reads EOF.
- Tokens.ParseInt: accepts the ASCII digits `0` to `9` only, where
  `Integer.parseInt` also accepts the other Unicode decimal digits. The
  lexer that produces the literal's text is not part of this model.
- The messages printed by `error(...)` and by the semantic error reporter
  are not modelled; only the error counters are.
- The `PrintWriter` and the file are not modelled. The output is the
  sequence of lines written, whose text is `RenderAll`. When an exception
  is thrown (`false` from a code-generator method, `Thrown` in the type
  checker, `crashed` in the parser), the state reached afterwards is not
  described.
- The type checker and the code generator store types and string ids in
  the tree in place. Here the checker returns the type and the slot
  separately, and pass 0 returns the numbered tree. Object identity
  (`lastErrorToken == token`, the shared declaration objects of the
  binder) is modelled by stream positions and by structural equality.
- TypeCheck.CondRule, TypeCheck.CheckStmt, TypeCheck.ReturnRule,
  TypeCheck.TypeCheckVisitor.VisitCond and
  TypeCheck.TypeCheckVisitor.VisitReturn compare types structurally, with
  a single int type. In `src/sem/TypeCheckVisitor.java`, lines 247, 255
  and 279 compare by object identity with the `BaseTypeEnum` value. Two
  visitors return that value: `visitBaseType` (line 17) and the arithmetic
  branch of `visitBinOp` (lines 162-163). So `while (a + b)`, `if (a * 2)`
  and `return a - 1;` in an int function add no error, in the source as in
  the model. A variable (line 85) or a call (line 143) returns the
  `BaseType` object the parser built, `==` and `!=` return their left
  operand's type (line 157), and `sizeof` and a cast (lines 219 and 225)
  create a new `BaseType`. Such an object is never identical to
  `BaseTypeEnum.INT`. So, for conditions and return values whose type
  comes from one of those, the source counts one error for `while (x)`,
  for `if (n == 1)` (whose type is that of `n`) and for `return n;` in an
  int function, where the model counts none.
- The type checker's model rests on `BaseTypeEnum.accept(this)` returning
  the enum value itself, so that a type already normalised by an
  arithmetic operator stays int when it is visited again. The
  `BaseTypeEnum` class is not part of this model. TypeCheck.ArithRule,
  TypeCheck.IndexRule and TypeCheck.CastRule depend on it for nested
  arithmetic such as `(a + b) + c`.
- TypeCheck.EqualityRule and TypeCheck.CastRule compare pointer, array
  and struct types structurally too. In the source these comparisons
  test object identity, so two distinct but equal type objects count as
  different there.
- TypeCheck.InitialSlot: an int literal is taken to hold `int`, and a
  string literal `char[length + 1]`, before they are visited, as
  `ChrLiteral` does for `char`. The classes that set them, `IntLiteral` and
  `StrLiteral`, are not part of this model.
- `Register.java` and the `BaseSemanticVisitor` error counter are not
  part of this model. A register is an opaque value.
- `strID` is an unbounded integer, so the overflow of a Java `int` after
  2^31 string literals is not modelled.
- In pass 1, the calls other than `print_s` and every other expression
  write nothing, as in the source. The empty visitors (literals, binary
  operations, sizeof, types) are folded into the dispatching methods.
- `CodeGen.CodeGenerator.VisitExpr`, `CodeGen.CodeGenerator.VisitStmt`,
  `CodeGen.CodeGenerator.VisitBlock` and `CodeGen.CodeGenerator.VisitFunDecl`
  require `pass` to be 0 or 1. These are the only values `visitProgram`
  sets, and in the source any other value writes nothing.
- TypeCheck.TypeCheckVisitor.VisitStructDecls: requires an empty table,
  which is where `visitProgram` starts; the Java field is `null` before
  `visitProgram` runs, and the model starts from the empty map instead.
- Parser.Parser.Parse: proves that the result is None exactly when the
  `crashed` flag is set, and, per literal, that reading a literal sets the
  flag exactly when its text does not parse (Parser.Parser.ParseLiteral,
  Parser.Parser.ParseDim). It does not prove the converse for the whole
  program, that a parse which reads only well-formed literals returns
  `ProgramAt`'s program: the grammar functions do not record which tokens
  they read as literals (error recovery can skip a literal token without
  reading it), so no "this parse throws" predicate is stated for them.
- Parser.Parser.GetBracket, Parser.Parser.GetCast,
  Parser.Parser.GetIdentorFunc, Parser.Parser.GetNeg, Parser.Parser.GetVAt,
  Parser.Parser.ParseArgs, Parser.Parser.ParseBlock,
  Parser.Parser.ParseCall, Parser.Parser.ParseCommaArg,
  Parser.Parser.ParseCommaParam, Parser.Parser.ParseCondStmt,
  Parser.Parser.ParseCondTail, Parser.Parser.ParseCondition,
  Parser.Parser.ParseDeclarator, Parser.Parser.ParseDecls,
  Parser.Parser.ParseElse, Parser.Parser.ParseElseBranch,
  Parser.Parser.ParseExp, Parser.Parser.ParseExprStmt,
  Parser.Parser.ParseField, Parser.Parser.ParseFirstParam,
  Parser.Parser.ParseFunBody, Parser.Parser.ParseFunDecl,
  Parser.Parser.ParseFunDecls, Parser.Parser.ParseFunHeader,
  Parser.Parser.ParseFunRest, Parser.Parser.ParseIncludes,
  Parser.Parser.ParseIndex, Parser.Parser.ParseLevel,
  Parser.Parser.ParseLevelLoop, Parser.Parser.ParseLevelStep,
  Parser.Parser.ParseMoreArgs, Parser.Parser.ParseMoreParams,
  Parser.Parser.ParseNameOrCall, Parser.Parser.ParseOperand,
  Parser.Parser.ParseParams, Parser.Parser.ParseProgram,
  Parser.Parser.ParseReturn, Parser.Parser.ParseSizeOf,
  Parser.Parser.ParseStmt, Parser.Parser.ParseStmts,
  Parser.Parser.ParseStructArray, Parser.Parser.ParseStructDecl,
  Parser.Parser.ParseStructDeclTurn, Parser.Parser.ParseStructDecls,
  Parser.Parser.ParseStructHeader, Parser.Parser.ParseVarDecls,
  Parser.Parser.ParseVarDeclsFrom, Parser.Parser.ParseArrayDims: give the
  error counter only as non-decreasing (the `Monotone` predicate), apart
  from the idle cases their rows name. Exact counts are stated for
  Parser.Parser.Error, Parser.Parser.Expect, Parser.Parser.ExpectNext,
  Parser.Parser.ParseType, Parser.Parser.ParseLiteral and the no-operand
  cases of Parser.Parser.ParseMLB and Parser.Parser.ParseOtherOperand; no
  grammar-level error count is defined.
- The parser examples are stated for token streams with the given token
  classes and any names, not for one concrete source text.
- `FoldLeft` is the shape of one precedence level's tree. It is tied to
  the grammar through the examples; no lemma folds `LevelLoopAt` into
  `FoldLeft` for every token stream.
- The `assert` statements in `lookAhead` are Java assertions, which are
  normally disabled. The model proves the buffer invariant that makes them
  hold.

## Findings

| source | as written | input that shows it | evidently intended | confidence | as-written member | corrected member |
|---|---|---|---|---|---|---|
| src/gen/CodeGenerator.java:63-71 | the `first` flag is never cleared, so every field is placed at offset 0 and the struct's size is that of its last field; the code generator here follows the code as written (`StructTable`, `StructGlobalAsWritten`) | `struct p {int x; char y; int z;}; struct p g;` gives offsets 0, 0, 0, size 4 and `g: .space 4` | each field placed right after the previous one: offsets 0, 4, 5 and size 9 | not executed | CodeGen.LayoutAsWrittenOverlaps | CodeGen.LayoutPacked |

=== FILE: ast.dfy ===
/** The abstract syntax tree shared by the parser, the type checker and the
    code generator of the small C compiler. Java `null` children, which the
    parser can produce, are the `Missing` expression; the slots the later
    passes fill (the binder's declarations, string-literal ids) are fields. */
module Ast {

  datatype Option<T> = None | Some(value: T)

  datatype BaseKind = Int | Char | Void

  /** Type = BaseType | PointerType | ArrayType | StructType. */
  datatype Type =
    | Base(kind: BaseKind)
    | Pointer(to: Type)
    | Array(elem: Type, size: int)
    | Struct(name: string)

  const IntType := Base(Int)
  const CharType := Base(Char)
  const VoidType := Base(Void)

  datatype Op = Add | Sub | Mul | Div | Mod | Gt | Lt | Ge | Le | Ne | Eq | Or | And

  datatype Expr =
    | IntLit(value: int)
    | ChrLit(c: char)
      /** `id` is the slot the code generator's first pass numbers (0 until then). */
    | StrLit(text: string, id: int)
      /** `vd` is the type of the VarDecl the binder resolved the name to. */
    | Var(name: string, vd: Option<Type>)
      /** `fd` is the return type of the FunDecl the binder resolved the call to. */
    | FunCall(name: string, args: seq<Expr>, fd: Option<Type>)
    | BinOp(lhs: Expr, rhs: Expr, op: Op)
    | ArrayAccess(arr: Expr, index: Expr)
    | FieldAccess(record: Expr, field: string)
    | ValueAt(ptr: Expr)
    | SizeOf(ty: Type)
    | Typecast(target: Type, operand: Expr)
      /** A Java `null` where an expression was expected. */
    | Missing

  datatype VarDecl = VarDecl(ty: Type, name: string)

  datatype Block = Block(vars: seq<VarDecl>, stmts: seq<Stmt>)

  datatype Stmt =
    | BlockStmt(block: Block)
    | While(cond: Expr, body: Stmt)
    | If(cond: Expr, thenS: Stmt, elseS: Option<Stmt>)
    | Return(value: Option<Expr>)
    | Assign(lhs: Expr, rhs: Expr)
    | ExprStmt(exp: Expr)

  datatype FunDecl = FunDecl(ret: Type, name: string, params: seq<VarDecl>, body: Block)

  datatype StructDecl = StructDecl(name: string, fields: seq<VarDecl>)

  datatype Program = Program(structs: seq<StructDecl>, globals: seq<VarDecl>, funs: seq<FunDecl>)
}

=== FILE: codegen.dfy ===
/** The parts of the code generator (gen.CodeGenerator) that exist: the
    register stack, the struct layout table and findSize, the string-literal
    numbering of the first pass and the lines both passes write. The output
    file is the sequence of lines written to it. */
module CodeGen {
  import opened Ast
  import opened Tokens

  //== Java int arithmetic

  const TwoTo32 := 0x1_0000_0000

  /** A mathematical integer wrapped to Java's 32-bit int. */
  function Int32(x: int): (r: int)
    ensures MinInt <= r <= MaxInt
  {
    (x - MinInt) % TwoTo32 + MinInt
  }

  /** Wrapping changes a number by a multiple of 2^32 and leaves an int
      unchanged. */
  lemma Int32Wraps(x: int)
    ensures (Int32(x) - x) % TwoTo32 == 0
    ensures MinInt <= x <= MaxInt ==> Int32(x) == x
  {
    var q := (x - MinInt) / TwoTo32;
    assert x - MinInt == TwoTo32 * q + (x - MinInt) % TwoTo32;
    assert Int32(x) - x == -TwoTo32 * q;
  }

  /** Wrapping after every step is wrapping once at the end (additions). */
  lemma Int32Add(a: int, b: int)
    ensures Int32(Int32(a) + b) == Int32(a + b)
  {
    Int32Wraps(a);
    Int32Congruent(Int32(a) + b, a + b);
  }

  /** Wrapping after every step is wrapping once at the end (products). */
  lemma Int32Mul(a: int, b: int)
    ensures Int32(a * Int32(b)) == Int32(a * b)
  {
    var d := Int32(b) - b;
    Int32Wraps(b);
    var q := d / TwoTo32;
    assert d == TwoTo32 * q;
    MulSpread(a, b, q);
    Int32Congruent(a * Int32(b), a * b);
  }

  /** a * (b + 2^32 q) lies a multiple of 2^32 away from a * b. */
  lemma MulSpread(a: int, b: int, q: int)
    ensures (a * (b + TwoTo32 * q) - a * b) % TwoTo32 == 0
  {
    assert a * (b + TwoTo32 * q) - a * b == TwoTo32 * (a * q);
  }

  /** Numbers that differ by a multiple of 2^32 wrap to the same int. */
  lemma Int32Congruent(x: int, y: int)
    requires (x - y) % TwoTo32 == 0
    ensures Int32(x) == Int32(y)
  {
    var q := (x - y) / TwoTo32;
    assert x - MinInt == (y - MinInt) + TwoTo32 * q;
    ModShift(y - MinInt, q);
  }

  lemma ModShift(x: int, q: int)
    ensures (x + TwoTo32 * q) % TwoTo32 == x % TwoTo32
  {
    var r := x % TwoTo32;
    var d := x / TwoTo32;
    assert x == TwoTo32 * d + r;
    assert x + TwoTo32 * q == TwoTo32 * (d + q) + r;
  }

  //== Decimal text of an int, as Java's string concatenation writes it

  function DigitChar(d: nat): (c: char)
    requires d < 10
    ensures IsDigit(c) && c as int - '0' as int == d
  {
    ('0' as int + d) as char
  }

  /** The decimal digits of a natural number, without leading zeros. */
  function NatToString(n: nat): (s: string)
    ensures |s| > 0 && forall k :: 0 <= k < |s| ==> IsDigit(s[k])
  {
    if n < 10 then [DigitChar(n)] else NatToString(n / 10) + [DigitChar(n % 10)]
  }

  function IntToString(n: int): string
  {
    if n < 0 then "-" + NatToString(-n) else NatToString(n)
  }

  /** Reading the digits back gives the number. */
  lemma {:induction false} NatToStringRoundTrip(n: nat)
    ensures DigitsValue(NatToString(n)) == n
  {
    var s := NatToString(n);
    if n < 10 {
      assert s[..|s| - 1] == [];
    } else {
      NatToStringRoundTrip(n / 10);
      assert s[..|s| - 1] == NatToString(n / 10);
    }
  }

  /** Integer.parseInt reads back the decimal text of every 32-bit value. */
  lemma ParseIntRoundTrip(n: int)
    requires MinInt <= n <= MaxInt
    ensures ParseInt(IntToString(n)) == Some(n)
  {
    var m: nat := if n < 0 then -n else n;
    var digits := NatToString(m);
    NatToStringRoundTrip(m);
    AllDigitsMeans(digits);
    if n < 0 {
      assert IntToString(n)[1..] == digits;
    }
    assert Unsigned(IntToString(n)) == digits;
  }

  /** Different numbers have different texts, so String labels never clash. */
  lemma NatToStringInjective(m: nat, n: nat)
    requires NatToString(m) == NatToString(n)
    ensures m == n
  {
    NatToStringRoundTrip(m);
    NatToStringRoundTrip(n);
  }

  //== The register stack

  datatype Register = Register(name: string)

  /** What getRegister hands out: a register, or the RegisterAllocationError
      it throws when the stack is empty. */
  datatype Alloc = Allocated(reg: Register) | RegisterAllocationError

  /** freeRegister: pushes on top (the end of the sequence). */
  function Push(stack: seq<Register>, r: Register): (s: seq<Register>)
    ensures |s| == |stack| + 1 && s[|stack|] == r && s[..|stack|] == stack
  {
    stack + [r]
  }

  /** getRegister: pops the top, or fails on an empty stack. */
  function Pop(stack: seq<Register>): (r: (Alloc, seq<Register>))
    ensures stack == [] ==> r == (RegisterAllocationError, stack)
    ensures stack != [] ==> r.0 == Allocated(stack[|stack| - 1]) && r.1 + [r.0.reg] == stack
  {
    if stack == [] then (RegisterAllocationError, stack)
    else (Allocated(stack[|stack| - 1]), stack[..|stack| - 1])
  }

  /** A freed register is the next one handed out, and the stack is back to
      what it was: the pool is LIFO. */
  lemma PopAfterPush(stack: seq<Register>, r: Register)
    ensures Pop(Push(stack, r)) == (Allocated(r), stack)
  {
  }

  /** Popping everything hands the registers out in reverse order and then
      fails. */
  lemma {:induction false} PopAll(stack: seq<Register>, k: nat)
    requires k <= |stack|
    ensures var (a, rest) := PopN(stack, k);
            rest == stack[..|stack| - k]
            && |a| == k && forall j :: 0 <= j < k ==> a[j] == Allocated(stack[|stack| - 1 - j])
    decreases k
  {
    if k > 0 {
      PopAll(stack, k - 1);
    }
  }

  /** `k` consecutive getRegister calls. */
  function PopN(stack: seq<Register>, k: nat): (seq<Alloc>, seq<Register>)
  {
    if k == 0 then ([], stack)
    else
      var (a, rest) := PopN(stack, k - 1);
      var (b, rest') := Pop(rest);
      (a + [b], rest')
  }

  //== Struct layout and findSize

  /** An entry of a struct's offset list: a field and its offset, or (with
      no field) the final entry holding the struct's size. */
  datatype Offset = Offset(field: Option<string>, pos: int)

  /** The `structs` table of the code generator. */
  type Layouts = map<string, seq<Offset>>

  /** findSize(t): pointer 4, int 4, char 1, array size times element size
      (as a Java int), struct the last entry of its offset list, anything
      else 4. None stands for the exception an unknown struct (null list) or
      an empty list throws. */
  function FindSize(structs: Layouts, t: Type): (r: Option<int>)
    ensures r.Some? && !t.Struct? ==> MinInt <= r.value <= MaxInt
  {
    match t
    case Pointer(_) => Some(4)
    case Base(k) => if k == Int then Some(4) else if k == Char then Some(1) else Some(4)
    case Array(elem, n) =>
      var e := FindSize(structs, elem);
      if e.None? then None else Some(Int32(n * e.value))
    case Struct(name) =>
      if name !in structs || structs[name] == [] then None
      else Some(structs[name][|structs[name]| - 1].pos)
  }

  /** The struct whose table findSize reads for `t`: `t` is that struct,
      or an array (of arrays ...) of it. Pointers are not looked into. */
  predicate StructInArrays(t: Type, name: string)
  {
    match t
    case Struct(n) => n == name
    case Array(elem, _) => StructInArrays(elem, name)
    case _ => false
  }

  /** findSize fails exactly when `t` reaches a struct with no offset list
      or an empty one. */
  lemma {:induction false} FindSizeFails(structs: Layouts, t: Type)
    ensures FindSize(structs, t).None? <==>
              exists u :: StructInArrays(t, u) && (u !in structs || structs[u] == [])
  {
    match t
    case Array(elem, _) => FindSizeFails(structs, elem);
    case Struct(name) => assert StructInArrays(t, name);
    case _ =>
  }

  /** findSize of `t` does not depend on the offsets of a struct it does not
      reach. */
  lemma {:induction false} FindSizeFrame(structs: Layouts, t: Type, name: string, l: seq<Offset>)
    requires !StructInArrays(t, name)
    ensures FindSize(structs[name := l], t) == FindSize(structs, t)
  {
    match t
    case Array(elem, _) => FindSizeFrame(structs, elem, name, l);
    case _ =>
  }

  /** An array of arrays of ints has the size of the product of the
      dimensions and four, wrapped once. */
  lemma NestedIntArraySize(structs: Layouts, m: int, n: int)
    ensures FindSize(structs, Array(Array(IntType, m), n)) == Some(Int32(n * m * 4))
  {
    assert FindSize(structs, Array(IntType, m)) == Some(Int32(m * 4));
    Int32Mul(n, m * 4);
    assert n * (m * 4) == n * m * 4;
  }
  /** One turn of visitStructTypeDecl's loop: place `field` at 0 when
      `first` holds and otherwise right after the last entry (whose field
      has size `sizeLast`); the new size is the field's. While the loop runs
      the table already maps the struct's name to the list being built,
      which is what findSize sees for a field of the struct's own type. */
  function PlaceField(structs: Layouts, name: string, cur: seq<Offset>, sizeLast: int, first: bool, field: VarDecl)
    : (r: Option<(seq<Offset>, int)>)
    requires first || cur != []
    ensures r.Some? ==> |r.value.0| == |cur| + 1
  {
    var pos := if first then 0 else Int32(cur[|cur| - 1].pos + sizeLast);
    var cur' := cur + [Offset(Some(field.name), pos)];
    var size := FindSize(structs[name := cur'], field.ty);
    if size.None? then None else Some((cur', size.value))
  }

  /** The loop after its first `n` turns: the offset list so far and the
      size of the last field. With `clearsFirst` the flag is cleared after
      the first field; without it the flag stays set, as in the code. */
  function LayoutPrefix(structs: Layouts, sd: StructDecl, n: nat, clearsFirst: bool): (r: Option<(seq<Offset>, int)>)
    requires n <= |sd.fields|
    ensures r.Some? ==> |r.value.0| == n
  {
    if n == 0 then Some(([], 0))
    else
      var prev := LayoutPrefix(structs, sd, n - 1, clearsFirst);
      if prev.None? then None
      else PlaceField(structs, sd.name, prev.value.0, prev.value.1, n == 1 || !clearsFirst, sd.fields[n - 1])
  }

  /** One more turn of the corrected loop. */
  lemma LayoutPrefixStep(structs: Layouts, sd: StructDecl, i: nat, cur: seq<Offset>, sizeLast: int)
    requires i < |sd.fields| && LayoutPrefix(structs, sd, i, true) == Some((cur, sizeLast))
    ensures i == 0 || cur != []
    ensures LayoutPrefix(structs, sd, i + 1, true) == PlaceField(structs, sd.name, cur, sizeLast, i == 0, sd.fields[i])
  {
  }

  /** The entry after the loop: the last offset plus the last size. None
      stands for the exception getLast throws on an empty struct, or one an
      unknown struct type throws inside the loop. */
  function CloseLayout(r: Option<(seq<Offset>, int)>): (l: Option<seq<Offset>>)
    ensures l.Some? ==> r.Some? && |l.value| == |r.value.0| + 1 && l.value[..|r.value.0|] == r.value.0
  {
    if r.None? || r.value.0 == [] then None
    else
      var cur := r.value.0;
      Some(cur + [Offset(None, Int32(cur[|cur| - 1].pos + r.value.1))])
  }

  /** The offset list visitStructTypeDecl registers: one entry per field
      and a final entry with the total size. */
  function Layout(structs: Layouts, sd: StructDecl): (r: Option<seq<Offset>>)
    ensures r.Some? ==> sd.fields != [] && |r.value| == |sd.fields| + 1 && r.value[|sd.fields|].field == None
  {
    CloseLayout(LayoutPrefix(structs, sd, |sd.fields|, true))
  }

  /** The entry the corrected loop closes with. */
  lemma LayoutClosed(structs: Layouts, sd: StructDecl, cur: seq<Offset>, sizeLast: int)
    requires LayoutPrefix(structs, sd, |sd.fields|, true) == Some((cur, sizeLast))
    ensures Layout(structs, sd).Some? <==> cur != []
    ensures cur != [] ==> Layout(structs, sd).value == cur + [Offset(None, Int32(cur[|cur| - 1].pos + sizeLast))]
  {
  }

  /** The list the code registers as written: `first` is never cleared, so
      every field is placed at offset 0. */
  function LayoutAsWritten(structs: Layouts, sd: StructDecl): (r: Option<seq<Offset>>)
    ensures r.Some? ==> sd.fields != [] && |r.value| == |sd.fields| + 1 && r.value[|sd.fields|].field == None
  {
    CloseLayout(LayoutPrefix(structs, sd, |sd.fields|, false))
  }

  /** One more turn of the loop as written: the flag is still set. */
  lemma LayoutAsWrittenStep(structs: Layouts, sd: StructDecl, i: nat, cur: seq<Offset>, sizeLast: int)
    requires i < |sd.fields| && LayoutPrefix(structs, sd, i, false) == Some((cur, sizeLast))
    ensures LayoutPrefix(structs, sd, i + 1, false) == PlaceField(structs, sd.name, cur, sizeLast, true, sd.fields[i])
  {
  }

  /** The loop as written places every field at offset 0, and its last
      size is the size of the last field placed. */
  lemma {:induction false} LayoutPrefixAsWritten(structs: Layouts, sd: StructDecl, n: nat)
    requires n <= |sd.fields| && Sized(structs, sd)
    ensures LayoutPrefix(structs, sd, n, false).Some?
    ensures forall k :: 0 <= k < n ==> LayoutPrefix(structs, sd, n, false).value.0[k] == Offset(Some(sd.fields[k].name), 0)
    ensures n > 0 ==> FindSize(structs, sd.fields[n - 1].ty) == Some(LayoutPrefix(structs, sd, n, false).value.1)
  {
    if n > 0 {
      LayoutPrefixAsWritten(structs, sd, n - 1);
      var prev := LayoutPrefix(structs, sd, n - 1, false);
      var cur, sizeLast := prev.value.0, prev.value.1;
      assert FieldSized(structs, sd, n - 1);
      PlaceFieldSized(structs, sd.name, cur, sizeLast, true, sd.fields[n - 1]);
      var next := cur + [Offset(Some(sd.fields[n - 1].name), 0)];
      assert LayoutPrefix(structs, sd, n, false).value.0 == next;
      forall k | 0 <= k < n
        ensures next[k] == Offset(Some(sd.fields[k].name), 0)
      {
        if k < n - 1 {
          assert next[k] == cur[k];
        }
      }
    }
  }

  /** visitStructTypeDecl as written: every field shares offset 0 and the
      struct's size is the size of its last field alone; an empty struct
      has no layout. */
  lemma LayoutAsWrittenOverlaps(structs: Layouts, sd: StructDecl)
    requires Sized(structs, sd)
    ensures LayoutAsWritten(structs, sd).Some? <==> |sd.fields| > 0
    ensures LayoutAsWritten(structs, sd).Some? ==>
              var l := LayoutAsWritten(structs, sd).value;
              && |l| == |sd.fields| + 1
              && (forall k :: 0 <= k < |sd.fields| ==> l[k] == Offset(Some(sd.fields[k].name), 0))
              && FindSize(structs, sd.fields[|sd.fields| - 1].ty).Some?
              && l[|sd.fields|] == Offset(None, Int32(FindSize(structs, sd.fields[|sd.fields| - 1].ty).value))
  {
    var n := |sd.fields|;
    LayoutPrefixAsWritten(structs, sd, n);
    if n > 0 {
      var r := LayoutPrefix(structs, sd, n, false);
      var cur := r.value.0;
      assert cur[n - 1].pos == 0;
      var l := cur + [Offset(None, Int32(cur[n - 1].pos + r.value.1))];
      assert LayoutAsWritten(structs, sd) == Some(l);
      forall k | 0 <= k < n
        ensures l[k] == Offset(Some(sd.fields[k].name), 0)
      {
        assert l[k] == cur[k];
      }
    }
  }

  /** The sum of the sizes of the first `n` fields (a field without a size
      counts as 0; the lemmas below only use fields that have one). */
  function SumSizes(structs: Layouts, fields: seq<VarDecl>, n: nat): int
    requires n <= |fields|
  {
    if n == 0 then 0
    else
      var size := FindSize(structs, fields[n - 1].ty);
      SumSizes(structs, fields, n - 1) + (if size.Some? then size.value else 0)
  }

  /** Field `k` of `sd` has a size that does not depend on `sd` itself. */
  predicate FieldSized(structs: Layouts, sd: StructDecl, k: int)
  {
    0 <= k < |sd.fields| && !StructInArrays(sd.fields[k].ty, sd.name) && FindSize(structs, sd.fields[k].ty).Some?
  }

  predicate Sized(structs: Layouts, sd: StructDecl)
  {
    forall k :: 0 <= k < |sd.fields| ==> FieldSized(structs, sd, k)
  }

  /** Entry `k` of `l` places field `k` at the sum of the sizes before it,
      as a Java int. */
  predicate PackedAt(structs: Layouts, fields: seq<VarDecl>, l: seq<Offset>, k: int)
  {
    0 <= k < |fields| && k < |l| && l[k] == Offset(Some(fields[k].name), Int32(SumSizes(structs, fields, k)))
  }

  /** One turn on a field whose size does not depend on the struct. */
  lemma PlaceFieldSized(structs: Layouts, name: string, cur: seq<Offset>, sizeLast: int, first: bool, field: VarDecl)
    requires first || cur != []
    requires !StructInArrays(field.ty, name) && FindSize(structs, field.ty).Some?
    ensures var pos := if first then 0 else Int32(cur[|cur| - 1].pos + sizeLast);
            PlaceField(structs, name, cur, sizeLast, first, field)
            == Some((cur + [Offset(Some(field.name), pos)], FindSize(structs, field.ty).value))
  {
    var pos := if first then 0 else Int32(cur[|cur| - 1].pos + sizeLast);
    FindSizeFrame(structs, field.ty, name, cur + [Offset(Some(field.name), pos)]);
  }

  /** Adding the next field's size to an offset that is the running sum
      so far (as a Java int) gives the next running sum. */
  lemma RunningSumStep(structs: Layouts, fields: seq<VarDecl>, n: nat, pos: int, size: int)
    requires 0 < n <= |fields|
    requires pos == Int32(SumSizes(structs, fields, n - 1))
    requires FindSize(structs, fields[n - 1].ty) == Some(size)
    ensures Int32(pos + size) == Int32(SumSizes(structs, fields, n))
  {
    Int32Add(SumSizes(structs, fields, n - 1), size);
  }

  /** One turn of the corrected loop on a sized field: the field lands at
      the running sum of the sizes before it. */
  lemma PackedStep(structs: Layouts, sd: StructDecl, n: nat, cur: seq<Offset>, sizeLast: int)
    requires 0 < n <= |sd.fields|
    requires !StructInArrays(sd.fields[n - 1].ty, sd.name) && FindSize(structs, sd.fields[n - 1].ty).Some?
    requires LayoutPrefix(structs, sd, n - 1, true) == Some((cur, sizeLast))
    requires n > 1 ==> cur[n - 2].pos == Int32(SumSizes(structs, sd.fields, n - 2))
                       && FindSize(structs, sd.fields[n - 2].ty) == Some(sizeLast)
    ensures LayoutPrefix(structs, sd, n, true)
            == Some((cur + [Offset(Some(sd.fields[n - 1].name), Int32(SumSizes(structs, sd.fields, n - 1)))],
                     FindSize(structs, sd.fields[n - 1].ty).value))
  {
    var pos := if n == 1 then 0 else Int32(cur[|cur| - 1].pos + sizeLast);
    PlaceFieldSized(structs, sd.name, cur, sizeLast, n == 1, sd.fields[n - 1]);
    if n > 1 {
      RunningSumStep(structs, sd.fields, n - 1, cur[n - 2].pos, sizeLast);
    } else {
      Int32Wraps(0);
    }
  }

  /** The layout is packed: field k sits at the sum of the sizes before it
      (as a Java int), and the loop's last size is the last field's. */
  lemma {:induction false} LayoutPrefixPacked(structs: Layouts, sd: StructDecl, n: nat)
    requires n <= |sd.fields| && Sized(structs, sd)
    ensures LayoutPrefix(structs, sd, n, true).Some?
    ensures forall k :: 0 <= k < n ==> PackedAt(structs, sd.fields, LayoutPrefix(structs, sd, n, true).value.0, k)
    ensures n > 0 ==> FindSize(structs, sd.fields[n - 1].ty) == Some(LayoutPrefix(structs, sd, n, true).value.1)
  {
    if n > 0 {
      LayoutPrefixPacked(structs, sd, n - 1);
      var prev := LayoutPrefix(structs, sd, n - 1, true);
      var cur, sizeLast := prev.value.0, prev.value.1;
      assert FieldSized(structs, sd, n - 1);
      if n > 1 {
        assert PackedAt(structs, sd.fields, cur, n - 2);
      }
      PackedStep(structs, sd, n, cur, sizeLast);
      var next := cur + [Offset(Some(sd.fields[n - 1].name), Int32(SumSizes(structs, sd.fields, n - 1)))];
      forall k | 0 <= k < n
        ensures PackedAt(structs, sd.fields, next, k)
      {
        if k < n - 1 {
          assert PackedAt(structs, sd.fields, cur, k);
          assert next[k] == cur[k];
        }
      }
    }
  }

  /** visitStructTypeDecl (with the first-field flag cleared after the
      first field): offsets are running sums of the field sizes and the
      final entry is the total; an empty struct has no layout. */
  lemma LayoutPacked(structs: Layouts, sd: StructDecl)
    requires Sized(structs, sd)
    ensures Layout(structs, sd).Some? <==> |sd.fields| > 0
    ensures Layout(structs, sd).Some? ==>
              var l := Layout(structs, sd).value;
              && |l| == |sd.fields| + 1
              && (forall k :: 0 <= k < |sd.fields| ==> PackedAt(structs, sd.fields, l, k))
              && l[|sd.fields|] == Offset(None, Int32(SumSizes(structs, sd.fields, |sd.fields|)))
  {
    var n := |sd.fields|;
    LayoutPrefixPacked(structs, sd, n);
    if n > 0 {
      var r := LayoutPrefix(structs, sd, n, true);
      var cur, sizeLast := r.value.0, r.value.1;
      assert PackedAt(structs, sd.fields, cur, n - 1);
      RunningSumStep(structs, sd.fields, n, cur[n - 1].pos, sizeLast);
      assert Layout(structs, sd) == CloseLayout(r);
      var l := cur + [Offset(None, Int32(cur[n - 1].pos + sizeLast))];
      assert CloseLayout(r) == Some(l);
      forall k | 0 <= k < n
        ensures PackedAt(structs, sd.fields, l, k)
      {
        assert PackedAt(structs, sd.fields, cur, k);
        assert l[k] == cur[k];
      }
    }
  }

  /** `struct p { int x; char y; int z; };` as written: every field at 0
      and a total of 4 (the last field's size); packed: 0, 4, 5 and 9. */
  lemma LayoutAsWrittenOverlapsFields(structs: Layouts)
    ensures var sd := StructDecl("p", [VarDecl(IntType, "x"), VarDecl(CharType, "y"), VarDecl(IntType, "z")]);
            && LayoutAsWritten(structs, sd)
               == Some([Offset(Some("x"), 0), Offset(Some("y"), 0), Offset(Some("z"), 0), Offset(None, 4)])
            && Layout(structs, sd)
               == Some([Offset(Some("x"), 0), Offset(Some("y"), 4), Offset(Some("z"), 5), Offset(None, 9)])
  {
    var x, y, z := VarDecl(IntType, "x"), VarDecl(CharType, "y"), VarDecl(IntType, "z");
    var sd := StructDecl("p", [x, y, z]);
    assert sd.fields[0] == x && sd.fields[1] == y && sd.fields[2] == z;
    Int32Wraps(4);
    Int32Wraps(5);
    Int32Wraps(9);
    var a1 := [Offset(Some("x"), 0)];
    var a2 := a1 + [Offset(Some("y"), 0)];
    var a3 := a2 + [Offset(Some("z"), 0)];
    assert FindSize(structs, x.ty) == Some(4) && FindSize(structs, y.ty) == Some(1) && FindSize(structs, z.ty) == Some(4);
    PlaceFieldSized(structs, "p", [], 0, true, x);
    assert [] + [Offset(Some(x.name), 0)] == a1;
    PlaceFieldSized(structs, "p", a1, 4, true, y);
    PlaceFieldSized(structs, "p", a2, 1, true, z);
    assert LayoutPrefix(structs, sd, 0, false) == Some(([], 0));
    assert LayoutPrefix(structs, sd, 1, false) == Some((a1, 4));
    assert LayoutPrefix(structs, sd, 2, false) == Some((a2, 1));
    assert LayoutPrefix(structs, sd, 3, false) == Some((a3, 4));
    assert CloseLayout(Some((a3, 4))) == Some(a3 + [Offset(None, 4)]);
    assert LayoutAsWritten(structs, sd) == Some(a3 + [Offset(None, 4)]);
    assert a3 + [Offset(None, 4)] == [Offset(Some("x"), 0), Offset(Some("y"), 0), Offset(Some("z"), 0), Offset(None, 4)];
    var b2 := a1 + [Offset(Some("y"), 4)];
    var b3 := b2 + [Offset(Some("z"), 5)];
    PlaceFieldSized(structs, "p", a1, 4, false, y);
    PlaceFieldSized(structs, "p", b2, 1, false, z);
    assert LayoutPrefix(structs, sd, 0, true) == Some(([], 0));
    assert LayoutPrefix(structs, sd, 1, true) == Some((a1, 4));
    assert LayoutPrefix(structs, sd, 2, true) == Some((b2, 1));
    assert LayoutPrefix(structs, sd, 3, true) == Some((b3, 4));
    assert CloseLayout(Some((b3, 4))) == Some(b3 + [Offset(None, 9)]);
    assert Layout(structs, sd) == Some(b3 + [Offset(None, 9)]);
    assert b3 + [Offset(None, 9)] == [Offset(Some("x"), 0), Offset(Some("y"), 4), Offset(Some("z"), 5), Offset(None, 9)];
  }

  //== The lines written to the output file

  /** A line of the output; Render gives its exact text. */
  datatype Line =
    | Segment(name: string)
    | Space(name: string, size: int)
    | Asciiz(id: int, text: string)
    | Label(name: string)
    | LoadAddress(id: int)
    | Instr(text: string)

  function Render(l: Line): string
  {
    match l
    case Segment(name) => name
    case Space(name, size) => "\t" + name + ": .space " + IntToString(size)
    case Asciiz(id, text) => "\tString" + IntToString(id) + ": .asciiz \"" + text + "\""
    case Label(name) => name + ":"
    case LoadAddress(id) => "\tla $a0, String" + IntToString(id)
    case Instr(text) => "\t" + text
  }

  /** The text written for a sequence of lines, one string per line. */
  function RenderAll(ls: seq<Line>): seq<string>
  {
    if ls == [] then [] else RenderAll(ls[..|ls| - 1]) + [Render(ls[|ls| - 1])]
  }

  /** The `k`-th string written is the text of the `k`-th line. */
  lemma {:induction false} RenderAllLines(ls: seq<Line>)
    ensures |RenderAll(ls)| == |ls| && forall k :: 0 <= k < |ls| ==> RenderAll(ls)[k] == Render(ls[k])
  {
    if ls != [] {
      RenderAllLines(ls[..|ls| - 1]);
    }
  }

  lemma {:induction false} RenderAllAppend(a: seq<Line>, b: seq<Line>)
    ensures RenderAll(a + b) == RenderAll(a) + RenderAll(b)
  {
    var l, r := RenderAll(a + b), RenderAll(a) + RenderAll(b);
    RenderAllLines(a + b);
    RenderAllLines(a);
    RenderAllLines(b);
    assert |l| == |r|;
    forall k | 0 <= k < |l| ensures l[k] == r[k]
    {
      if k < |a| {
        assert (a + b)[k] == a[k];
      } else {
        assert (a + b)[k] == b[k - |a|];
      }
    }
  }

  /** What visitStringLiteral writes for the texts numbered from `id` on,
      one line each. */
  function StringLines(id: int, texts: seq<string>): seq<Line>
  {
    if texts == [] then [] else StringLines(id, texts[..|texts| - 1]) + [Asciiz(id + |texts| - 1, texts[|texts| - 1])]
  }

  /** One `.asciiz` line per text, labelled with consecutive ids. */
  lemma {:induction false} StringLinesAt(id: int, texts: seq<string>)
    ensures |StringLines(id, texts)| == |texts|
    ensures forall k :: 0 <= k < |texts| ==> StringLines(id, texts)[k] == Asciiz(id + k, texts[k])
  {
    if texts != [] {
      StringLinesAt(id, texts[..|texts| - 1]);
    }
  }

  /** The three lines of a print_s call whose argument is literal `id`. */
  function PrintString(id: int): seq<Line>
  {
    [Instr("li $v0, 4"), LoadAddress(id), Instr("syscall")]
  }

  /** The default exit, written as a single line. */
  const Exit := Instr("li $v0, 10\n\tsyscall")

  //== Pass 0: numbering the string literals

  /** A node after pass 0, and the texts of the literals it numbered, in
      visit order. */
  datatype Numbered<T> = Numbered(node: T, texts: seq<string>)

  /** Pass 0 over an expression: string literals take the next ids, calls
      visit their arguments, casts their operand; nothing else is entered.
      None stands for the NullPointerException of visiting a missing
      expression. */
  function NumberExpr(e: Expr, id: int): (r: Option<Numbered<Expr>>)
    ensures r.Some? && e.StrLit? ==> r.value.node == StrLit(e.text, id) && r.value.texts == [e.text]
    decreases e, 1
  {
    match e
    case StrLit(text, _) => Some(Numbered(StrLit(text, id), [text]))
    case FunCall(name, args, fd) =>
      var r := NumberArgs(e, |args|, id);
      if r.None? then None else Some(Numbered(FunCall(name, r.value.node, fd), r.value.texts))
    case Typecast(target, operand) =>
      var r := NumberExpr(operand, id);
      if r.None? then None else Some(Numbered(Typecast(target, r.value.node), r.value.texts))
    case Missing => None
    case _ => Some(Numbered(e, []))
  }

  /** The first `n` arguments of a call, left to right. */
  function NumberArgs(e: Expr, n: nat, id: int): (r: Option<Numbered<seq<Expr>>>)
    requires e.FunCall? && n <= |e.args|
    ensures r.Some? ==> |r.value.node| == n
    decreases e, 0, n
  {
    if n == 0 then Some(Numbered([], []))
    else
      var prev := NumberArgs(e, n - 1, id);
      if prev.None? then None
      else
        var last := NumberExpr(e.args[n - 1], id + |prev.value.texts|);
        if last.None? then None
        else Some(Numbered(prev.value.node + [last.value.node], prev.value.texts + last.value.texts))
  }

  /** The first argument is numbered first: from `id` on, and its texts
      open the call's. */
  lemma {:induction false} NumberArgsFirst(e: Expr, n: nat, id: int)
    requires e.FunCall? && 0 < n <= |e.args| && NumberArgs(e, n, id).Some?
    ensures var first, r := NumberExpr(e.args[0], id), NumberArgs(e, n, id).value;
            first.Some? && r.node[0] == first.value.node && first.value.texts <= r.texts
  {
    if n > 1 {
      NumberArgsFirst(e, n - 1, id);
    }
  }

  function NumberStmt(s: Stmt, id: int): (r: Option<Numbered<Stmt>>)
    decreases s, 0
  {
    match s
    case BlockStmt(b) =>
      var r := NumberBlock(b, id);
      if r.None? then None else Some(Numbered(BlockStmt(r.value.node), r.value.texts))
    case While(cond, body) =>
      var c := NumberExpr(cond, id);
      if c.None? then None
      else
        var t := NumberStmt(body, id + |c.value.texts|);
        if t.None? then None
        else Some(Numbered(While(c.value.node, t.value.node), c.value.texts + t.value.texts))
    case If(cond, thenS, elseS) =>
      var c := NumberExpr(cond, id);
      if c.None? then None
      else
        var t := NumberStmt(thenS, id + |c.value.texts|);
        if t.None? then None
        else if elseS.None? then Some(Numbered(If(c.value.node, t.value.node, None), c.value.texts + t.value.texts))
        else
          var f := NumberStmt(elseS.value, id + |c.value.texts| + |t.value.texts|);
          if f.None? then None
          else Some(Numbered(If(c.value.node, t.value.node, Some(f.value.node)), c.value.texts + t.value.texts + f.value.texts))
    case Return(value) =>
      if value.None? then Some(Numbered(s, []))
      else
        var v := NumberExpr(value.value, id);
        if v.None? then None else Some(Numbered(Return(Some(v.value.node)), v.value.texts))
    case Assign(lhs, rhs) =>
      var l := NumberExpr(lhs, id);
      if l.None? then None
      else
        var r := NumberExpr(rhs, id + |l.value.texts|);
        if r.None? then None else Some(Numbered(Assign(l.value.node, r.value.node), l.value.texts + r.value.texts))
    case ExprStmt(exp) =>
      var x := NumberExpr(exp, id);
      if x.None? then None else Some(Numbered(ExprStmt(x.value.node), x.value.texts))
  }

  /** Pass 0 over a block: its statements only, never its declarations. */
  function NumberBlock(b: Block, id: int): (r: Option<Numbered<Block>>)
    ensures r.Some? ==> r.value.node.vars == b.vars
    decreases b, 1
  {
    var r := NumberStmts(b, |b.stmts|, id);
    if r.None? then None else Some(Numbered(Block(b.vars, r.value.node), r.value.texts))
  }

  function NumberStmts(b: Block, n: nat, id: int): (r: Option<Numbered<seq<Stmt>>>)
    requires n <= |b.stmts|
    ensures r.Some? ==> |r.value.node| == n
    decreases b, 0, n
  {
    if n == 0 then Some(Numbered([], []))
    else
      var prev := NumberStmts(b, n - 1, id);
      if prev.None? then None
      else
        var last := NumberStmt(b.stmts[n - 1], id + |prev.value.texts|);
        if last.None? then None
        else Some(Numbered(prev.value.node + [last.value.node], prev.value.texts + last.value.texts))
  }

  /** Pass 0 over the first `n` functions: each one's body. */
  function NumberFuns(funs: seq<FunDecl>, n: nat, id: int): (r: Option<Numbered<seq<FunDecl>>>)
    requires n <= |funs|
    ensures r.Some? ==> |r.value.node| == n
    ensures r.Some? ==> forall k :: 0 <= k < n ==> r.value.node[k].name == funs[k].name
  {
    if n == 0 then Some(Numbered([], []))
    else
      var prev := NumberFuns(funs, n - 1, id);
      if prev.None? then None
      else
        var f := funs[n - 1];
        var body := NumberBlock(f.body, id + |prev.value.texts|);
        if body.None? then None
        else Some(Numbered(prev.value.node + [FunDecl(f.ret, f.name, f.params, body.value.node)],
                           prev.value.texts + body.value.texts))
  }

  //== Pass 1: the text segment

  /** Pass 1 over an expression: only a print_s call writes, loading the
      label of its first argument. None stands for the exception a print_s
      call without arguments (IndexOutOfBounds), with a first argument that
      is not a string literal (ClassCastException) or a missing one
      (NullPointerException) throws, and for visiting a missing
      expression. */
  function EmitExpr(e: Expr): (r: Option<seq<Line>>)
  {
    match e
    case FunCall(name, args, _) =>
      if name != "print_s" then Some([])
      else if |args| == 0 || !args[0].StrLit? then None
      else Some(PrintString(args[0].id))
    case Missing => None
    case _ => Some([])
  }

  /** The lines of two visits in a row; an exception in either ends both. */
  function Then(a: Option<seq<Line>>, b: Option<seq<Line>>): (r: Option<seq<Line>>)
    ensures r.Some? <==> a.Some? && b.Some?
    ensures r.Some? ==> r.value == a.value + b.value
  {
    if a.None? || b.None? then None else Some(a.value + b.value)
  }

  function EmitStmt(s: Stmt): (r: Option<seq<Line>>)
    decreases s, 0
  {
    match s
    case BlockStmt(b) => EmitBlock(b)
    case While(cond, body) => Then(EmitExpr(cond), EmitStmt(body))
    case If(cond, thenS, elseS) =>
      var c := Then(EmitExpr(cond), EmitStmt(thenS));
      if elseS.None? then c else Then(c, EmitStmt(elseS.value))
    case Return(value) => if value.None? then Some([]) else EmitExpr(value.value)
    case Assign(_, _) => Some([])
    case ExprStmt(exp) => EmitExpr(exp)
  }

  /** Pass 1 over a block: its declarations write nothing, then its
      statements in order. */
  function EmitBlock(b: Block): (r: Option<seq<Line>>)
    decreases b, 1
  {
    EmitStmts(b, |b.stmts|)
  }

  function EmitStmts(b: Block, n: nat): (r: Option<seq<Line>>)
    requires n <= |b.stmts|
    decreases b, 0, n
  {
    if n == 0 then Some([]) else Then(EmitStmts(b, n - 1), EmitStmt(b.stmts[n - 1]))
  }

  /** Pass 1 over a function: its label, then its body. */
  function EmitFun(f: FunDecl): (r: Option<seq<Line>>)
    ensures r.Some? ==> |r.value| > 0 && r.value[0] == Label(f.name)
  {
    Then(Some([Label(f.name)]), EmitBlock(f.body))
  }

  function EmitFuns(funs: seq<FunDecl>, n: nat): (r: Option<seq<Line>>)
    requires n <= |funs|
  {
    if n == 0 then Some([]) else Then(EmitFuns(funs, n - 1), EmitFun(funs[n - 1]))
  }

  //== The whole program

  /** The struct table after visiting the first `n` struct declarations. */
  function StructTable(decls: seq<StructDecl>, n: nat): (r: Option<Layouts>)
    requires n <= |decls|
    ensures r.Some? ==> forall k :: 0 <= k < n ==> decls[k].name in r.value
  {
    if n == 0 then Some(map[])
    else
      var prev := StructTable(decls, n - 1);
      if prev.None? then None
      else
        var l := LayoutAsWritten(prev.value, decls[n - 1]);
        if l.None? then None else Some(prev.value[decls[n - 1].name := l.value])
  }

  /** Pass 0 over the first `n` globals: one `.space` line each. None
      stands for findSize failing on an unknown struct. */
  function SpaceLines(structs: Layouts, globals: seq<VarDecl>, n: nat): (r: Option<seq<Line>>)
    requires n <= |globals|
    ensures r.Some? <==> forall k :: 0 <= k < n ==> FindSize(structs, globals[k].ty).Some?
    ensures r.Some? ==> |r.value| == n
  {
    if n == 0 then Some([])
    else
      var size := FindSize(structs, globals[n - 1].ty);
      Then(SpaceLines(structs, globals, n - 1), if size.None? then None else Some([Space(globals[n - 1].name, size.value)]))
  }

  /** emitProgram: the struct table, then pass 0 (`.data`, the globals,
      the string literals), then pass 1 (`.text`, the functions), then the
      default exit. */
  function ProgramLines(p: Program): (r: Option<seq<Line>>)
  {
    var structs := StructTable(p.structs, |p.structs|);
    if structs.None? then None
    else
      var space := SpaceLines(structs.value, p.globals, |p.globals|);
      if space.None? then None
      else
        var numbered := NumberFuns(p.funs, |p.funs|, 0);
        if numbered.None? then None
        else
          var text := EmitFuns(numbered.value.node, |p.funs|);
          if text.None? then None
          else
            Some([Segment(".data")] + space.value + StringLines(0, numbered.value.texts)
                 + [Segment(".text")] + text.value + [Exit])
  }
  /** `struct p {int x; char y; int z;}; struct p g;` reserves 4 bytes
      for `g`: the struct's size as registered is that of `z` alone. */
  lemma StructGlobalAsWritten()
    ensures var x, y, z := VarDecl(IntType, "x"), VarDecl(CharType, "y"), VarDecl(IntType, "z");
            ProgramLines(Program([StructDecl("p", [x, y, z])], [VarDecl(Struct("p"), "g")], []))
            == Some([Segment(".data"), Space("g", 4), Segment(".text"), Exit])
  {
    var x, y, z := VarDecl(IntType, "x"), VarDecl(CharType, "y"), VarDecl(IntType, "z");
    var sd := StructDecl("p", [x, y, z]);
    var l := [Offset(Some("x"), 0), Offset(Some("y"), 0), Offset(Some("z"), 0), Offset(None, 4)];
    LayoutAsWrittenOverlapsFields(map[]);
    assert StructTable([sd], 1) == Some(map["p" := l]);
    assert FindSize(map["p" := l], Struct("p")) == Some(4);
    var g := [VarDecl(Struct("p"), "g")];
    assert SpaceLines(map["p" := l], g, 0) == Some([]);
    assert FindSize(map["p" := l], g[0].ty) == Some(4);
    var none: seq<Line> := [];
    assert none + [Space("g", 4)] == [Space("g", 4)];
    assert SpaceLines(map["p" := l], g, 1) == Some([Space("g", 4)]);
    var fs: seq<FunDecl> := [];
    assert NumberFuns(fs, 0, 0) == Some(Numbered([], []));
    assert EmitFuns(fs, 0) == Some([]);
    assert StringLines(0, []) == [];
    var prog := Program([sd], g, fs);
    assert prog.structs == [sd] && |prog.structs| == 1;
    assert StructTable(prog.structs, |prog.structs|) == Some(map["p" := l]);
    assert [Segment(".data")] + [Space("g", 4)] + none + [Segment(".text")] + none + [Exit]
           == [Segment(".data"), Space("g", 4), Segment(".text"), Exit];
  }

  //== What the two passes write

  /** Lines a statement writes in pass 1: instructions, and loads of labels
      numbered in [lo, hi). */
  predicate BodyLines(ls: seq<Line>, lo: int, hi: int)
  {
    forall k :: 0 <= k < |ls| ==> ls[k].Instr? || (ls[k].LoadAddress? && lo <= ls[k].id < hi)
  }

  lemma BodyLinesAppend(a: seq<Line>, b: seq<Line>, lo: int, mid: int, hi: int)
    requires BodyLines(a, lo, mid) && BodyLines(b, mid, hi) && lo <= mid <= hi
    ensures BodyLines(a + b, lo, hi)
  {
    forall k | 0 <= k < |a + b|
      ensures (a + b)[k].Instr? || ((a + b)[k].LoadAddress? && lo <= (a + b)[k].id < hi)
    {
      if k < |a| { assert (a + b)[k] == a[k]; } else { assert (a + b)[k] == b[k - |a|]; }
    }
  }

  /** After pass 0, a print_s call whose argument is a literal loads the
      label pass 0 gave that literal, and the first text numbered is the
      literal's; every load pass 1 writes for an expression is of a label
      pass 0 numbered while visiting it. */
  lemma NumberedExprLoads(e: Expr, id: int)
    requires NumberExpr(e, id).Some?
    ensures var n := NumberExpr(e, id).value;
            && (EmitExpr(n.node).Some? ==> BodyLines(EmitExpr(n.node).value, id, id + |n.texts|))
            && (e.FunCall? && e.name == "print_s" && |e.args| > 0 && e.args[0].StrLit? ==>
                  EmitExpr(n.node) == Some(PrintString(id)) && |n.texts| > 0 && n.texts[0] == e.args[0].text)
  {
    if e.FunCall? && |e.args| > 0 {
      NumberArgsFirst(e, |e.args|, id);
    }
  }

  lemma {:induction false} NumberedStmtLoads(s: Stmt, id: int)
    requires NumberStmt(s, id).Some?
    ensures var n := NumberStmt(s, id).value;
            EmitStmt(n.node).Some? ==> BodyLines(EmitStmt(n.node).value, id, id + |n.texts|)
    decreases s, 1
  {
    match s
    case BlockStmt(b) =>
      NumberedBlockLoads(b, id);
    case While(cond, body) =>
      NumberedWhileLoads(s, id);
    case If(cond, thenS, elseS) =>
      NumberedIfLoads(s, id);
    case Return(value) =>
      if value.Some? {
        NumberedExprLoads(value.value, id);
      }
    case Assign(_, _) =>
    case ExprStmt(exp) =>
      NumberedExprLoads(exp, id);
  }

  lemma {:induction false} NumberedWhileLoads(s: Stmt, id: int)
    requires s.While? && NumberStmt(s, id).Some?
    ensures var n := NumberStmt(s, id).value;
            EmitStmt(n.node).Some? ==> BodyLines(EmitStmt(n.node).value, id, id + |n.texts|)
    decreases s, 0
  {
    var n := NumberStmt(s, id).value;
    var c := NumberExpr(s.cond, id).value;
    var t := NumberStmt(s.body, id + |c.texts|).value;
    assert n == Numbered(While(c.node, t.node), c.texts + t.texts);
    NumberedExprLoads(s.cond, id);
    NumberedStmtLoads(s.body, id + |c.texts|);
    if EmitStmt(n.node).Some? {
      BodyLinesAppend(EmitExpr(c.node).value, EmitStmt(t.node).value, id, id + |c.texts|, id + |n.texts|);
    }
  }

  lemma {:induction false} NumberedIfLoads(s: Stmt, id: int)
    requires s.If? && NumberStmt(s, id).Some?
    ensures var n := NumberStmt(s, id).value;
            EmitStmt(n.node).Some? ==> BodyLines(EmitStmt(n.node).value, id, id + |n.texts|)
    decreases s, 0
  {
    var n := NumberStmt(s, id).value;
    var c := NumberExpr(s.cond, id).value;
    NumberedExprLoads(s.cond, id);
    NumberedStmtLoads(s.thenS, id + |c.texts|);
    var t := NumberStmt(s.thenS, id + |c.texts|).value;
    var mid := id + |c.texts| + |t.texts|;
    if EmitStmt(n.node).Some? {
      BodyLinesAppend(EmitExpr(c.node).value, EmitStmt(t.node).value, id, id + |c.texts|, mid);
      if s.elseS.Some? {
        NumberedStmtLoads(s.elseS.value, mid);
        var f := NumberStmt(s.elseS.value, mid).value;
        BodyLinesAppend(EmitExpr(c.node).value + EmitStmt(t.node).value, EmitStmt(f.node).value,
                        id, mid, id + |n.texts|);
      }
    }
  }

  lemma {:induction false} NumberedBlockLoads(b: Block, id: int)
    requires NumberBlock(b, id).Some?
    ensures var n := NumberBlock(b, id).value;
            EmitBlock(n.node).Some? ==> BodyLines(EmitBlock(n.node).value, id, id + |n.texts|)
    decreases b, 1
  {
    var n := NumberBlock(b, id).value;
    NumberedStmtsLoads(b, n.node, |b.stmts|, id);
  }

  /** The first `n` numbered statements, read back from any block that
      holds them first. */
  lemma {:induction false} NumberedStmtsLoads(b: Block, b': Block, n: nat, id: int)
    requires n <= |b.stmts| && NumberStmts(b, n, id).Some?
    requires n <= |b'.stmts| && b'.stmts[..n] == NumberStmts(b, n, id).value.node
    ensures EmitStmts(b', n).Some? ==>
              BodyLines(EmitStmts(b', n).value, id, id + |NumberStmts(b, n, id).value.texts|)
    decreases b, 0, n
  {
    if n > 0 {
      var prev := NumberStmts(b, n - 1, id).value;
      var last := NumberStmt(b.stmts[n - 1], id + |prev.texts|).value;
      assert b'.stmts[..n - 1] == b'.stmts[..n][..n - 1] == prev.node;
      assert b'.stmts[n - 1] == b'.stmts[..n][n - 1] == last.node;
      NumberedStmtsLoads(b, b', n - 1, id);
      NumberedStmtLoads(b.stmts[n - 1], id + |prev.texts|);
      if EmitStmts(b', n).Some? {
        BodyLinesAppend(EmitStmts(b', n - 1).value, EmitStmt(last.node).value,
                        id, id + |prev.texts|, id + |prev.texts| + |last.texts|);
      }
    }
  }

  /** The names of the labels among `ls`, in order. */
  function Labels(ls: seq<Line>): seq<string>
  {
    if ls == [] then []
    else Labels(ls[..|ls| - 1]) + (if ls[|ls| - 1].Label? then [ls[|ls| - 1].name] else [])
  }

  lemma {:induction false} LabelsAppend(a: seq<Line>, b: seq<Line>)
    ensures Labels(a + b) == Labels(a) + Labels(b)
    decreases |b|
  {
    if b != [] {
      assert (a + b)[..|a + b| - 1] == a + b[..|b| - 1];
      LabelsAppend(a, b[..|b| - 1]);
    } else {
      assert a + b == a;
    }
  }

  lemma {:induction false} BodyLinesHaveNoLabels(ls: seq<Line>, lo: int, hi: int)
    requires BodyLines(ls, lo, hi)
    ensures Labels(ls) == []
    decreases |ls|
  {
    if ls != [] {
      BodyLinesHaveNoLabels(ls[..|ls| - 1], lo, hi);
    }
  }

  /** Lines pass 1 writes for functions: labels, instructions, and loads of
      labels numbered in [lo, hi). */
  predicate TextLines(ls: seq<Line>, lo: int, hi: int)
  {
    forall k :: 0 <= k < |ls| ==>
      ls[k].Label? || ls[k].Instr? || (ls[k].LoadAddress? && lo <= ls[k].id < hi)
  }

  /** Pass 1 over the numbered functions writes one label per function, in
      order, and loads only labels pass 0 numbered. */
  lemma {:induction false} EmittedFunctions(funs: seq<FunDecl>, n: nat, id: int)
    requires n <= |funs| && NumberFuns(funs, n, id).Some?
    ensures var r := NumberFuns(funs, n, id).value;
            var text := EmitFuns(r.node, n);
            text.Some? ==>
              && TextLines(text.value, id, id + |r.texts|)
              && Labels(text.value) == FunNames(funs, n)
  {
    if n > 0 {
      var prev := NumberFuns(funs, n - 1, id).value;
      var f := funs[n - 1];
      var body := NumberBlock(f.body, id + |prev.texts|).value;
      NumberFunsStep(funs, n - 1, id, prev.node, prev.texts, body);
      EmittedFunctions(funs, n - 1, id);
      NumberedBlockLoads(f.body, id + |prev.texts|);
      EmittedFunctionsStep(prev.node, FunDecl(f.ret, f.name, f.params, body.node), id, id + |prev.texts|,
                           id + |prev.texts| + |body.texts|, FunNames(funs, n - 1));
    }
  }

  /** The names of the first `n` functions. */
  function FunNames(funs: seq<FunDecl>, n: nat): (r: seq<string>)
    requires n <= |funs|
    ensures |r| == n && forall k :: 0 <= k < n ==> r[k] == funs[k].name
  {
    if n == 0 then [] else FunNames(funs, n - 1) + [funs[n - 1].name]
  }

  /** One more function emitted after `prev`. */
  lemma {:induction false} EmittedFunctionsStep(prev: seq<FunDecl>, g: FunDecl, lo: int, mid: int, hi: int, names: seq<string>)
    requires lo <= mid <= hi
    requires EmitFuns(prev, |prev|).Some? ==>
               TextLines(EmitFuns(prev, |prev|).value, lo, mid) && Labels(EmitFuns(prev, |prev|).value) == names
    requires EmitBlock(g.body).Some? ==> BodyLines(EmitBlock(g.body).value, mid, hi)
    ensures var text := EmitFuns(prev + [g], |prev| + 1);
            text.Some? ==> TextLines(text.value, lo, hi) && Labels(text.value) == names + [g.name]
  {
    var all := prev + [g];
    assert all[..|prev|] == prev[..|prev|];
    EmitFunsPrefix(all, prev, |prev|);
    assert all[|prev|] == g;
    var text := EmitFuns(all, |prev| + 1);
    if text.Some? {
      EmitFunStep(EmitFuns(prev, |prev|).value, g.name, EmitBlock(g.body).value, lo, mid, hi);
    }
  }

  /** Appending one function's label and body lines. */
  lemma EmitFunStep(before: seq<Line>, name: string, lines: seq<Line>, lo: int, mid: int, hi: int)
    requires TextLines(before, lo, mid) && BodyLines(lines, mid, hi) && lo <= mid <= hi
    ensures TextLines(before + ([Label(name)] + lines), lo, hi)
    ensures Labels(before + ([Label(name)] + lines)) == Labels(before) + [name]
  {
    var all := before + ([Label(name)] + lines);
    forall k | 0 <= k < |all|
      ensures all[k].Label? || all[k].Instr? || (all[k].LoadAddress? && lo <= all[k].id < hi)
    {
      if k < |before| {
        assert all[k] == before[k];
      } else if k > |before| {
        assert all[k] == lines[k - |before| - 1];
      }
    }
    BodyLinesHaveNoLabels(lines, mid, hi);
    LabelsAppend(before, [Label(name)] + lines);
    LabelsAppend([Label(name)], lines);
    assert Labels([Label(name)]) == [name] by {
      assert [Label(name)][..0] == [];
    }
  }

  /** EmitFuns over the first `n` functions reads only those. */
  lemma {:induction false} EmitFunsPrefix(funs: seq<FunDecl>, funs': seq<FunDecl>, n: nat)
    requires n <= |funs| && n <= |funs'| && funs[..n] == funs'[..n]
    ensures EmitFuns(funs, n) == EmitFuns(funs', n)
  {
    if n > 0 {
      assert funs[..n - 1] == funs[..n][..n - 1];
      assert funs'[..n - 1] == funs'[..n][..n - 1];
      assert funs[n - 1] == funs[..n][n - 1];
      assert funs'[n - 1] == funs'[..n][n - 1];
      EmitFunsPrefix(funs, funs', n - 1);
    }
  }
  /** Every label loaded in `out` is that of a literal numbered in
      [lo, hi). */
  predicate LoadsWithin(out: seq<Line>, lo: int, hi: int)
  {
    forall j :: 0 <= j < |out| && out[j].LoadAddress? ==> lo <= out[j].id < hi
  }

  /** The `.space` lines of `out` are exactly those in [lo, hi). */
  predicate SpacesWithin(out: seq<Line>, lo: int, hi: int)
  {
    forall j :: 0 <= j < |out| ==> (out[j].Space? <==> lo <= j < hi)
  }

  /** The output of emitProgram, in order: `.data`; one `.space` line per
      global, in declaration order, and no other (locals write none); the
      string literals numbered 0, 1, ... in pass-0 order; `.text`; a label
      per function, in order; the exit line. Every label a print_s call
      loads is one of the numbered literals, so the data segment defines
      it (literal i at position 1 + |globals| + i). */
  predicate ProgramShape(out: seq<Line>, p: Program, table: Layouts, texts: seq<string>)
  {
    var d := 1 + |p.globals|;
    var t := d + |texts|;
    && |out| >= t + 2
    && out[0] == Segment(".data")
    && (forall j :: 1 <= j < d ==>
          FindSize(table, p.globals[j - 1].ty).Some?
          && out[j] == Space(p.globals[j - 1].name, FindSize(table, p.globals[j - 1].ty).value))
    && SpacesWithin(out, 1, d)
    && (forall j :: d <= j < t ==> out[j] == Asciiz(j - d, texts[j - d]))
    && out[t] == Segment(".text")
    && out[|out| - 1] == Exit
    && Labels(out[t + 1..|out| - 1]) == FunNames(p.funs, |p.funs|)
    && LoadsWithin(out, 0, |texts|)
  }

  /** emitProgram writes its output in the shape above, with the struct
      table it built and the texts pass 0 numbered. */
  lemma EmittedProgram(p: Program)
    requires ProgramLines(p).Some?
    ensures ProgramShape(ProgramLines(p).value, p, StructTable(p.structs, |p.structs|).value,
                         NumberFuns(p.funs, |p.funs|, 0).value.texts)
  {
    var table := StructTable(p.structs, |p.structs|).value;
    var space := SpaceLines(table, p.globals, |p.globals|).value;
    var numbered := NumberFuns(p.funs, |p.funs|, 0).value;
    var texts := numbered.texts;
    var text := EmitFuns(numbered.node, |p.funs|).value;
    var data := [Segment(".data")] + space + StringLines(0, texts);
    assert ProgramLines(p).value == data + ([Segment(".text")] + text + [Exit]);
    SpaceLinesContents(table, p.globals, |p.globals|);
    EmittedFunctions(p.funs, |p.funs|, 0);
    var out := ProgramLines(p).value;
    Assembled(out, space, texts, text);
    ShapeOfLaidOut(out, p, table, space, texts, text);
  }

  lemma ShapeOfLaidOut(out: seq<Line>, p: Program, table: Layouts, space: seq<Line>, texts: seq<string>, text: seq<Line>)
    requires LaidOut(out, space, texts, text)
    requires |space| == |p.globals|
    requires forall k :: 0 <= k < |p.globals| ==>
               FindSize(table, p.globals[k].ty).Some?
               && space[k] == Space(p.globals[k].name, FindSize(table, p.globals[k].ty).value)
    requires TextLines(text, 0, |texts|)
    requires Labels(text) == FunNames(p.funs, |p.funs|)
    ensures ProgramShape(out, p, table, texts)
  {
    LaidOutLines(out, space, texts, text);
    var d := 1 + |p.globals|;
    forall j | 1 <= j < d
      ensures FindSize(table, p.globals[j - 1].ty).Some?
      ensures out[j] == Space(p.globals[j - 1].name, FindSize(table, p.globals[j - 1].ty).value)
    {
      assert out[j] == space[j - 1];
    }
  }

  /** Where each segment lies in `out`. */
  predicate LaidOut(out: seq<Line>, space: seq<Line>, texts: seq<string>, text: seq<Line>)
  {
    var d := 1 + |space|;
    var t := d + |texts|;
    && |out| == t + |text| + 2
    && out[0] == Segment(".data")
    && (forall j :: 1 <= j < d ==> out[j] == space[j - 1])
    && (forall j :: d <= j < t ==> out[j] == Asciiz(j - d, texts[j - d]))
    && out[t] == Segment(".text")
    && (forall j :: t < j < |out| - 1 ==> out[j] == text[j - t - 1])
    && out[|out| - 1] == Exit
  }

  /** The segments laid end to end. */
  lemma Assembled(out: seq<Line>, space: seq<Line>, texts: seq<string>, text: seq<Line>)
    requires out == [Segment(".data")] + space + StringLines(0, texts) + ([Segment(".text")] + text + [Exit])
    ensures LaidOut(out, space, texts, text)
  {
    var strings := StringLines(0, texts);
    var data := [Segment(".data")] + space + strings;
    var code := [Segment(".text")] + text + [Exit];
    var d := 1 + |space|;
    var t := d + |texts|;
    StringLinesAt(0, texts);
    assert out == data + code;
    assert |data| == t;
    forall j | 0 <= j < t
      ensures out[j] == data[j]
    {
    }
    forall j | t <= j < |out|
      ensures out[j] == code[j - t]
    {
    }
    forall j | 1 <= j < d
      ensures out[j] == space[j - 1]
    {
      assert data[j] == ([Segment(".data")] + space)[j];
    }
    forall j | d <= j < t
      ensures out[j] == Asciiz(j - d, texts[j - d])
    {
      assert data[j] == strings[j - d];
    }
    forall j | t < j < |out| - 1
      ensures out[j] == text[j - t - 1]
    {
      assert code[j - t] == ([Segment(".text")] + text)[j - t];
    }
  }

  /** In a laid-out output, the `.space` lines are the globals' and every
      load finds its string line. */
  lemma LaidOutLines(out: seq<Line>, space: seq<Line>, texts: seq<string>, text: seq<Line>)
    requires LaidOut(out, space, texts, text)
    requires forall k :: 0 <= k < |space| ==> space[k].Space?
    requires TextLines(text, 0, |texts|)
    ensures SpacesWithin(out, 1, 1 + |space|)
    ensures LoadsWithin(out, 0, |texts|)
    ensures out[1 + |space| + |texts| + 1..|out| - 1] == text
  {
    var d := 1 + |space|;
    var t := d + |texts|;
    forall j | 0 <= j < |out|
      ensures out[j].Space? <==> 1 <= j < d
      ensures out[j].LoadAddress? ==> 0 <= out[j].id < |texts|
    {
      if 1 <= j < d {
        assert out[j] == space[j - 1];
      } else if t < j < |out| - 1 {
        assert out[j] == text[j - t - 1];
      }
    }
    assert out[t + 1..|out| - 1] == text;
  }

  /** Line k of the `.space` lines belongs to global k. */
  lemma {:induction false} SpaceLinesContents(structs: Layouts, globals: seq<VarDecl>, n: nat)
    requires n <= |globals| && SpaceLines(structs, globals, n).Some?
    ensures forall k :: 0 <= k < n ==>
              FindSize(structs, globals[k].ty).Some?
              && SpaceLines(structs, globals, n).value[k] == Space(globals[k].name, FindSize(structs, globals[k].ty).value)
  {
    if n > 0 {
      SpaceLinesContents(structs, globals, n - 1);
    }
  }

  /** Pass 0 skips the operands of a binary operator and pass 1 does not
      look inside one either: a print_s call there is neither numbered nor
      written, and a missing operand is not visited. */
  lemma OperandsAreSkipped(id: int)
    ensures var e := BinOp(FunCall("print_s", [StrLit("hi", 0)], None), Missing, Add);
            NumberExpr(e, id) == Some(Numbered(e, [])) && EmitExpr(e) == Some([])
  {
  }
  //== Failures propagate

  /** Once a turn of the struct loop fails, the whole loop fails. */
  lemma {:induction false} LayoutPrefixStaysNone(structs: Layouts, sd: StructDecl, n: nat, m: nat, clearsFirst: bool)
    requires n <= m <= |sd.fields| && LayoutPrefix(structs, sd, n, clearsFirst).None?
    ensures LayoutPrefix(structs, sd, m, clearsFirst).None?
    decreases m - n
  {
    if n < m {
      LayoutPrefixStaysNone(structs, sd, n + 1, m, clearsFirst);
    }
  }

  lemma {:induction false} StructTableStaysNone(decls: seq<StructDecl>, n: nat, m: nat)
    requires n <= m <= |decls| && StructTable(decls, n).None?
    ensures StructTable(decls, m).None?
    decreases m - n
  {
    if n < m {
      StructTableStaysNone(decls, n + 1, m);
    }
  }

  lemma {:induction false} NumberArgsStaysNone(e: Expr, n: nat, m: nat, id: int)
    requires e.FunCall? && n <= m <= |e.args| && NumberArgs(e, n, id).None?
    ensures NumberArgs(e, m, id).None?
    decreases m - n
  {
    if n < m {
      NumberArgsStaysNone(e, n + 1, m, id);
    }
  }

  lemma {:induction false} NumberStmtsStaysNone(b: Block, n: nat, m: nat, id: int)
    requires n <= m <= |b.stmts| && NumberStmts(b, n, id).None?
    ensures NumberStmts(b, m, id).None?
    decreases m - n
  {
    if n < m {
      NumberStmtsStaysNone(b, n + 1, m, id);
    }
  }

  lemma {:induction false} NumberFunsStaysNone(funs: seq<FunDecl>, n: nat, m: nat, id: int)
    requires n <= m <= |funs| && NumberFuns(funs, n, id).None?
    ensures NumberFuns(funs, m, id).None?
    decreases m - n
  {
    if n < m {
      NumberFunsStaysNone(funs, n + 1, m, id);
    }
  }

  lemma {:induction false} EmitStmtsStaysNone(b: Block, n: nat, m: nat)
    requires n <= m <= |b.stmts| && EmitStmts(b, n).None?
    ensures EmitStmts(b, m).None?
    decreases m - n
  {
    if n < m {
      EmitStmtsStaysNone(b, n + 1, m);
    }
  }

  lemma {:induction false} EmitFunsStaysNone(funs: seq<FunDecl>, n: nat, m: nat)
    requires n <= m <= |funs| && EmitFuns(funs, n).None?
    ensures EmitFuns(funs, m).None?
    decreases m - n
  {
    if n < m {
      EmitFunsStaysNone(funs, n + 1, m);
    }
  }

  /** Numbering two runs of literals one after the other is numbering
      their concatenation. */
  lemma StringLinesAppend(id: int, a: seq<string>, b: seq<string>)
    ensures StringLines(id, a + b) == StringLines(id, a) + StringLines(id + |a|, b)
  {
    var l, r := StringLines(id, a + b), StringLines(id, a) + StringLines(id + |a|, b);
    StringLinesAt(id, a + b);
    StringLinesAt(id, a);
    StringLinesAt(id + |a|, b);
    forall k | 0 <= k < |l| ensures l[k] == r[k]
    {
      if k < |a| {
        assert (a + b)[k] == a[k];
      } else {
        assert (a + b)[k] == b[k - |a|];
      }
    }
  }

  /** Appending `x` and then `y` is appending `z` when `z` is `x + y`. */
  lemma Concat3<T>(w0: seq<T>, x: seq<T>, y: seq<T>, z: seq<T>, w1: seq<T>, w2: seq<T>)
    requires w1 == w0 + x && w2 == w1 + y && z == x + y
    ensures w2 == w0 + z
  {
  }

  /** Appending `a` and then `b` is appending `a + b`. */
  lemma Appended<T>(w0: seq<T>, a: seq<T>, w1: seq<T>, b: seq<T>, w2: seq<T>)
    requires w1 == w0 + a && w2 == w1 + b
    ensures w2 == w0 + (a + b)
  {
  }

  //== The visitor

  /** A pass-0 visit that started with string id `id0` and output `w0` and
      ended with result `ok`, node `node`, string id `id` and output `w`
      did what `r` says: it failed exactly when `r` is None, and otherwise
      returned the numbered node, used one id per literal and wrote one
      `.asciiz` line per literal. */
  predicate Visited0<T(==)>(r: Option<Numbered<T>>, id0: int, w0: seq<Line>, ok: bool, node: T, id: int, w: seq<Line>)
  {
    (ok <==> r.Some?)
    && (ok ==> node == r.value.node && id == id0 + |r.value.texts|
               && w == w0 + StringLines(id0, r.value.texts))
  }

  /** A pass-1 visit of `node0` did what `r` says: it failed exactly when
      `r` is None, and otherwise left the node and the string id alone and
      wrote the lines of `r`. */
  predicate Visited1<T(==)>(r: Option<seq<Line>>, node0: T, id0: int, w0: seq<Line>, ok: bool, node: T, id: int, w: seq<Line>)
  {
    (ok <==> r.Some?) && (ok ==> node == node0 && id == id0 && w == w0 + r.value)
  }

  /** Two pass-0 visits in a row: the literals of the first, then those
      of the second. */
  lemma WroteBoth(id0: int, w0: seq<Line>, a: seq<string>, id1: int, w1: seq<Line>,
                  b: seq<string>, id2: int, w2: seq<Line>)
    requires id1 == id0 + |a| && w1 == w0 + StringLines(id0, a)
    requires id2 == id1 + |b| && w2 == w1 + StringLines(id1, b)
    ensures id2 == id0 + |a + b| && w2 == w0 + StringLines(id0, a + b)
  {
    StringLinesAppend(id0, a, b);
    Concat3(w0, StringLines(id0, a), StringLines(id1, b), StringLines(id0, a + b), w1, w2);
  }

  /** Pass 0 over a while statement: the condition's literals, then the
      body's. */
  lemma NumberedWhile(s: Stmt, id0: int, w0: seq<Line>, cond': Expr, id1: int, w1: seq<Line>,
                      ok: bool, body': Stmt, id2: int, w2: seq<Line>)
    requires s.While?
    requires Visited0(NumberExpr(s.cond, id0), id0, w0, true, cond', id1, w1)
    requires Visited0(NumberStmt(s.body, id1), id1, w1, ok, body', id2, w2)
    ensures Visited0(NumberStmt(s, id0), id0, w0, ok, While(cond', body'), id2, w2)
  {
    var c, t := NumberExpr(s.cond, id0), NumberStmt(s.body, id1);
    assert c.Some?;
    assert NumberStmt(s, id0) == if t.None? then None
                                 else Some(Numbered(While(c.value.node, t.value.node), c.value.texts + t.value.texts));
    if ok {
      WroteBoth(id0, w0, c.value.texts, id1, w1, t.value.texts, id2, w2);
    }
  }

  /** Pass 0 over an assignment: the left side's literals, then the right
      side's. */
  lemma NumberedAssign(s: Stmt, id0: int, w0: seq<Line>, lhs': Expr, id1: int, w1: seq<Line>,
                       ok: bool, rhs': Expr, id2: int, w2: seq<Line>)
    requires s.Assign?
    requires Visited0(NumberExpr(s.lhs, id0), id0, w0, true, lhs', id1, w1)
    requires Visited0(NumberExpr(s.rhs, id1), id1, w1, ok, rhs', id2, w2)
    ensures Visited0(NumberStmt(s, id0), id0, w0, ok, Assign(lhs', rhs'), id2, w2)
  {
    var l, r := NumberExpr(s.lhs, id0), NumberExpr(s.rhs, id1);
    assert l.Some?;
    assert NumberStmt(s, id0) == if r.None? then None
                                 else Some(Numbered(Assign(l.value.node, r.value.node), l.value.texts + r.value.texts));
    if ok {
      WroteBoth(id0, w0, l.value.texts, id1, w1, r.value.texts, id2, w2);
    }
  }

  /** Pass 0 over an if statement without an else-branch. */
  lemma NumberedIfThen(s: Stmt, id0: int, w0: seq<Line>, cond': Expr, id1: int, w1: seq<Line>,
                       ok: bool, thenS': Stmt, id2: int, w2: seq<Line>)
    requires s.If? && s.elseS.None?
    requires Visited0(NumberExpr(s.cond, id0), id0, w0, true, cond', id1, w1)
    requires Visited0(NumberStmt(s.thenS, id1), id1, w1, ok, thenS', id2, w2)
    ensures Visited0(NumberStmt(s, id0), id0, w0, ok, If(cond', thenS', None), id2, w2)
  {
    var c, t := NumberExpr(s.cond, id0), NumberStmt(s.thenS, id1);
    assert c.Some?;
    assert NumberStmt(s, id0) == if t.None? then None
                                 else Some(Numbered(If(c.value.node, t.value.node, None), c.value.texts + t.value.texts));
    if ok {
      WroteBoth(id0, w0, c.value.texts, id1, w1, t.value.texts, id2, w2);
    }
  }

  /** Pass 0 over an if statement with an else-branch. */
  lemma NumberedIfElse(s: Stmt, id0: int, w0: seq<Line>, cond': Expr, id1: int, w1: seq<Line>,
                       thenS': Stmt, id2: int, w2: seq<Line>, ok: bool, elseS': Stmt, id3: int, w3: seq<Line>)
    requires s.If? && s.elseS.Some?
    requires Visited0(NumberExpr(s.cond, id0), id0, w0, true, cond', id1, w1)
    requires Visited0(NumberStmt(s.thenS, id1), id1, w1, true, thenS', id2, w2)
    requires Visited0(NumberStmt(s.elseS.value, id2), id2, w2, ok, elseS', id3, w3)
    ensures Visited0(NumberStmt(s, id0), id0, w0, ok, If(cond', thenS', Some(elseS')), id3, w3)
  {
    var c, t, f := NumberExpr(s.cond, id0).value, NumberStmt(s.thenS, id1).value, NumberStmt(s.elseS.value, id2);
    NumberIfElse(s, id0, c, t, f);
    WroteBoth(id0, w0, c.texts, id1, w1, t.texts, id2, w2);
    if ok {
      WroteBoth(id0, w0, c.texts + t.texts, id2, w2, f.value.texts, id3, w3);
    }
  }

  lemma NumberIfElse(s: Stmt, id0: int, c: Numbered<Expr>, t: Numbered<Stmt>, f: Option<Numbered<Stmt>>)
    requires s.If? && s.elseS.Some?
    requires NumberExpr(s.cond, id0) == Some(c) && NumberStmt(s.thenS, id0 + |c.texts|) == Some(t)
    requires NumberStmt(s.elseS.value, id0 + |c.texts| + |t.texts|) == f
    ensures NumberStmt(s, id0) == if f.None? then None
                                  else Some(Numbered(If(c.node, t.node, Some(f.value.node)), c.texts + t.texts + f.value.texts))
  {
  }

  /** One more function numbered. */
  lemma NumberFunsStep(funs: seq<FunDecl>, i: nat, id0: int, funs': seq<FunDecl>, texts: seq<string>, r: Numbered<Block>)
    requires i < |funs|
    requires NumberFuns(funs, i, id0) == Some(Numbered(funs', texts))
    requires NumberBlock(funs[i].body, id0 + |texts|) == Some(r)
    ensures NumberFuns(funs, i + 1, id0)
            == Some(Numbered(funs' + [FunDecl(funs[i].ret, funs[i].name, funs[i].params, r.node)], texts + r.texts))
  {
  }


  /** One more argument numbered. */
  lemma NumberArgsStep(e: Expr, i: nat, id0: int, args': seq<Expr>, texts: seq<string>, r: Numbered<Expr>)
    requires e.FunCall? && i < |e.args|
    requires NumberArgs(e, i, id0) == Some(Numbered(args', texts))
    requires NumberExpr(e.args[i], id0 + |texts|) == Some(r)
    ensures NumberArgs(e, i + 1, id0) == Some(Numbered(args' + [r.node], texts + r.texts))
  {
  }

  /** One more statement of a block numbered. */
  lemma NumberStmtsStep(b: Block, i: nat, id0: int, stmts': seq<Stmt>, texts: seq<string>, r: Numbered<Stmt>)
    requires i < |b.stmts|
    requires NumberStmts(b, i, id0) == Some(Numbered(stmts', texts))
    requires NumberStmt(b.stmts[i], id0 + |texts|) == Some(r)
    ensures NumberStmts(b, i + 1, id0) == Some(Numbered(stmts' + [r.node], texts + r.texts))
  {
  }

  /** The code generator: its register stack, its output, the pass it is
      in, the next string id and the struct table. Both passes go through
      the same visit methods, which branch on `pass`. An exception is a
      `false` result, after which the state is not described. Pass 0
      returns the node with its string literals numbered, where the code
      sets their `id` fields in place. */
  class CodeGenerator {
    var freeRegs: seq<Register>
    /** The lines written to the output file so far; its text is
        `RenderAll(writer)`. */
    var writer: seq<Line>
    var pass: int
    var strID: int
    var structs: Layouts

    /** Fills the stack with the temporary registers, the last on top. */
    constructor(tmpRegs: seq<Register>)
      ensures freeRegs == tmpRegs && writer == [] && pass == 0 && strID == 0 && structs == map[]
    {
      freeRegs := tmpRegs;
      writer := [];
      pass := 0;
      strID := 0;
      structs := map[];
    }

    method GetRegister() returns (r: Alloc)
      modifies this`freeRegs
      ensures (r, freeRegs) == Pop(old(freeRegs))
    {
      if freeRegs == [] {
        r := RegisterAllocationError;
      } else {
        r := Allocated(freeRegs[|freeRegs| - 1]);
        freeRegs := freeRegs[..|freeRegs| - 1];
      }
    }

    method FreeRegister(reg: Register)
      modifies this`freeRegs
      ensures freeRegs == Push(old(freeRegs), reg)
    {
      freeRegs := freeRegs + [reg];
    }

    /** Registers the offset list of `sd`. The `first` flag is never
        cleared, so every field goes to offset 0 and the closing entry is
        the size of the last field. */
    method VisitStructTypeDecl(sd: StructDecl) returns (ok: bool)
      modifies this`structs
      ensures ok <==> LayoutAsWritten(old(structs), sd).Some?
      ensures ok ==> structs == old(structs)[sd.name := LayoutAsWritten(old(structs), sd).value]
    {
      var cur: seq<Offset> := [];
      structs := structs[sd.name := cur];
      var sizeLast := 0;
      var first := true;
      var i := 0;
      while i < |sd.fields|
        invariant 0 <= i <= |sd.fields|
        invariant LayoutPrefix(old(structs), sd, i, false) == Some((cur, sizeLast))
        invariant structs == old(structs)[sd.name := cur]
      {
        ghost var step := PlaceField(old(structs), sd.name, cur, sizeLast, true, sd.fields[i]);
        LayoutAsWrittenStep(old(structs), sd, i, cur, sizeLast);
        var field := sd.fields[i];
        if first {
          cur := cur + [Offset(Some(field.name), 0)];
        } else {
          // unreachable: nothing sets `first` to false
          assert false;
        }
        structs := structs[sd.name := cur];
        assert structs == old(structs)[sd.name := cur];
        var size := FindSize(structs, field.ty);
        if size.None? {
          assert step.None?;
          LayoutPrefixStaysNone(old(structs), sd, i + 1, |sd.fields|, false);
          return false;
        }
        assert step == Some((cur, size.value));
        sizeLast := size.value;
        i := i + 1;
      }
      if cur == [] {
        return false;
      }
      structs := structs[sd.name := cur + [Offset(None, Int32(cur[|cur| - 1].pos + sizeLast))]];
      ok := true;
    }

    /** Pass 0 writes a `.space` line of the variable's size. */
    method VisitVarDecl(vd: VarDecl) returns (ok: bool)
      modifies this`writer
      ensures pass == 0 ==> (ok <==> FindSize(structs, vd.ty).Some?)
      ensures pass == 0 && ok ==> writer == old(writer) + [Space(vd.name, FindSize(structs, vd.ty).value)]
      ensures pass != 0 ==> ok && writer == old(writer)
    {
      ok := true;
      if pass == 0 {
        var size := FindSize(structs, vd.ty);
        if size.None? {
          return false;
        }
        writer := writer + [Space(vd.name, size.value)];
      }
    }

    /** `e.accept(this)`: the visitors of the other expressions do
        nothing, and a missing expression throws. */
    method VisitExpr(e: Expr) returns (ok: bool, e': Expr)
      requires pass == 0 || pass == 1
      modifies this`writer, this`strID
      ensures pass == 0 ==> Visited0(NumberExpr(e, old(strID)), old(strID), old(writer), ok, e', strID, writer)
      ensures pass == 1 ==> Visited1(EmitExpr(e), e, old(strID), old(writer), ok, e', strID, writer)
      decreases e, 1
    {
      match e
      case StrLit(_, _) =>
        ok, e' := VisitStringLiteral(e);
      case FunCall(_, _, _) =>
        ok, e' := VisitFunCallExpr(e);
      case Typecast(_, _) =>
        ok, e' := VisitTypecastExpr(e);
      case Missing =>
        ok, e' := false, e;
      case _ =>
        ok, e' := true, e;
    }

    /** Pass 0 gives the literal the next id and writes its `.asciiz`
        line. */
    method VisitStringLiteral(e: Expr) returns (ok: bool, e': Expr)
      requires e.StrLit? && (pass == 0 || pass == 1)
      modifies this`writer, this`strID
      ensures pass == 0 ==> Visited0(NumberExpr(e, old(strID)), old(strID), old(writer), ok, e', strID, writer)
      ensures pass == 1 ==> Visited1(EmitExpr(e), e, old(strID), old(writer), ok, e', strID, writer)
    {
      ok, e' := true, e;
      if pass == 0 {
        e' := StrLit(e.text, strID);
        writer := writer + [Asciiz(strID, e.text)];
        strID := strID + 1;
        assert StringLines(old(strID), [e.text]) == [Asciiz(old(strID), e.text)];
      }
    }

    /** Pass 0 visits the arguments; pass 1 writes the three lines of a
        print_s call (the other calls write nothing yet). */
    method VisitFunCallExpr(e: Expr) returns (ok: bool, e': Expr)
      requires e.FunCall? && (pass == 0 || pass == 1)
      modifies this`writer, this`strID
      ensures pass == 0 ==> Visited0(NumberExpr(e, old(strID)), old(strID), old(writer), ok, e', strID, writer)
      ensures pass == 1 ==> Visited1(EmitExpr(e), e, old(strID), old(writer), ok, e', strID, writer)
      decreases e, 0
    {
      ok, e' := true, e;
      if pass == 0 {
        var args': seq<Expr> := [];
        ghost var texts: seq<string> := [];
        var i := 0;
        while i < |e.args|
          invariant 0 <= i <= |e.args|
          invariant NumberArgs(e, i, old(strID)) == Some(Numbered(args', texts))
          invariant strID == old(strID) + |texts|
          invariant writer == old(writer) + StringLines(old(strID), texts)
        {
          ghost var id, w := strID, writer;
          var okArg, arg := VisitExpr(e.args[i]);
          if !okArg {
            NumberArgsStaysNone(e, i + 1, |e.args|, old(strID));
            return false, e;
          }
          assert Visited0(NumberExpr(e.args[i], id), id, w, true, arg, strID, writer);
          ghost var r := NumberExpr(e.args[i], id).value;
          NumberArgsStep(e, i, old(strID), args', texts, r);
          WroteBoth(old(strID), old(writer), texts, id, w, r.texts, strID, writer);
          args', texts, i := args' + [arg], texts + r.texts, i + 1;
        }
        e' := FunCall(e.name, args', e.fd);
      } else if e.name == "print_s" {
        if |e.args| == 0 || !e.args[0].StrLit? {
          return false, e;
        }
        writer := writer + PrintString(e.args[0].id);
      } else {
      }
    }

    /** Pass 0 visits the operand. */
    method VisitTypecastExpr(e: Expr) returns (ok: bool, e': Expr)
      requires e.Typecast? && (pass == 0 || pass == 1)
      modifies this`writer, this`strID
      ensures pass == 0 ==> Visited0(NumberExpr(e, old(strID)), old(strID), old(writer), ok, e', strID, writer)
      ensures pass == 1 ==> Visited1(EmitExpr(e), e, old(strID), old(writer), ok, e', strID, writer)
      decreases e, 0
    {
      ok, e' := true, e;
      if pass == 0 {
        var operand';
        ok, operand' := VisitExpr(e.operand);
        e' := Typecast(e.target, operand');
      } else {
      }
    }

    /** `s.accept(this)`. */
    method VisitStmt(s: Stmt) returns (ok: bool, s': Stmt)
      requires pass == 0 || pass == 1
      modifies this`writer, this`strID
      ensures pass == 0 ==> Visited0(NumberStmt(s, old(strID)), old(strID), old(writer), ok, s', strID, writer)
      ensures pass == 1 ==> Visited1(EmitStmt(s), s, old(strID), old(writer), ok, s', strID, writer)
      decreases s, 1
    {
      match s
      case BlockStmt(_) =>
        ok, s' := VisitBlockStmt(s);
      case While(_, _) =>
        ok, s' := VisitWhile(s);
      case If(_, _, _) =>
        ok, s' := VisitIf(s);
      case Return(_) =>
        ok, s' := VisitReturn(s);
      case Assign(_, _) =>
        ok, s' := VisitAssign(s);
      case ExprStmt(_) =>
        ok, s' := VisitExprStmt(s);
    }

    /** A block used as a statement. */
    method VisitBlockStmt(s: Stmt) returns (ok: bool, s': Stmt)
      requires s.BlockStmt? && (pass == 0 || pass == 1)
      modifies this`writer, this`strID
      ensures pass == 0 ==> Visited0(NumberStmt(s, old(strID)), old(strID), old(writer), ok, s', strID, writer)
      ensures pass == 1 ==> Visited1(EmitStmt(s), s, old(strID), old(writer), ok, s', strID, writer)
      decreases s, 0
    {
      var b';
      ok, b' := VisitBlock(s.block);
      s' := BlockStmt(b');
    }

    /** visitWhile: the condition, then the body, in both passes. */
    method VisitWhile(s: Stmt) returns (ok: bool, s': Stmt)
      requires s.While? && (pass == 0 || pass == 1)
      modifies this`writer, this`strID
      ensures pass == 0 ==> Visited0(NumberStmt(s, old(strID)), old(strID), old(writer), ok, s', strID, writer)
      ensures pass == 1 ==> Visited1(EmitStmt(s), s, old(strID), old(writer), ok, s', strID, writer)
      decreases s, 0
    {
      var cond', body';
      ok, cond' := VisitExpr(s.cond);
      if !ok {
        return false, s;
      }
      ghost var id, w := strID, writer;
      ok, body' := VisitStmt(s.body);
      s' := While(cond', body');
      if pass == 0 {
        NumberedWhile(s, old(strID), old(writer), cond', id, w, ok, body', strID, writer);
      } else if ok {
        Appended(old(writer), EmitExpr(s.cond).value, w, EmitStmt(s.body).value, writer);
      }
    }

    /** visitIf: the condition, the then-branch, and the else-branch when
        there is one, in both passes. */
    method VisitIf(s: Stmt) returns (ok: bool, s': Stmt)
      requires s.If? && (pass == 0 || pass == 1)
      modifies this`writer, this`strID
      ensures pass == 0 ==> Visited0(NumberStmt(s, old(strID)), old(strID), old(writer), ok, s', strID, writer)
      ensures pass == 1 ==> Visited1(EmitStmt(s), s, old(strID), old(writer), ok, s', strID, writer)
      decreases s, 0
    {
      var cond', thenS', elseS';
      ok, cond' := VisitExpr(s.cond);
      if !ok {
        return false, s;
      }
      ghost var id1, w1 := strID, writer;
      ok, thenS' := VisitStmt(s.thenS);
      s' := If(cond', thenS', None);
      if s.elseS.None? {
        if pass == 0 {
          NumberedIfThen(s, old(strID), old(writer), cond', id1, w1, ok, thenS', strID, writer);
        } else if ok {
          Appended(old(writer), EmitExpr(s.cond).value, w1, EmitStmt(s.thenS).value, writer);
        }
        return;
      }
      if !ok {
        return false, s;
      }
      ghost var id2, w2 := strID, writer;
      ok, elseS' := VisitStmt(s.elseS.value);
      s' := If(cond', thenS', Some(elseS'));
      if pass == 0 {
        NumberedIfElse(s, old(strID), old(writer), cond', id1, w1, thenS', id2, w2, ok, elseS', strID, writer);
      } else if ok {
        Appended(old(writer), EmitExpr(s.cond).value, w1, EmitStmt(s.thenS).value, w2);
        Appended(old(writer), EmitExpr(s.cond).value + EmitStmt(s.thenS).value, w2, EmitStmt(s.elseS.value).value, writer);
      }
    }

    /** visitReturn: the value, when there is one, in both passes. */
    method VisitReturn(s: Stmt) returns (ok: bool, s': Stmt)
      requires s.Return? && (pass == 0 || pass == 1)
      modifies this`writer, this`strID
      ensures pass == 0 ==> Visited0(NumberStmt(s, old(strID)), old(strID), old(writer), ok, s', strID, writer)
      ensures pass == 1 ==> Visited1(EmitStmt(s), s, old(strID), old(writer), ok, s', strID, writer)
      decreases s, 0
    {
      ok, s' := true, s;
      if s.value.Some? {
        var value';
        ok, value' := VisitExpr(s.value.value);
        s' := Return(Some(value'));
      } else {
      }
    }

    /** visitAssign: both sides in pass 0, nothing in pass 1. */
    method VisitAssign(s: Stmt) returns (ok: bool, s': Stmt)
      requires s.Assign? && (pass == 0 || pass == 1)
      modifies this`writer, this`strID
      ensures pass == 0 ==> Visited0(NumberStmt(s, old(strID)), old(strID), old(writer), ok, s', strID, writer)
      ensures pass == 1 ==> Visited1(EmitStmt(s), s, old(strID), old(writer), ok, s', strID, writer)
      decreases s, 0
    {
      ok, s' := true, s;
      if pass == 0 {
        var lhs', rhs';
        ok, lhs' := VisitExpr(s.lhs);
        if !ok {
          return false, s;
        }
        ghost var id, w := strID, writer;
        ok, rhs' := VisitExpr(s.rhs);
        s' := Assign(lhs', rhs');
        NumberedAssign(s, old(strID), old(writer), lhs', id, w, ok, rhs', strID, writer);
      } else {
      }
    }

    /** visitExprStmt: the expression, in both passes. */
    method VisitExprStmt(s: Stmt) returns (ok: bool, s': Stmt)
      requires s.ExprStmt? && (pass == 0 || pass == 1)
      modifies this`writer, this`strID
      ensures pass == 0 ==> Visited0(NumberStmt(s, old(strID)), old(strID), old(writer), ok, s', strID, writer)
      ensures pass == 1 ==> Visited1(EmitStmt(s), s, old(strID), old(writer), ok, s', strID, writer)
      decreases s, 0
    {
      var exp';
      ok, exp' := VisitExpr(s.exp);
      s' := ExprStmt(exp');
    }

    /** Pass 0 visits the statements only; pass 1 the declarations (which
        write nothing), then the statements. */
    method VisitBlock(b: Block) returns (ok: bool, b': Block)
      requires pass == 0 || pass == 1
      modifies this`writer, this`strID
      ensures pass == 0 ==> Visited0(NumberBlock(b, old(strID)), old(strID), old(writer), ok, b', strID, writer)
      ensures pass == 1 ==> Visited1(EmitBlock(b), b, old(strID), old(writer), ok, b', strID, writer)
      decreases b, 2
    {
      if pass == 0 {
        ok, b' := NumberBlockStmts(b);
      } else {
        var j := 0;
        while j < |b.vars|
          invariant 0 <= j <= |b.vars| && writer == old(writer) && strID == old(strID)
        {
          var _ := VisitVarDecl(b.vars[j]);
          j := j + 1;
        }
        ok := EmitBlockStmts(b);
        b' := b;
      }
    }

    /** The statement loop of visitBlock in pass 0. */
    method NumberBlockStmts(b: Block) returns (ok: bool, b': Block)
      requires pass == 0
      modifies this`writer, this`strID
      ensures Visited0(NumberBlock(b, old(strID)), old(strID), old(writer), ok, b', strID, writer)
      decreases b, 1
    {
      var stmts': seq<Stmt> := [];
      ghost var texts: seq<string> := [];
      var i := 0;
      while i < |b.stmts|
        invariant 0 <= i <= |b.stmts|
        invariant NumberStmts(b, i, old(strID)) == Some(Numbered(stmts', texts))
        invariant strID == old(strID) + |texts|
        invariant writer == old(writer) + StringLines(old(strID), texts)
      {
        ghost var id, w := strID, writer;
        var okStmt, stmt := VisitStmt(b.stmts[i]);
        if !okStmt {
          NumberStmtsStaysNone(b, i + 1, |b.stmts|, old(strID));
          return false, b;
        }
        assert Visited0(NumberStmt(b.stmts[i], id), id, w, true, stmt, strID, writer);
        ghost var r := NumberStmt(b.stmts[i], id).value;
        NumberStmtsStep(b, i, old(strID), stmts', texts, r);
        WroteBoth(old(strID), old(writer), texts, id, w, r.texts, strID, writer);
        stmts', texts, i := stmts' + [stmt], texts + r.texts, i + 1;
      }
      ok, b' := true, Block(b.vars, stmts');
    }

    /** The statement loop of visitBlock in pass 1. */
    method EmitBlockStmts(b: Block) returns (ok: bool)
      requires pass == 1
      modifies this`writer, this`strID
      ensures Visited1(EmitBlock(b), b, old(strID), old(writer), ok, b, strID, writer)
      decreases b, 1
    {
      ghost var lines: seq<Line> := [];
      var i := 0;
      while i < |b.stmts|
        invariant 0 <= i <= |b.stmts|
        invariant EmitStmts(b, i) == Some(lines) && strID == old(strID)
        invariant writer == old(writer) + lines
      {
        ghost var w := writer;
        var okStmt, _ := VisitStmt(b.stmts[i]);
        if !okStmt {
          EmitStmtsStaysNone(b, i + 1, |b.stmts|);
          return false;
        }
        Appended(old(writer), lines, w, EmitStmt(b.stmts[i]).value, writer);
        lines, i := lines + EmitStmt(b.stmts[i]).value, i + 1;
      }
      ok := true;
    }

    /** Pass 0 visits the body; pass 1 writes the function's label, then
        visits the body. */
    method VisitFunDecl(f: FunDecl) returns (ok: bool, f': FunDecl)
      requires pass == 0 || pass == 1
      modifies this`writer, this`strID
      ensures pass == 0 ==> Visited0(NumberBlock(f.body, old(strID)), old(strID), old(writer), ok, f'.body, strID, writer)
      ensures pass == 0 ==> f' == FunDecl(f.ret, f.name, f.params, f'.body)
      ensures pass == 1 ==> Visited1(EmitFun(f), f, old(strID), old(writer), ok, f', strID, writer)
    {
      if pass == 1 {
        writer := writer + [Label(f.name)];
      }
      ghost var w := writer;
      var body';
      ok, body' := VisitBlock(f.body);
      f' := FunDecl(f.ret, f.name, f.params, body');
      if ok && pass == 1 {
        Appended(old(writer), [Label(f.name)], w, EmitBlock(f.body).value, writer);
      }
    }

    /** The struct loop of visitProgram, on a fresh table. */
    method VisitStructDecls(p: Program) returns (ok: bool)
      modifies this`structs
      ensures ok <==> StructTable(p.structs, |p.structs|).Some?
      ensures ok ==> structs == StructTable(p.structs, |p.structs|).value
    {
      structs := map[];
      var i := 0;
      while i < |p.structs|
        invariant 0 <= i <= |p.structs| && StructTable(p.structs, i) == Some(structs)
      {
        ok := VisitStructTypeDecl(p.structs[i]);
        if !ok {
          StructTableStaysNone(p.structs, i + 1, |p.structs|);
          return;
        }
        i := i + 1;
      }
      ok := true;
    }

    /** The global-variable loop of visitProgram (pass 0). */
    method VisitGlobals(p: Program) returns (ok: bool)
      requires pass == 0
      modifies this`writer
      ensures ok <==> SpaceLines(structs, p.globals, |p.globals|).Some?
      ensures ok ==> writer == old(writer) + SpaceLines(structs, p.globals, |p.globals|).value
    {
      ghost var lines: seq<Line> := [];
      var i := 0;
      while i < |p.globals|
        invariant 0 <= i <= |p.globals|
        invariant SpaceLines(structs, p.globals, i) == Some(lines)
        invariant writer == old(writer) + lines
      {
        ghost var w := writer;
        ok := VisitVarDecl(p.globals[i]);
        if !ok {
          return;
        }
        ghost var line := Space(p.globals[i].name, FindSize(structs, p.globals[i].ty).value);
        Appended(old(writer), lines, w, [line], writer);
        lines, i := lines + [line], i + 1;
      }
      ok := true;
    }

    /** The function loop of visitProgram in pass 0. */
    method NumberFunDecls(p: Program) returns (ok: bool, funs': seq<FunDecl>)
      requires pass == 0
      modifies this`writer, this`strID
      ensures Visited0(NumberFuns(p.funs, |p.funs|, old(strID)), old(strID), old(writer), ok, funs', strID, writer)
    {
      funs' := [];
      ghost var texts: seq<string> := [];
      var i := 0;
      while i < |p.funs|
        invariant 0 <= i <= |p.funs|
        invariant NumberFuns(p.funs, i, old(strID)) == Some(Numbered(funs', texts))
        invariant strID == old(strID) + |texts|
        invariant writer == old(writer) + StringLines(old(strID), texts)
      {
        ghost var id, w := strID, writer;
        var okFun, f := VisitFunDecl(p.funs[i]);
        if !okFun {
          NumberFunsStaysNone(p.funs, i + 1, |p.funs|, old(strID));
          return false, funs';
        }
        assert Visited0(NumberBlock(p.funs[i].body, id), id, w, true, f.body, strID, writer);
        ghost var r := NumberBlock(p.funs[i].body, id).value;
        NumberFunsStep(p.funs, i, old(strID), funs', texts, r);
        WroteBoth(old(strID), old(writer), texts, id, w, r.texts, strID, writer);
        funs', texts, i := funs' + [f], texts + r.texts, i + 1;
      }
      ok := true;
    }

    /** The function loop of visitProgram in pass 1. */
    method EmitFunDecls(funs: seq<FunDecl>) returns (ok: bool)
      requires pass == 1
      modifies this`writer, this`strID
      ensures Visited1(EmitFuns(funs, |funs|), funs, old(strID), old(writer), ok, funs, strID, writer)
    {
      ghost var lines: seq<Line> := [];
      var i := 0;
      while i < |funs|
        invariant 0 <= i <= |funs|
        invariant EmitFuns(funs, i) == Some(lines) && strID == old(strID)
        invariant writer == old(writer) + lines
      {
        ghost var w := writer;
        var okFun, _ := VisitFunDecl(funs[i]);
        if !okFun {
          EmitFunsStaysNone(funs, i + 1, |funs|);
          return false;
        }
        Appended(old(writer), lines, w, EmitFun(funs[i]).value, writer);
        lines, i := lines + EmitFun(funs[i]).value, i + 1;
      }
      ok := true;
    }

    /** visitProgram: the struct table, then pass 0 (`.data`, the globals,
        the functions' string literals), then pass 1 (`.text`, the
        functions), then the default exit. */
    method VisitProgram(p: Program) returns (ok: bool)
      modifies this`writer, this`strID, this`pass, this`structs
      ensures ok <==> ProgramLines(p).Some?
      ensures ok ==> writer == old(writer) + ProgramLines(p).value
    {
      ok := VisitStructDecls(p);
      if !ok {
        return;
      }
      pass, strID := 0, 0;
      writer := writer + [Segment(".data")];
      ghost var w1 := writer;
      ok := VisitGlobals(p);
      if !ok {
        return;
      }
      ghost var space := SpaceLines(structs, p.globals, |p.globals|).value;
      Appended(old(writer), [Segment(".data")], w1, space, writer);
      ghost var w2 := writer;
      var funs';
      ok, funs' := NumberFunDecls(p);
      if !ok {
        return;
      }
      ghost var numbered := NumberFuns(p.funs, |p.funs|, 0).value;
      assert funs' == numbered.node && |funs'| == |p.funs|;
      ghost var data := [Segment(".data")] + space + StringLines(0, numbered.texts);
      Appended(old(writer), [Segment(".data")] + space, w2, StringLines(0, numbered.texts), writer);
      pass := 1;
      ghost var w3 := writer;
      writer := writer + [Segment(".text")];
      Appended(old(writer), data, w3, [Segment(".text")], writer);
      ghost var w4 := writer;
      ok := EmitFunDecls(funs');
      if !ok {
        return;
      }
      ghost var text := EmitFuns(funs', |funs'|).value;
      Appended(old(writer), data + [Segment(".text")], w4, text, writer);
      ghost var w5 := writer;
      writer := writer + [Exit];
      Appended(old(writer), data + [Segment(".text")] + text, w5, [Exit], writer);
    }

    /** emitProgram: a fresh output file holding what visitProgram writes. */
    method EmitProgram(p: Program) returns (ok: bool)
      modifies this`writer, this`strID, this`pass, this`structs
      ensures ok <==> ProgramLines(p).Some?
      ensures ok ==> writer == ProgramLines(p).value
    {
      writer := [];
      ok := VisitProgram(p);
    }
  }
}

=== FILE: parser.dfy ===
/** The recursive-descent parser (parser.Parser). It keeps a cursor on the
    token stream, a FIFO of looked-ahead tokens and an error counter; every
    parse method advances that shared state. A token's identity is its
    position in the stream, which is what Java's `lastErrorToken == token`
    compares. */
module Parser {
  import opened Ast
  import opened Tokens

  /** One `op rhs` step of a left-associative precedence level. */
  datatype Step = Step(op: Op, rhs: Expr)

  /** `first op1 rhs1 op2 rhs2 ...` folded to the left. */
  function FoldLeft(first: Expr, steps: seq<Step>): Expr
    decreases |steps|
  {
    if steps == [] then first
    else
      var last := steps[|steps| - 1];
      BinOp(FoldLeft(first, steps[..|steps| - 1]), last.rhs, last.op)
  }

  /** A postfix suffix: `.field` or `[index]`. */
  datatype Suffix = Field(name: string) | Index(index: Expr)

  function ApplySuffix(e: Expr, s: Suffix): Expr
  {
    match s
    case Field(f) => FieldAccess(e, f)
    case Index(i) => ArrayAccess(e, i)
  }

  /** The suffixes applied to `e` in the order they are read. */
  function Postfix(e: Expr, sfx: seq<Suffix>): Expr
    decreases |sfx|
  {
    if sfx == [] then e else Postfix(ApplySuffix(e, sfx[0]), sfx[1..])
  }

  /** `t` followed by `n` asterisks. */
  function WrapPointers(t: Type, n: nat): Type
  {
    if n == 0 then t else Pointer(WrapPointers(t, n - 1))
  }

  /** `t` followed by the `[n]` suffixes in `sizes`, in the order read. */
  function WrapArrays(t: Type, sizes: seq<int>): Type
    decreases |sizes|
  {
    if sizes == [] then t else Array(WrapArrays(t, sizes[..|sizes| - 1]), sizes[|sizes| - 1])
  }

  /** The type a type keyword denotes; anything else is read as a struct name
      (getType falls back to getStruct, which takes the token's text). */
  function BaseOf(tok: Token): Type
  {
    match tok.kind
    case INT => IntType
    case CHAR => CharType
    case VOID => VoidType
    case _ => Struct(tok.data)
  }

  /** The binding level of each binary operator, lowest first. */
  function Level(op: Op): nat
  {
    match op
    case Or => 1
    case And => 2
    case Eq | Ne => 3
    case Le | Ge | Lt | Gt => 4
    case Add | Sub => 5
    case Mul | Div | Mod => 6
  }

  /** The operator tokens each level's loop accepts (parseExp, parseLOB,
      parseLAB, parseEQB, parseCPB, parseADB). */
  function LevelTokens(level: nat): seq<TokenClass>
  {
    match level
    case 1 => [OR]
    case 2 => [AND]
    case 3 => [EQ, NE]
    case 4 => [LE, GE, LT, GT]
    case 5 => [PLUS, MINUS]
    case 6 => [ASTERIX, DIV, REM]
    case _ => []
  }

  /** The operator a token builds (the `switch` in each level). */
  function OpOf(kind: TokenClass): Op
  {
    match kind
    case AND => And
    case EQ => Eq
    case NE => Ne
    case LE => Le
    case GE => Ge
    case LT => Lt
    case GT => Gt
    case PLUS => Add
    case MINUS => Sub
    case ASTERIX => Mul
    case DIV => Div
    case REM => Mod
    case _ => Or
  }

  /** The level whose loop accepts the token `kind` as an operator, 0 for
      a token that is no binary operator. */
  function TokenLevel(kind: TokenClass): nat
  {
    match kind
    case OR => 1
    case AND => 2
    case EQ | NE => 3
    case LE | GE | LT | GT => 4
    case PLUS | MINUS => 5
    case ASTERIX | DIV | REM => 6
    case _ => 0
  }

  /** Each level's token list holds exactly the tokens of that level. */
  lemma LevelTokensExact(level: nat, kind: TokenClass)
    requires 1 <= level <= 6
    ensures kind in LevelTokens(level) <==> TokenLevel(kind) == level
  {
  }

  /** The tokens parseMLB recognises as the start of an operand. */
  predicate StartsOperand(kind: TokenClass)
  {
    match kind
    case SIZEOF | ASTERIX | IDENTIFIER | STRING_LITERAL | CHAR_LITERAL | INT_LITERAL | MINUS | LPAR => true
    case _ => false
  }

  /** The literal tokens getLits() reads. */
  predicate IsLiteral(kind: TokenClass)
  {
    kind == STRING_LITERAL || kind == CHAR_LITERAL || kind == INT_LITERAL
  }

  /** The tokens a type starts with (parseType's cases). */
  predicate StartsType(kind: TokenClass)
  {
    kind == INT || kind == CHAR || kind == VOID || kind == STRUCT
  }

  /** The tokens that open a `.field` or `[index]` suffix. */
  predicate OpensSuffix(kind: TokenClass)
  {
    kind == DOT || kind == LSBR
  }

  /** No operator of binding level `level` or tighter is the token `kind`:
      the point where a level, and every level above it, has stopped. */
  predicate NoOperatorFrom(kind: TokenClass, level: nat)
  {
    TokenLevel(kind) < level
  }

  /** getLits(): the literal the current token denotes. None stands for the
      exception Integer.parseInt or charAt(0) throws on malformed text. */
  function LiteralOf(tok: Token): (r: Option<Expr>)
    ensures r.None? <==> (tok.kind == INT_LITERAL && ParseInt(tok.data).None?)
                         || (tok.kind == CHAR_LITERAL && tok.data == [])
    ensures !IsLiteral(tok.kind) ==> r == Some(Missing)
  {
    match tok.kind
    case STRING_LITERAL => Some(StrLit(tok.data, 0))
    case INT_LITERAL =>
      var n := ParseInt(tok.data);
      if n.Some? then Some(IntLit(n.value)) else None
    case CHAR_LITERAL => if tok.data != [] then Some(ChrLit(tok.data[0])) else None
    case _ => Some(Missing)
  }

  /** A token at which parseExp(0) finds nothing at all: it starts no
      operand, continues no operator level and opens no suffix. */
  predicate Inert(kind: TokenClass)
  {
    !StartsOperand(kind) && NoOperatorFrom(kind, 1) && !OpensSuffix(kind)
  }

  //== Lemmas about the shapes the parser builds

  /** Each level builds only operators of its own level. */
  lemma {:induction false} LevelTokensBuildTheirLevel(level: nat, kind: TokenClass)
    requires 1 <= level <= 6 && kind in LevelTokens(level)
    ensures Level(OpOf(kind)) == level
  {
  }

  /** Left folding: `a - b - c` is `(a - b) - c`. */
  lemma FoldLeftSubtraction(a: Expr, b: Expr, c: Expr)
    ensures FoldLeft(a, [Step(Sub, b), Step(Sub, c)]) == BinOp(BinOp(a, b, Sub), c, Sub)
  {
    var steps := [Step(Sub, b), Step(Sub, c)];
    assert steps[..1] == [Step(Sub, b)] && steps[..1][..0] == [];
    assert FoldLeft(a, steps[..1]) == BinOp(a, b, Sub);
    assert FoldLeft(a, steps) == BinOp(FoldLeft(a, steps[..1]), c, Sub);
  }

  /** Folding one more step puts the old fold on the left of the new node. */
  lemma {:induction false} FoldLeftExtend(first: Expr, steps: seq<Step>, s: Step)
    ensures FoldLeft(first, steps + [s]) == BinOp(FoldLeft(first, steps), s.rhs, s.op)
  {
    assert (steps + [s])[..|steps|] == steps;
  }

  /** Postfix chains compose: reading `s` then `t` is reading `s + t`. */
  lemma {:induction false} PostfixAppend(e: Expr, s: seq<Suffix>, t: seq<Suffix>)
    ensures Postfix(e, s + t) == Postfix(Postfix(e, s), t)
    decreases |s|
  {
    if s != [] {
      assert (s + t)[0] == s[0] && (s + t)[1..] == s[1..] + t;
      PostfixAppend(ApplySuffix(e, s[0]), s[1..], t);
    } else {
      assert s + t == t;
    }
  }

  /** The last suffix read is the outermost node: chains associate to the left. */
  lemma PostfixLastOutermost(e: Expr, s: seq<Suffix>, x: Suffix)
    ensures Postfix(e, s + [x]) == ApplySuffix(Postfix(e, s), x)
  {
    PostfixAppend(e, s, [x]);
  }

  /** `a.f[i].g` is FieldAccess(ArrayAccess(FieldAccess(a, f), i), g). */
  lemma PostfixExample(a: Expr, f: string, i: Expr, g: string)
    ensures Postfix(a, [Field(f), Index(i), Field(g)]) == FieldAccess(ArrayAccess(FieldAccess(a, f), i), g)
  {
    PostfixAppend(a, [Field(f), Index(i)], [Field(g)]);
    PostfixAppend(a, [Field(f)], [Index(i)]);
  }

  /** Array suffixes compose: later suffixes wrap the earlier ones. */
  lemma {:induction false} WrapArraysAppend(t: Type, s: seq<int>, u: seq<int>)
    ensures WrapArrays(t, s + u) == WrapArrays(WrapArrays(t, s), u)
    decreases |u|
  {
    if u == [] {
      assert s + u == s;
    } else {
      assert (s + u)[..|s + u| - 1] == s + u[..|u| - 1];
      WrapArraysAppend(t, s, u[..|u| - 1]);
    }
  }

  /** `int x[2][3]` declares an array of 3 arrays of 2 ints. */
  lemma ArraySuffixExample(t: Type)
    ensures WrapArrays(t, [2, 3]) == Array(Array(t, 2), 3)
  {
    assert [2, 3][..1] == [2];
  }

  /** Every asterisk adds exactly one pointer level. */
  lemma {:induction false} WrapPointersCompose(t: Type, m: nat, n: nat)
    ensures WrapPointers(WrapPointers(t, m), n) == WrapPointers(t, m + n)
    decreases n
  {
    if n > 0 {
      WrapPointersCompose(t, m, n - 1);
    }
  }

  //== The grammar: what each parse method builds, as a function of the tokens

  /** What a parse method builds from a position on, and the position of
      the token it stops at. */
  datatype Parsed<T> = Parsed(value: T, end: nat)

  function Kind(toks: seq<Token>, p: nat): TokenClass
  {
    TokenAt(toks, p).kind
  }

  /** The tokens of the input from `p` on: the grammar's termination measure. */
  function Left(toks: seq<Token>, p: nat): nat
  {
    if p < |toks| then |toks| - p else 0
  }

  /** Appending one element, then the rest, is appending both at once. */
  lemma AppendOne<T>(xs: seq<T>, x: T, ys: seq<T>)
    ensures xs + ([x] + ys) == (xs + [x]) + ys
  {
  }

  /** The number of `*` tokens from `p` on. */
  function Stars(toks: seq<Token>, p: nat): nat
    decreases Left(toks, p)
  {
    if Kind(toks, p) == ASTERIX then 1 + Stars(toks, p + 1) else 0
  }

  /** The stars counted are exactly the run of `*` tokens from `p` on. */
  lemma {:induction false} StarsRun(toks: seq<Token>, p: nat)
    ensures forall k :: p <= k < p + Stars(toks, p) ==> Kind(toks, k) == ASTERIX
    ensures Kind(toks, p + Stars(toks, p)) != ASTERIX
    decreases Left(toks, p)
  {
    if Kind(toks, p) == ASTERIX {
      StarsRun(toks, p + 1);
    }
  }

  /** getType() at `p`: the type the token there names, one pointer per
      following `*`. */
  function TypeAt(toks: seq<Token>, p: nat): (r: Parsed<Type>)
    ensures r.end > p
  {
    var n := Stars(toks, p + 1);
    Parsed(WrapPointers(BaseOf(TokenAt(toks, p)), n), p + 1 + n)
  }

  /** parseType(i) at `p`: whether a type starts there, and where the
      cursor then stands (`struct` is consumed whatever follows it). */
  function TypeStartAt(toks: seq<Token>, p: nat): Parsed<bool>
  {
    if (Kind(toks, p) == INT || Kind(toks, p) == CHAR || Kind(toks, p) == VOID) then Parsed(true, p)
    else if Kind(toks, p) == STRUCT then Parsed(Kind(toks, p + 1) == IDENTIFIER, p + 1)
    else Parsed(false, p)
  }

  /** The size Integer.parseInt reads in the `[n]` at `p` (0 where it
      throws, which aborts the parse). */
  function DimAt(toks: seq<Token>, p: nat): int
  {
    var n := ParseInt(TokenAt(toks, p + 1).data);
    if n.Some? then n.value else 0
  }

  /** The sizes of the `[n]` suffixes from `p` on, three tokens each. */
  function Sizes(toks: seq<Token>, p: nat): seq<int>
    decreases Left(toks, p)
  {
    if Kind(toks, p) == LSBR then [DimAt(toks, p)] + Sizes(toks, p + 3) else []
  }

  /** The suffix `[n]` opens at `q` and `size` is what Integer.parseInt
      reads from its literal, whenever that literal is a number. */
  predicate SizeReadAt(toks: seq<Token>, q: nat, size: int)
  {
    Kind(toks, q) == LSBR && (ParseInt(TokenAt(toks, q + 1).data).Some? ==> size == ParseInt(TokenAt(toks, q + 1).data).value)
  }

  /** Each size is read from the literal of its own `[n]`: suffix `k`
      opens at `p + 3k`, and the run of suffixes ends at a token that is
      not `[`. */
  lemma {:induction false} SizesRead(toks: seq<Token>, p: nat)
    ensures var s := Sizes(toks, p);
            (forall k :: 0 <= k < |s| ==> SizeReadAt(toks, p + 3 * k, s[k])) && Kind(toks, p + 3 * |s|) != LSBR
    decreases Left(toks, p)
  {
    if Kind(toks, p) == LSBR {
      SizesRead(toks, p + 3);
      var s := Sizes(toks, p);
      var rest := Sizes(toks, p + 3);
      assert s == [DimAt(toks, p)] + rest;
      assert SizeReadAt(toks, p, s[0]);
      forall k | 1 <= k < |s|
        ensures SizeReadAt(toks, p + 3 * k, s[k])
      {
        var q := p + 3 * k;
        assert q == (p + 3) + 3 * (k - 1);
        assert SizeReadAt(toks, (p + 3) + 3 * (k - 1), rest[k - 1]);
      }
      assert p + 3 * |s| == (p + 3) + 3 * |rest|;
    }
  }

  /** A declarator at `p`: a type, a name and `[n]` suffixes. */
  function DeclaratorAt(toks: seq<Token>, p: nat): (r: Parsed<VarDecl>)
    ensures r.end > p + 1
  {
    var t := TypeAt(toks, p);
    var sizes := Sizes(toks, t.end + 1);
    Parsed(VarDecl(WrapArrays(t.value, sizes), TokenAt(toks, t.end).data), t.end + 1 + 3 * |sizes|)
  }

  /** parseVarDecls(i) at `p`: declarations `type name [n]... ;` until a
      `(` two tokens ahead or a token that starts no type. */
  function VarDeclsAt(toks: seq<Token>, p: nat): (r: Parsed<seq<VarDecl>>)
    ensures r.end >= p
    ensures Kind(toks, p + 2) == LPAR ==> r == Parsed([], p)
    decreases Left(toks, p), 1
  {
    if Kind(toks, p + 2) == LPAR then Parsed([], p)
    else
      var b := TypeStartAt(toks, p);
      if !b.value then Parsed([], b.end)
      else VarDeclsFromAt(toks, b.end)
  }

  /** The declarations from the declarator at `q` on, once a type has
      started there: that declarator, `;` and the declarations after it. */
  function VarDeclsFromAt(toks: seq<Token>, q: nat): (r: Parsed<seq<VarDecl>>)
    requires q < |toks|
    ensures r.end > q && r.value != []
    decreases Left(toks, q), 0
  {
    var d := DeclaratorAt(toks, q);
    var rest := VarDeclsAt(toks, d.end + 1);
    Parsed([d.value] + rest.value, rest.end)
  }

  /** One struct declaration at `p`: `struct name { fields } ;`. */
  function StructDeclAt(toks: seq<Token>, p: nat): (r: Parsed<StructDecl>)
    ensures r.end > p
  {
    var fields := VarDeclsAt(toks, p + 3);
    Parsed(StructDecl(TokenAt(toks, p + 1).data, fields.value), fields.end + 2)
  }

  /** parseStructDecls() at `p`: struct declarations while `struct` is
      followed two tokens later by `{`. */
  function StructDeclsAt(toks: seq<Token>, p: nat): (r: Parsed<seq<StructDecl>>)
    ensures r.end >= p
    ensures r.value == [] <==> r.end == p
    decreases Left(toks, p)
  {
    if Kind(toks, p) == STRUCT && Kind(toks, p + 2) == LBRA then
      var d := StructDeclAt(toks, p);
      var rest := StructDeclsAt(toks, d.end);
      Parsed([d.value] + rest.value, rest.end)
    else Parsed([], p)
  }

  lemma StructDeclsStart(toks: seq<Token>, p: nat)
    ensures StructDeclsAt(toks, p) == Parsed([] + StructDeclsAt(toks, p).value, StructDeclsAt(toks, p).end)
  {
    assert [] + StructDeclsAt(toks, p).value == StructDeclsAt(toks, p).value;
  }

  /** One turn of parseStructDecls' loop: the declaration at `c` extends
      what was read from `c0` on. */
  lemma StructDeclsStep(toks: seq<Token>, c0: nat, c: nat, out: seq<StructDecl>)
    requires Kind(toks, c) == STRUCT && Kind(toks, c + 2) == LBRA
    requires StructDeclsAt(toks, c0) == Parsed(out + StructDeclsAt(toks, c).value, StructDeclsAt(toks, c).end)
    ensures c < |toks|
    ensures var d := StructDeclAt(toks, c);
            StructDeclsAt(toks, c0) == Parsed((out + [d.value]) + StructDeclsAt(toks, d.end).value, StructDeclsAt(toks, d.end).end)
  {
    PastTheEndIsEof(toks, c);
    var d := StructDeclAt(toks, c);
    AppendOne(out, d.value, StructDeclsAt(toks, d.end).value);
  }

  /** Leaving the loop where no struct declaration starts. */
  lemma StructDeclsStop(toks: seq<Token>, c0: nat, c: nat, out: seq<StructDecl>)
    requires !(Kind(toks, c) == STRUCT && Kind(toks, c + 2) == LBRA)
    requires StructDeclsAt(toks, c0) == Parsed(out + StructDeclsAt(toks, c).value, StructDeclsAt(toks, c).end)
    ensures StructDeclsAt(toks, c0) == Parsed(out, c)
  {
    assert out + [] == out;
  }

  /** The optional first parameter of parseParams() at `p`. */
  function FirstParamAt(toks: seq<Token>, p: nat): (r: Parsed<seq<VarDecl>>)
    ensures r.end >= p && |r.value| <= 1
  {
    var b := TypeStartAt(toks, p);
    if b.value then
      var d := DeclaratorAt(toks, b.end);
      Parsed([d.value], d.end)
    else Parsed([], b.end)
  }

  /** The `, type name [n]...` parameters of parseParams() from `p` on. */
  function MoreParamsAt(toks: seq<Token>, p: nat): (r: Parsed<seq<VarDecl>>)
    ensures r.end >= p && Kind(toks, r.end) != COMMA
    decreases Left(toks, p)
  {
    if Kind(toks, p) != COMMA then Parsed([], p)
    else
      var b := TypeStartAt(toks, p + 1);
      var d := DeclaratorAt(toks, b.end);
      var rest := MoreParamsAt(toks, d.end);
      Parsed([d.value] + rest.value, rest.end)
  }

  lemma MoreParamsStart(toks: seq<Token>, p: nat)
    ensures MoreParamsAt(toks, p) == Parsed([] + MoreParamsAt(toks, p).value, MoreParamsAt(toks, p).end)
  {
    assert [] + MoreParamsAt(toks, p).value == MoreParamsAt(toks, p).value;
  }

  /** One turn of parseParams' loop: the comma at `c` and the parameter
      after it extend what was read from `c0` on. */
  lemma MoreParamsStep(toks: seq<Token>, c0: nat, c: nat, out: seq<VarDecl>)
    requires Kind(toks, c) == COMMA
    requires MoreParamsAt(toks, c0) == Parsed(out + MoreParamsAt(toks, c).value, MoreParamsAt(toks, c).end)
    ensures c < |toks|
    ensures var d := DeclaratorAt(toks, TypeStartAt(toks, c + 1).end);
            MoreParamsAt(toks, c0)
            == Parsed((out + [d.value]) + MoreParamsAt(toks, d.end).value, MoreParamsAt(toks, d.end).end)
  {
    PastTheEndIsEof(toks, c);
    var d := DeclaratorAt(toks, TypeStartAt(toks, c + 1).end);
    AppendOne(out, d.value, MoreParamsAt(toks, d.end).value);
  }

  /** Leaving the loop at a token that is not a comma. */
  lemma MoreParamsStop(toks: seq<Token>, c0: nat, c: nat, out: seq<VarDecl>)
    requires Kind(toks, c) != COMMA
    requires MoreParamsAt(toks, c0) == Parsed(out + MoreParamsAt(toks, c).value, MoreParamsAt(toks, c).end)
    ensures MoreParamsAt(toks, c0) == Parsed(out, c)
  {
    assert out + [] == out;
  }

  /** parseParams() at `p`. */
  function ParamsAt(toks: seq<Token>, p: nat): (r: Parsed<seq<VarDecl>>)
    ensures r.end >= p && Kind(toks, r.end) != COMMA
  {
    var first := FirstParamAt(toks, p);
    var rest := MoreParamsAt(toks, first.end);
    Parsed(first.value + rest.value, rest.end)
  }

  /** A function declaration at its type: the type, the name, `(`, the
      parameters, `)` and the body. */
  function FunDeclAt(toks: seq<Token>, p: nat): (r: Parsed<FunDecl>)
    ensures r.end > p
  {
    var t := TypeAt(toks, p);
    FunRestAt(toks, t.value, TokenAt(toks, t.end).data, t.end + 2)
  }

  /** The parameters from `p` on, `)` and the body of a function whose type
      and name are read. */
  function FunRestAt(toks: seq<Token>, t: Type, name: string, p: nat): (r: Parsed<FunDecl>)
    ensures r.end > p
  {
    var params := ParamsAt(toks, p);
    FunBodyAt(toks, t, name, params.value, params.end)
  }

  /** The body of a function declaration, after its parameters end at `p`:
      `)` and a block. */
  function FunBodyAt(toks: seq<Token>, t: Type, name: string, params: seq<VarDecl>, p: nat): (r: Parsed<FunDecl>)
    ensures r.end > p
  {
    var body := BlockAt(toks, p + 1);
    Parsed(FunDecl(t, name, params, body.value), body.end)
  }

  /** parseFunDecls() at `p`: function declarations while a type starts. */
  function FunDeclsAt(toks: seq<Token>, p: nat): (r: Parsed<seq<FunDecl>>)
    ensures r.end >= p
    decreases Left(toks, p)
  {
    var b := TypeStartAt(toks, p);
    if !b.value then Parsed([], b.end)
    else
      assert p < |toks| && b.end >= p;
      var f := FunDeclAt(toks, b.end);
      var rest := FunDeclsAt(toks, f.end);
      Parsed([f.value] + rest.value, rest.end)
  }

  lemma FunDeclsUnfold(toks: seq<Token>, p: nat)
    ensures var b := TypeStartAt(toks, p);
            FunDeclsAt(toks, p)
            == if !b.value then Parsed([], b.end)
               else
                 var f := FunDeclAt(toks, b.end);
                 var rest := FunDeclsAt(toks, f.end);
                 Parsed([f.value] + rest.value, rest.end)
  {
  }

  /** parseIncludes() at `p`: where the `#include "..."` lines end. */
  function IncludesEnd(toks: seq<Token>, p: nat): (q: nat)
    ensures q >= p && Kind(toks, q) != INCLUDE
    decreases Left(toks, p)
  {
    if Kind(toks, p) == INCLUDE then IncludesEnd(toks, p + 2) else p
  }

  /** parseProgram() at `p`: includes, structs, globals, functions and the
      end-of-file token. */
  function ProgramAt(toks: seq<Token>, p: nat): (r: Parsed<Program>)
    ensures r.end > p
  {
    var structs := StructDeclsAt(toks, IncludesEnd(toks, p));
    var globals := VarDeclsAt(toks, structs.end);
    var funs := FunDeclsAt(toks, globals.end);
    Parsed(Program(structs.value, globals.value, funs.value), funs.end + 1)
  }

  /** parseStmt() at `p`: the form is chosen by the token there. */
  function StmtAt(toks: seq<Token>, p: nat): (r: Parsed<Stmt>)
    ensures r.end > p
    decreases Left(toks, p), 3
  {
    var k := Kind(toks, p);
    if k == LBRA then
      var b := BlockAt(toks, p);
      Parsed(BlockStmt(b.value), b.end)
    else if k == WHILE || k == IF then CondStmtAt(toks, p)
    else if k == RETURN then ReturnAt(toks, p)
    else ExprStmtAt(toks, p)
  }

  /** parseBlock() at `p`: `{`, declarations, statements until `}` or the
      end of input, and the closing token. */
  function BlockAt(toks: seq<Token>, p: nat): (r: Parsed<Block>)
    ensures r.end > p && (Kind(toks, r.end - 1) == RBRA || Kind(toks, r.end - 1) == EOF)
    decreases Left(toks, p), 1
  {
    var vars := VarDeclsAt(toks, p + 1);
    var stmts := StmtsAt(toks, vars.end);
    Parsed(Block(vars.value, stmts.value), stmts.end + 1)
  }

  /** The statements of a block from `p` on, up to `}` or the end of input. */
  function StmtsAt(toks: seq<Token>, p: nat): (r: Parsed<seq<Stmt>>)
    ensures r.end >= p && (Kind(toks, r.end) == RBRA || Kind(toks, r.end) == EOF)
    decreases if (Kind(toks, p) == RBRA || Kind(toks, p) == EOF) then 0 else Left(toks, p) + 1, 0
  {
    if (Kind(toks, p) == RBRA || Kind(toks, p) == EOF) then Parsed([], p)
    else
      var s := StmtAt(toks, p);
      var rest := StmtsAt(toks, s.end);
      Parsed([s.value] + rest.value, rest.end)
  }

  lemma StmtsStart(toks: seq<Token>, p: nat)
    ensures StmtsAt(toks, p) == Parsed([] + StmtsAt(toks, p).value, StmtsAt(toks, p).end)
  {
    assert [] + StmtsAt(toks, p).value == StmtsAt(toks, p).value;
  }

  /** One turn of parseBlock's loop: the statement at `c` extends what was
      read from `c0` on. */
  lemma StmtsStep(toks: seq<Token>, c0: nat, c: nat, out: seq<Stmt>)
    requires Kind(toks, c) != RBRA && Kind(toks, c) != EOF
    requires StmtsAt(toks, c0) == Parsed(out + StmtsAt(toks, c).value, StmtsAt(toks, c).end)
    ensures c < |toks|
    ensures var s := StmtAt(toks, c);
            StmtsAt(toks, c0) == Parsed((out + [s.value]) + StmtsAt(toks, s.end).value, StmtsAt(toks, s.end).end)
  {
    PastTheEndIsEof(toks, c);
    var s := StmtAt(toks, c);
    AppendOne(out, s.value, StmtsAt(toks, s.end).value);
  }

  /** Leaving the loop at `}` or the end of input. */
  lemma StmtsStop(toks: seq<Token>, c0: nat, c: nat, out: seq<Stmt>)
    requires (Kind(toks, c) == RBRA || Kind(toks, c) == EOF)
    requires StmtsAt(toks, c0) == Parsed(out + StmtsAt(toks, c).value, StmtsAt(toks, c).end)
    ensures StmtsAt(toks, c0) == Parsed(out, c)
  {
    assert out + [] == out;
  }

  /** `while (e) s` and `if (e) s [else s]` at `p`. */
  function CondStmtAt(toks: seq<Token>, p: nat): (r: Parsed<Stmt>)
    requires (Kind(toks, p) == WHILE || Kind(toks, p) == IF)
    ensures r.end > p
    ensures Kind(toks, p) == WHILE ==> r.value.While?
    ensures Kind(toks, p) == IF ==> r.value.If?
    decreases Left(toks, p), 2
  {
    var cond := ConditionAt(toks, p + 1);
    CondTailAt(toks, Kind(toks, p), cond.value, cond.end)
  }

  /** The body from `p` on, and for an `if` its optional `else`, of a
      conditional statement with keyword `k` and condition `cond`. */
  function CondTailAt(toks: seq<Token>, k: TokenClass, cond: Expr, p: nat): (r: Parsed<Stmt>)
    ensures r.end > p
    ensures k == WHILE ==> r.value.While?
    ensures k != WHILE ==> r.value.If?
    decreases Left(toks, p), 5
  {
    var body := StmtAt(toks, p);
    if k == WHILE then Parsed(While(cond, body.value), body.end)
    else
      var elseS := ElseAt(toks, body.end);
      Parsed(If(cond, body.value, elseS.value), elseS.end)
  }

  /** The optional `else s` of an `if`, at `p`. */
  function ElseAt(toks: seq<Token>, p: nat): (r: Parsed<Option<Stmt>>)
    ensures r.end >= p
    ensures Kind(toks, p) != ELSE ==> r == Parsed(None, p)
    decreases Left(toks, p), 4
  {
    if Kind(toks, p) == ELSE then
      var s := StmtAt(toks, p + 1);
      Parsed(Some(s.value), s.end)
    else Parsed(None, p)
  }

  /** `( e )` at `p`, the condition of a `while` or an `if`. */
  function ConditionAt(toks: seq<Token>, p: nat): (r: Parsed<Expr>)
    ensures r.end > p + 1
  {
    var e := ExpAt(toks, p + 1, 1);
    Parsed(e.value, e.end + 1)
  }

  /** `return [e] ;` at `p`: an absent expression gives `return;`. */
  function ReturnAt(toks: seq<Token>, p: nat): (r: Parsed<Stmt>)
    ensures r.end > p + 1
    ensures r.value.Return? && (r.value.value.Some? ==> r.value.value.value != Missing)
    ensures Inert(Kind(toks, p + 1)) ==> r == Parsed(Return(None), p + 2)
  {
    var e := ExpAt(toks, p + 1, 0);
    Parsed(if e.value == Missing then Return(None) else Return(Some(e.value)), e.end + 1)
  }

  /** `e ;` or `e = e ;` at `p`: an assignment needs a right-hand side. */
  function ExprStmtAt(toks: seq<Token>, p: nat): (r: Parsed<Stmt>)
    ensures r.end > p
    ensures (r.value.Assign? && r.value.rhs != Missing) || r.value.ExprStmt?
  {
    var lhs := ExpAt(toks, p, 1);
    if Kind(toks, lhs.end) == ASSIGN then
      var rhs := ExpAt(toks, lhs.end + 1, 1);
      Parsed(if rhs.value == Missing then ExprStmt(lhs.value) else Assign(lhs.value, rhs.value), rhs.end + 1)
    else Parsed(ExprStmt(lhs.value), lhs.end + 1)
  }

  /** parseExp(i) at `p`: the six levels, then `.f` / `[e]` suffixes. */
  function ExpAt(toks: seq<Token>, p: nat, i: int): (r: Parsed<Expr>)
    ensures r.end >= p && (i != 0 ==> r.end > p)
    ensures !OpensSuffix(Kind(toks, r.end))
    ensures i == 0 && Inert(Kind(toks, p)) ==> r == Parsed(Missing, p)
    decreases Left(toks, p), 20
  {
    var e := LevelAt(toks, p, 1, i);
    StructArrayAt(toks, e.end, e.value)
  }

  /** One precedence level at `p` (1 is parseExp's own loop, 2 to 6 are
      parseLOB, parseLAB, parseEQB, parseCPB and parseADB): its first
      operand, then its loop. */
  function LevelAt(toks: seq<Token>, p: nat, level: nat, i: int): (r: Parsed<Expr>)
    requires 1 <= level <= 6
    ensures r.end >= p && (i != 0 ==> r.end > p)
    ensures NoOperatorFrom(Kind(toks, r.end), level)
    ensures i == 0 && Inert(Kind(toks, p)) ==> r == Parsed(Missing, p)
    decreases Left(toks, p), 20 - 2 * level
  {
    var first := if level < 6 then LevelAt(toks, p, level + 1, i) else MLBAt(toks, p, i);
    LevelLoopAt(toks, first.end, level, first.value)
  }

  /** A level's loop at `p`, everything read so far being `left`: each
      operator of the level makes a node with `left` on the left and the
      next operand on the right. */
  function LevelLoopAt(toks: seq<Token>, p: nat, level: nat, left: Expr): (r: Parsed<Expr>)
    requires 1 <= level <= 6 && NoOperatorFrom(Kind(toks, p), level + 1)
    ensures r.end >= p
    ensures NoOperatorFrom(Kind(toks, r.end), level)
    ensures TokenLevel(Kind(toks, p)) != level ==> r == Parsed(left, p)
    decreases Left(toks, p), 19 - 2 * level
  {
    if TokenLevel(Kind(toks, p)) != level then Parsed(left, p)
    else
      var rhs := OperandAt(toks, p + 1, level);
      LevelLoopAt(toks, rhs.end, level, BinOp(left, rhs.value, OpOf(Kind(toks, p))))
  }

  /** The right operand of a level-`level` operator at `p`: the next level
      up, or parseMLB(1) after the multiplicative operators. */
  function OperandAt(toks: seq<Token>, p: nat, level: nat): (r: Parsed<Expr>)
    requires 1 <= level <= 6
    ensures r.end > p && NoOperatorFrom(Kind(toks, r.end), level + 1)
    decreases Left(toks, p), 19 - 2 * level
  {
    if level < 6 then LevelAt(toks, p, level + 1, 1) else MLBAt(toks, p, 1)
  }

  /** parseMLB(i) at `p`: one operand, chosen by the token there. */
  function MLBAt(toks: seq<Token>, p: nat, i: int): (r: Parsed<Expr>)
    ensures r.end >= p && (i != 0 || StartsOperand(Kind(toks, p)) ==> r.end > p)
    ensures !StartsOperand(Kind(toks, p)) ==> r == Parsed(Missing, if i != 0 then p + 1 else p)
    ensures Kind(toks, p) == MINUS ==> r.value.BinOp? && r.value.lhs == IntLit(0) && r.value.op == Sub
    decreases Left(toks, p), 2
  {
    var k := Kind(toks, p);
    if k == SIZEOF then SizeOfAt(toks, p)
    else if k == ASTERIX then VAtAt(toks, p + 1)
    else if k == IDENTIFIER then IdentOrFuncAt(toks, p)
    else if IsLiteral(k) then
      var lit := LiteralOf(TokenAt(toks, p));
      Parsed(if lit.Some? then lit.value else Missing, p + 1)
    else if k == MINUS then
      var e := ExpAt(toks, p + 1, 1);
      Parsed(BinOp(IntLit(0), e.value, Sub), e.end)
    else if k == LPAR then BracketAt(toks, p + 1)
    else Parsed(Missing, if i != 0 then p + 1 else p)
  }

  /** `sizeof ( type )` at `p`. */
  function SizeOfAt(toks: seq<Token>, p: nat): (r: Parsed<Expr>)
    ensures r.end > p && r.value.SizeOf?
  {
    var t := TypeAt(toks, TypeStartAt(toks, p + 2).end);
    Parsed(SizeOf(t.value), t.end + 1)
  }

  /** getVAt() at `p`, after the `*`: a dereferenced bracket or name (null
      otherwise), then suffixes. */
  function VAtAt(toks: seq<Token>, p: nat): (r: Parsed<Expr>)
    ensures r.end >= p
    decreases Left(toks, p), 2
  {
    var inner :=
      if Kind(toks, p) == LPAR then
        var b := BracketAt(toks, p + 1);
        Parsed(ValueAt(b.value), b.end)
      else if Kind(toks, p) == IDENTIFIER then
        var b := IdentOrFuncAt(toks, p);
        Parsed(ValueAt(b.value), b.end)
      else Parsed(Missing, p);
    StructArrayAt(toks, inner.end, inner.value)
  }

  /** getIdentorFunc() at a name: a call when `(` follows, a variable
      otherwise, then suffixes. */
  function IdentOrFuncAt(toks: seq<Token>, p: nat): (r: Parsed<Expr>)
    requires Kind(toks, p) == IDENTIFIER
    ensures r.end > p
    decreases Left(toks, p), 1
  {
    var name := TokenAt(toks, p).data;
    if Kind(toks, p + 1) == LPAR then
      var args := ArgsAt(toks, p + 2);
      StructArrayAt(toks, args.end + 1, FunCall(name, args.value, None))
    else StructArrayAt(toks, p + 1, Var(name, None))
  }

  /** Where the suffixes of a name or a call at `p` start, and what they
      apply to. */
  lemma IdentOrFuncParts(toks: seq<Token>, p: nat, c: nat, e: Expr)
    requires Kind(toks, p) == IDENTIFIER
    requires Kind(toks, p + 1) == LPAR ==>
               var args := ArgsAt(toks, p + 2);
               c == args.end + 1 && e == FunCall(TokenAt(toks, p).data, args.value, None)
    requires Kind(toks, p + 1) != LPAR ==> c == p + 1 && e == Var(TokenAt(toks, p).data, None)
    ensures IdentOrFuncAt(toks, p) == StructArrayAt(toks, c, e)
  {
  }

  /** The arguments of a call at `p`, after its `(`. */
  function ArgsAt(toks: seq<Token>, p: nat): (r: Parsed<seq<Expr>>)
    ensures r.end >= p
    ensures Kind(toks, p) == RPAR <==> r.value == []
    decreases Left(toks, p), 21
  {
    if Kind(toks, p) == RPAR then Parsed([], p)
    else
      var a := ExpAt(toks, p, 1);
      var rest := MoreArgsAt(toks, a.end);
      Parsed([a.value] + rest.value, rest.end)
  }

  /** The `, e` arguments from `p` on. */
  function MoreArgsAt(toks: seq<Token>, p: nat): (r: Parsed<seq<Expr>>)
    ensures r.end >= p && Kind(toks, r.end) != COMMA
    decreases Left(toks, p), 0
  {
    if Kind(toks, p) != COMMA then Parsed([], p)
    else
      var a := ExpAt(toks, p + 1, 1);
      var rest := MoreArgsAt(toks, a.end);
      Parsed([a.value] + rest.value, rest.end)
  }

  lemma ArgsUnfold(toks: seq<Token>, p: nat)
    ensures ArgsAt(toks, p)
            == if Kind(toks, p) == RPAR then Parsed([], p)
               else
                 var a := ExpAt(toks, p, 1);
                 var rest := MoreArgsAt(toks, a.end);
                 Parsed([a.value] + rest.value, rest.end)
  {
  }

  lemma MoreArgsStart(toks: seq<Token>, p: nat)
    ensures MoreArgsAt(toks, p) == Parsed([] + MoreArgsAt(toks, p).value, MoreArgsAt(toks, p).end)
  {
    assert [] + MoreArgsAt(toks, p).value == MoreArgsAt(toks, p).value;
  }

  /** One turn of parseArgs' loop: the comma at `c` and the argument after
      it extend what was read from `c0` on. */
  lemma MoreArgsStep(toks: seq<Token>, c0: nat, c: nat, out: seq<Expr>)
    requires Kind(toks, c) == COMMA
    requires MoreArgsAt(toks, c0) == Parsed(out + MoreArgsAt(toks, c).value, MoreArgsAt(toks, c).end)
    ensures c < |toks|
    ensures var a := ExpAt(toks, c + 1, 1);
            MoreArgsAt(toks, c0)
            == Parsed((out + [a.value]) + MoreArgsAt(toks, a.end).value, MoreArgsAt(toks, a.end).end)
  {
    PastTheEndIsEof(toks, c);
    var a := ExpAt(toks, c + 1, 1);
    AppendOne(out, a.value, MoreArgsAt(toks, a.end).value);
  }

  /** Leaving the loop at a token that is not a comma. */
  lemma MoreArgsStop(toks: seq<Token>, c0: nat, c: nat, out: seq<Expr>)
    requires Kind(toks, c) != COMMA
    requires MoreArgsAt(toks, c0) == Parsed(out + MoreArgsAt(toks, c).value, MoreArgsAt(toks, c).end)
    ensures MoreArgsAt(toks, c0) == Parsed(out, c)
  {
    assert out + [] == out;
  }

  /** parseStructArray(e) at `p`: `.f` and `[e]` suffixes around `e`. */
  function StructArrayAt(toks: seq<Token>, p: nat, e: Expr): (r: Parsed<Expr>)
    ensures r.end >= p && !OpensSuffix(Kind(toks, r.end))
    ensures !OpensSuffix(Kind(toks, p)) ==> r == Parsed(e, p)
    decreases Left(toks, p), 0
  {
    if Kind(toks, p) == DOT then
      StructArrayAt(toks, p + 2, FieldAccess(e, TokenAt(toks, p + 1).data))
    else if Kind(toks, p) == LSBR then
      var index := ExpAt(toks, p + 1, 1);
      StructArrayAt(toks, index.end + 1, ArrayAccess(e, index.value))
    else Parsed(e, p)
  }

  /** One suffix at `p`: the rest of the suffixes start at `c` and apply
      to `e2`, `e` with that suffix. */
  lemma StructArrayParts(toks: seq<Token>, p: nat, e: Expr, c: nat, e2: Expr)
    requires Kind(toks, p) == DOT ==> c == p + 2 && e2 == FieldAccess(e, TokenAt(toks, p + 1).data)
    requires Kind(toks, p) == LSBR ==>
               var index := ExpAt(toks, p + 1, 1);
               c == index.end + 1 && e2 == ArrayAccess(e, index.value)
    requires OpensSuffix(Kind(toks, p))
    ensures StructArrayAt(toks, p, e) == StructArrayAt(toks, c, e2)
  {
  }

  /** getBracket() at `p`, after the `(`: a cast `(type) e` or `e )`. */
  function BracketAt(toks: seq<Token>, p: nat): (r: Parsed<Expr>)
    ensures r.end > p
    decreases Left(toks, p), 22
  {
    var isType := TypeStartAt(toks, p);
    if isType.value then CastAt(toks, isType.end)
    else
      var e := ExpAt(toks, isType.end, 1);
      Parsed(e.value, e.end + 1)
  }

  /** The cast `type) e` at `p`, inside a bracket. */
  function CastAt(toks: seq<Token>, p: nat): (r: Parsed<Expr>)
    ensures r.end > p && r.value.Typecast?
    decreases Left(toks, p), 21
  {
    var t := TypeAt(toks, p);
    var e := ExpAt(toks, t.end + 1, 1);
    Parsed(Typecast(t.value, e.value), e.end)
  }

  class Parser {
    /** The lexer's output; past its end the lexer answers EOF. */
    const toks: seq<Token>
    /** Stream position of the current token (`token`). */
    var cur: nat
    /** Stream positions of the looked-ahead tokens, oldest first (`buffer`). */
    var buffer: seq<nat>
    /** How many tokens the lexer has handed out so far. */
    var pulled: nat
    /** The error counter (`error`). */
    var error: nat
    /** Stream position of the token the last reported error was about. */
    var lastErrorToken: Option<nat>
    /** Set when Integer.parseInt or String.charAt throws, which aborts parse(). */
    var crashed: bool

    /** The look-ahead queue holds exactly the tokens pulled after the current one. */
    ghost predicate Valid()
      reads this
    {
      pulled == cur + 1 + |buffer| && forall j :: 0 <= j < |buffer| ==> buffer[j] == cur + 1 + j
    }

    function Current(): Token
      reads this
    {
      TokenAt(toks, cur)
    }

    /** Tokens of the input not yet consumed; the termination measure. */
    ghost function Rem(): nat
      reads this
    {
      if cur < |toks| then |toks| - cur else 0
    }

    /** Constructs the parser and reads the first token (the constructor
        followed by the `nextToken()` that starts parse()). */
    constructor(tokens: seq<Token>)
      ensures Valid() && toks == tokens && cur == 0 && buffer == []
      ensures error == 0 && lastErrorToken == None && !crashed
    {
      toks := tokens;
      cur, buffer, pulled := 0, [], 1;
      error, lastErrorToken, crashed := 0, None, false;
    }

    /** error(...): counts a syntax error unless the current token already
        caused the last one. */
    method Error(expected: seq<TokenClass>)
      modifies this`error, this`lastErrorToken
      ensures lastErrorToken == Some(cur)
      ensures error == if old(lastErrorToken) == Some(cur) then old(error) else old(error) + 1
    {
      if lastErrorToken == Some(cur) {
        return;
      }
      error := error + 1;
      lastErrorToken := Some(cur);
    }

    /** lookAhead(i): the i-th token after the current one, pulled into the
        queue as needed; the current token does not change. */
    method LookAhead(i: nat) returns (t: Token)
      requires Valid() && i >= 1
      modifies this`buffer, this`pulled
      ensures Valid() && |buffer| >= i && pulled >= old(pulled)
      ensures t == TokenAt(toks, cur + i)
    {
      while |buffer| < i
        invariant Valid() && pulled >= old(pulled)
        decreases i - |buffer|
      {
        buffer := buffer + [pulled];
        pulled := pulled + 1;
      }
      var cnt := 1;
      var k := 0;
      while cnt != i
        invariant cnt == k + 1 <= i <= |buffer|
        decreases i - cnt
      {
        cnt := cnt + 1;
        k := k + 1;
      }
      t := TokenAt(toks, buffer[k]);
    }

    /** nextToken(): takes the oldest queued token, or a fresh one from the
        lexer when the queue is empty; either way the next one in the stream. */
    method NextToken()
      requires Valid()
      modifies this`cur, this`buffer, this`pulled
      ensures Valid() && cur == old(cur) + 1
      ensures pulled == if old(buffer) == [] then old(pulled) + 1 else old(pulled)
    {
      if buffer != [] {
        cur := buffer[0];
        buffer := buffer[1..];
      } else {
        cur := pulled;
        pulled := pulled + 1;
      }
    }

    /** accept(...): whether the current token's class is one of `expected`. */
    method Accept(expected: seq<TokenClass>) returns (r: bool)
      ensures r <==> Current().kind in expected
    {
      r := false;
      for k := 0 to |expected|
        invariant r <==> Current().kind in expected[..k]
      {
        r := r || expected[k] == Current().kind;
      }
    }

    /** expect(...): the current token if its class is expected, otherwise an
        error and null; it never consumes the token. */
    method Expect(expected: seq<TokenClass>) returns (r: Option<Token>)
      modifies this`error, this`lastErrorToken
      ensures Current().kind in expected ==>
                r == Some(Current()) && error == old(error) && lastErrorToken == old(lastErrorToken)
      ensures Current().kind !in expected ==>
                && r == None && lastErrorToken == Some(cur)
                && error == (if old(lastErrorToken) == Some(cur) then old(error) else old(error) + 1)
    {
      for k := 0 to |expected|
        invariant Current().kind !in expected[..k]
      {
        if expected[k] == Current().kind {
          return Some(Current());
        }
      }
      Error(expected);
      r := None;
    }

    /** parseType(i): whether a type starts here; with `i != 0` a type is
        required and its absence counts as an error (the code then bumps the
        counter a second time). A `struct` keyword is consumed either way. */
    method ParseType(i: int) returns (b: bool)
      requires Valid()
      modifies this
      ensures Valid() && old(cur) <= cur && old(error) <= error && crashed == old(crashed)
      ensures b ==> cur < |toks|
      ensures b == TypeStartAt(toks, old(cur)).value && cur == TypeStartAt(toks, old(cur)).end
      ensures i == 0 || b ==> error == old(error) && lastErrorToken == old(lastErrorToken)
      ensures !b && i != 0 ==>
                && error == old(error) + (if old(lastErrorToken) == Some(cur) then 1 else 2)
                && lastErrorToken == Some(cur)
      decreases if i == 0 then 0 else 1
    {
      if i == 0 {
        b := Accept([INT, CHAR, VOID]);
        if !b {
          b := ParseStructType();
        }
      } else {
        b := ParseType(0);
        if !b {
          Error([INT, VOID, CHAR, STRUCT]);
          error := error + 1;
          lastErrorToken := Some(cur);
        }
      }
    }

    /** parseStructType(): consumes `struct` and tells whether a name follows. */
    method ParseStructType() returns (b: bool)
      requires Valid()
      modifies this`cur, this`buffer, this`pulled
      ensures Valid()
      ensures old(Current()).kind == STRUCT ==> cur == old(cur) + 1 && (b <==> Current().kind == IDENTIFIER)
      ensures old(Current()).kind != STRUCT ==> cur == old(cur) && !b
    {
      b := false;
      var s := Accept([STRUCT]);
      if s {
        NextToken();
        b := Accept([IDENTIFIER]);
      }
    }

    /** The base type getType reads from the current token: INT, CHAR,
        VOID, or else a struct named by the token's text. */
    method BaseType() returns (t: Type)
      ensures t == BaseOf(Current())
    {
      var a := Accept([INT]);
      if a {
        t := IntType;
      } else {
        a := Accept([CHAR]);
        if a {
          t := CharType;
        } else {
          a := Accept([VOID]);
          if a {
            t := VoidType;
          } else {
            t := Struct(Current().data);
          }
        }
      }
    }

    /** getType(): the type the current token names, wrapped in one pointer
        per following `*`. */
    method GetType() returns (t: Type)
      requires Valid()
      modifies this`cur, this`buffer, this`pulled
      ensures Valid() && t == TypeAt(toks, old(cur)).value && cur == TypeAt(toks, old(cur)).end
    {
      t := BaseType();
      ghost var start := cur;
      NextToken();
      ghost var stars := 0;
      var more := Accept([ASTERIX]);
      while more
        invariant Valid() && cur == start + 1 + stars
        invariant t == WrapPointers(BaseOf(TokenAt(toks, start)), stars)
        invariant Stars(toks, start + 1) == stars + Stars(toks, cur)
        invariant more <==> Current().kind == ASTERIX
        decreases Rem()
      {
        NextToken();
        t := Pointer(t);
        stars := stars + 1;
        more := Accept([ASTERIX]);
      }
    }

    /** One `[n]` of a declarator, the current token being `[`: its size,
        read with Integer.parseInt (a failure aborts the parse). */
    method ParseDim() returns (size: int)
      requires Valid()
      modifies this
      ensures Valid() && cur == old(cur) + 3 && old(error) <= error && (old(crashed) ==> crashed)
      ensures crashed == (old(crashed) || ParseInt(TokenAt(toks, old(cur) + 1).data).None?)
      ensures size == DimAt(toks, old(cur))
    {
      NextToken();
      var _ := Expect([INT_LITERAL]);
      var n := ParseInt(Current().data);
      if n.None? {
        crashed := true;
      }
      size := if n.Some? then n.value else 0;
      NextToken();
      var _ := Expect([RSBR]);
      NextToken();
    }

    /** The `[n]` suffixes of a declarator (the loop parseVarDecls and
        parseParams repeat three times): each wraps one ArrayType. */
    method ParseArrayDims(t: Type) returns (r: Type)
      requires Valid()
      modifies this
      ensures Valid() && old(error) <= error && (old(crashed) ==> crashed)
      ensures r == WrapArrays(t, Sizes(toks, old(cur)))
      ensures cur == old(cur) + 3 * |Sizes(toks, old(cur))|
    {
      r := t;
      ghost var sizes := [];
      var more := Accept([LSBR]);
      while more
        invariant Valid() && cur == old(cur) + 3 * |sizes| && old(error) <= error && (old(crashed) ==> crashed)
        invariant r == WrapArrays(t, sizes)
        invariant Sizes(toks, old(cur)) == sizes + Sizes(toks, cur)
        invariant more <==> Current().kind == LSBR
        decreases Rem()
      {
        ghost var c := cur;
        var size := ParseDim();
        assert (sizes + [size])[..|sizes|] == sizes;
        assert Sizes(toks, c) == [size] + Sizes(toks, cur);
        AppendOne(sizes, size, Sizes(toks, cur));
        r := Array(r, size);
        sizes := sizes + [size];
        more := Accept([LSBR]);
      }
      assert sizes + Sizes(toks, cur) == sizes;
    }

    /** `expect(...)` followed by `nextToken()`: the token is consumed
        whether or not it was the expected one. */
    method ExpectNext(expected: seq<TokenClass>)
      requires Valid()
      modifies this`error, this`lastErrorToken, this`cur, this`buffer, this`pulled
      ensures Valid() && cur == old(cur) + 1 && old(error) <= error
      ensures old(Current()).kind in expected ==> error == old(error)
      ensures old(Current()).kind in expected || lastErrorToken == Some(old(cur))
    {
      var _ := Expect(expected);
      NextToken();
    }

    /** The position, the error count and the crash flag have not gone
        back below a recorded state. */
    ghost predicate Since(c0: nat, e0: nat, k0: bool)
      reads this
    {
      c0 <= cur && e0 <= error && (k0 ==> crashed)
    }

    /** What every parse method keeps: the token queue stays consistent, the
        cursor only moves forward, the error count never decreases and an
        aborted parse stays aborted. */
    twostate predicate Monotone()
      reads this
    {
      Valid() && old(cur) <= cur && old(error) <= error && (old(crashed) ==> crashed)
    }

    /** parseIncludes(): skips `#include "..."` lines. */
    method ParseIncludes()
      requires Valid()
      modifies this
      ensures Monotone() && cur == IncludesEnd(toks, old(cur))
      ensures old(Current()).kind != INCLUDE ==> error == old(error)
      decreases Rem()
    {
      var inc := Accept([INCLUDE]);
      if inc {
        NextToken();
        var _ := Expect([STRING_LITERAL]);
        NextToken();
        ParseIncludes();
      }
    }

    /** A declarator after its type: a name and its `[n]` suffixes. */
    method ParseDeclarator() returns (d: VarDecl)
      requires Valid()
      modifies this
      ensures Monotone() && d == DeclaratorAt(toks, old(cur)).value && cur == DeclaratorAt(toks, old(cur)).end
    {
      var t := GetType();
      var _ := Expect([IDENTIFIER]);
      var name := Current().data;
      NextToken();
      t := ParseArrayDims(t);
      d := VarDecl(t, name);
    }

    /** parseVarDecls(i): variable declarations up to the first function
        header, which a `(` two tokens ahead announces. */
    method ParseVarDecls(i: int) returns (out: seq<VarDecl>)
      requires Valid()
      modifies this
      ensures Monotone() && out == VarDeclsAt(toks, old(cur)).value && cur == VarDeclsAt(toks, old(cur)).end
      ensures TokenAt(toks, old(cur) + 2).kind == LPAR ==> error == old(error) && crashed == old(crashed)
      ensures i != 0 && TokenAt(toks, old(cur) + 2).kind != LPAR && out == [] ==> error > old(error)
      decreases Rem(), 1
    {
      out := [];
      var la := LookAhead(2);
      if la.kind == LPAR {
        return;
      }
      ghost var c0 := cur;
      var b := ParseType(i);
      if b {
        assert VarDeclsAt(toks, c0) == VarDeclsFromAt(toks, cur);
        out := ParseVarDeclsFrom();
      }
    }

    /** A declarator, `;` and the declarations after them. */
    method ParseVarDeclsFrom() returns (out: seq<VarDecl>)
      requires Valid() && cur < |toks|
      modifies this
      ensures Monotone() && out == VarDeclsFromAt(toks, old(cur)).value && cur == VarDeclsFromAt(toks, old(cur)).end
      decreases Rem(), 0
    {
      ghost var c0 := cur;
      var d := ParseDeclarator();
      ghost var c1 := cur;
      ExpectNext([SC]);
      ghost var rd := VarDeclsAt(toks, c1 + 1);
      assert VarDeclsFromAt(toks, c0) == Parsed([d] + rd.value, rd.end);
      var rest := ParseVarDecls(0);
      out := [d] + rest;
    }

    /** The guard of parseStructDecls' loop: `struct` now and `{` two tokens
        ahead (the look-ahead is only taken after `struct`). */
    method AtStructDecl() returns (go: bool)
      requires Valid()
      modifies this`buffer, this`pulled
      ensures Valid()
      ensures go <==> Current().kind == STRUCT && TokenAt(toks, cur + 2).kind == LBRA
    {
      go := Accept([STRUCT]);
      if go {
        var la := LookAhead(2);
        go := la.kind == LBRA;
      }
    }

    /** One iteration of parseStructDecls: `struct name { fields } ;`. */
    method ParseStructDecl() returns (sd: StructDecl)
      requires Valid()
      modifies this
      ensures Monotone() && sd == StructDeclAt(toks, old(cur)).value && cur == StructDeclAt(toks, old(cur)).end
    {
      var name := ParseStructHeader();
      var fields := ParseVarDecls(1);
      ExpectNext([RBRA]);
      ExpectNext([SC]);
      sd := StructDecl(name, fields);
    }

    /** One turn of parseStructDecls' loop, carrying its invariant from
        `out` to `out + [sd]`. */
    method ParseStructDeclTurn(ghost q: nat, ghost out: seq<StructDecl>) returns (sd: StructDecl)
      requires Valid() && Current().kind == STRUCT && TokenAt(toks, cur + 2).kind == LBRA
      requires StructDeclsAt(toks, q) == Parsed(out + StructDeclsAt(toks, cur).value, StructDeclsAt(toks, cur).end)
      modifies this
      ensures Monotone() && cur > old(cur)
      ensures StructDeclsAt(toks, q) == Parsed((out + [sd]) + StructDeclsAt(toks, cur).value, StructDeclsAt(toks, cur).end)
    {
      StructDeclsStep(toks, q, cur, out);
      sd := ParseStructDecl();
    }

    /** `struct name {`: the name of a struct declaration. */
    method ParseStructHeader() returns (name: string)
      requires Valid()
      modifies this
      ensures Monotone() && name == TokenAt(toks, old(cur) + 1).data && cur == old(cur) + 3
    {
      NextToken();
      var _ := Expect([IDENTIFIER]);
      name := Current().data;
      NextToken();
      ExpectNext([LBRA]);
    }

    /** parseStructDecls(): struct declarations, recognised by `struct`
        followed two tokens later by `{`; `struct s x;` is left to the
        variable declarations. */
    method ParseStructDecls() returns (out: seq<StructDecl>)
      requires Valid()
      modifies this
      ensures Monotone() && out == StructDeclsAt(toks, old(cur)).value && cur == StructDeclsAt(toks, old(cur)).end
      ensures !(Current().kind == STRUCT && TokenAt(toks, cur + 2).kind == LBRA)
    {
      ghost var q := cur;
      StructDeclsStart(toks, q);
      out := [];
      var go := AtStructDecl();
      while go
        invariant Monotone() && q <= cur
        invariant go <==> Current().kind == STRUCT && TokenAt(toks, cur + 2).kind == LBRA
        invariant StructDeclsAt(toks, q) == Parsed(out + StructDeclsAt(toks, cur).value, StructDeclsAt(toks, cur).end)
        decreases Rem()
      {
        var sd := ParseStructDeclTurn(q, out);
        out := out + [sd];
        go := AtStructDecl();
      }
      StructDeclsStop(toks, q, cur, out);
    }

    /** The optional first parameter of parseParams. */
    method ParseFirstParam() returns (out: seq<VarDecl>)
      requires Valid()
      modifies this
      ensures Monotone() && out == FirstParamAt(toks, old(cur)).value && cur == FirstParamAt(toks, old(cur)).end
      ensures !StartsType(old(Current()).kind) ==> error == old(error)
    {
      out := [];
      var b := ParseType(0);
      if b {
        var d := ParseDeclarator();
        out := [d];
      }
    }

    /** One `, type name` pair of parseParams' loop; after the comma the
        type is required. */
    method ParseCommaParam(ghost c0: nat, ghost out: seq<VarDecl>) returns (d: VarDecl)
      requires Valid() && Current().kind == COMMA
      requires MoreParamsAt(toks, c0) == Parsed(out + MoreParamsAt(toks, cur).value, MoreParamsAt(toks, cur).end)
      modifies this
      ensures Monotone() && cur > old(cur)
      ensures MoreParamsAt(toks, c0) == Parsed((out + [d]) + MoreParamsAt(toks, cur).value, MoreParamsAt(toks, cur).end)
    {
      MoreParamsStep(toks, c0, cur, out);
      NextToken();
      ghost var c1 := cur;
      var _ := ParseType(1);
      ghost var c2 := cur;
      assert c2 == TypeStartAt(toks, c1).end;
      d := ParseDeclarator();
      assert d == DeclaratorAt(toks, c2).value && cur == DeclaratorAt(toks, c2).end;
    }

    /** parseParams(): an optional first parameter, then `, type name`
        pairs; after a comma the type is required. */
    method ParseParams() returns (out: seq<VarDecl>)
      requires Valid()
      modifies this
      ensures Monotone() && out == ParamsAt(toks, old(cur)).value && cur == ParamsAt(toks, old(cur)).end
      ensures !StartsType(old(Current()).kind) && old(Current()).kind != COMMA ==> error == old(error)
    {
      var first := ParseFirstParam();
      var more := ParseMoreParams();
      out := first + more;
    }

    /** The loop of parseParams: `, type name` pairs while a comma follows. */
    method ParseMoreParams() returns (out: seq<VarDecl>)
      requires Valid()
      modifies this
      ensures Monotone() && out == MoreParamsAt(toks, old(cur)).value && cur == MoreParamsAt(toks, old(cur)).end
      ensures old(Current()).kind != COMMA ==> error == old(error)
    {
      ghost var c0 := cur;
      out := [];
      var more := Accept([COMMA]);
      MoreParamsStart(toks, c0);
      while more
        invariant Monotone()
        invariant more <==> Current().kind == COMMA
        invariant MoreParamsAt(toks, c0) == Parsed(out + MoreParamsAt(toks, cur).value, MoreParamsAt(toks, cur).end)
        invariant cur == c0 ==> error == old(error)
        decreases Rem()
      {
        var d := ParseCommaParam(c0, out);
        out := out + [d];
        more := Accept([COMMA]);
      }
      MoreParamsStop(toks, c0, cur, out);
    }
    //== Expressions

    /** The `sizeof ( type )` form of parseMLB. */
    method ParseSizeOf() returns (out: Expr)
      requires Valid() && Current().kind == SIZEOF
      modifies this
      ensures Monotone() && out == SizeOfAt(toks, old(cur)).value && cur == SizeOfAt(toks, old(cur)).end
    {
      ghost var c0, e0, k0 := cur, error, crashed;
      NextToken();
      ExpectNext([LPAR]);
      var _ := ParseType(1);
      assert Since(c0 + 1, e0, k0);
      var t := GetType();
      ExpectNext([RPAR]);
      out := SizeOf(t);
    }

    /** parseMLB(i): one operand. With `i != 0` an operand is required, and a
        token that cannot start one is counted as an error and skipped. */
    method ParseMLB(i: int) returns (out: Expr)
      requires Valid()
      modifies this
      ensures Monotone() && out == MLBAt(toks, old(cur), i).value && cur == MLBAt(toks, old(cur), i).end
      ensures !StartsOperand(old(Current()).kind) && i == 0 ==> error == old(error)
      ensures !StartsOperand(old(Current()).kind) && i != 0 ==> error == old(error) + 1 && lastErrorToken == Some(old(cur))
      decreases Rem(), 2
    {
      var k := Current().kind;
      if k == SIZEOF {
        out := ParseSizeOf();
      } else if k == ASTERIX {
        NextToken();
        out := GetVAt();
      } else if k == IDENTIFIER {
        out := GetIdentorFunc();
      } else {
        out := ParseOtherOperand(i);
      }
    }

    /** parseMLB's remaining cases: literals, `-`, `(` and a token that
        starts no operand. */
    method ParseOtherOperand(i: int) returns (out: Expr)
      requires Valid() && Current().kind != SIZEOF && Current().kind != ASTERIX && Current().kind != IDENTIFIER
      modifies this
      ensures Monotone() && out == MLBAt(toks, old(cur), i).value && cur == MLBAt(toks, old(cur), i).end
      ensures !StartsOperand(old(Current()).kind) && i == 0 ==> error == old(error)
      ensures !StartsOperand(old(Current()).kind) && i != 0 ==> error == old(error) + 1 && lastErrorToken == Some(old(cur))
      decreases Rem(), 1
    {
      ghost var c0 := cur;
      var k := Current().kind;
      if IsLiteral(k) {
        ghost var lit := LiteralOf(TokenAt(toks, c0));
        assert MLBAt(toks, c0, i) == Parsed(if lit.Some? then lit.value else Missing, c0 + 1);
        out := ParseLiteral();
      } else if k == MINUS {
        ghost var e := ExpAt(toks, c0 + 1, 1);
        assert MLBAt(toks, c0, i) == Parsed(BinOp(IntLit(0), e.value, Sub), e.end);
        NextToken();
        assert cur == c0 + 1;
        out := GetNeg();
      } else if k == LPAR {
        assert MLBAt(toks, c0, i) == BracketAt(toks, c0 + 1);
        NextToken();
        assert cur == c0 + 1;
        out := GetBracket();
      } else {
        assert !StartsOperand(k);
        out := Missing;
        if i != 0 {
          error := error + 1;
          lastErrorToken := Some(cur);
          NextToken();
        }
      }
    }

    /** The literal case of parseMLB; a malformed literal crashes. */
    method ParseLiteral() returns (out: Expr)
      requires Valid()
      modifies this
      ensures Monotone() && cur == old(cur) + 1 && error == old(error)
      ensures var lit := LiteralOf(old(Current()));
              out == (if lit.Some? then lit.value else Missing) && crashed == (old(crashed) || lit.None?)
    {
      var lit := LiteralOf(Current());
      if lit.None? {
        crashed := true;
      }
      out := if lit.Some? then lit.value else Missing;
      NextToken();
    }

    /** One precedence level (parseExp's loop for level 1, then parseLOB,
        parseLAB, parseEQB, parseCPB and parseADB for 2 to 6): operands of
        the next level joined by this level's operators. */
    method ParseLevel(level: nat, i: int) returns (out: Expr)
      requires Valid() && 1 <= level <= 6
      modifies this
      ensures Monotone() && out == LevelAt(toks, old(cur), level, i).value && cur == LevelAt(toks, old(cur), level, i).end
      ensures i == 0 && Inert(old(Current()).kind) ==> error == old(error)
      decreases Rem(), 20 - 2 * level
    {
      var operand;
      if level < 6 {
        operand := ParseLevel(level + 1, i);
      } else {
        operand := ParseMLB(i);
      }
      out := ParseLevelLoop(level, operand);
    }

    /** The loop of one precedence level, after its first operand `left`:
        while the current token is an operator of this level, it is
        consumed and the next operand becomes the right child of a new node
        whose left child is everything read so far. */
    method ParseLevelLoop(level: nat, left: Expr) returns (out: Expr)
      requires Valid() && 1 <= level <= 6 && NoOperatorFrom(Current().kind, level + 1)
      modifies this
      ensures Monotone()
      ensures out == LevelLoopAt(toks, old(cur), level, left).value && cur == LevelLoopAt(toks, old(cur), level, left).end
      ensures TokenLevel(old(Current()).kind) != level ==> error == old(error)
      decreases Rem(), 19 - 2 * level
    {
      ghost var c0, e0, k0 := cur, error, crashed;
      out := left;
      var more := Accept(LevelTokens(level));
      LevelTokensExact(level, Current().kind);
      while more
        invariant Valid() && Since(c0, e0, k0)
        invariant NoOperatorFrom(Current().kind, level + 1)
        invariant LevelLoopAt(toks, c0, level, left) == LevelLoopAt(toks, cur, level, out)
        invariant more <==> TokenLevel(Current().kind) == level
        invariant TokenLevel(Kind(toks, c0)) != level ==> cur == c0 && error == e0
        decreases Rem()
      {
        var op, rhs := ParseLevelStep(level);
        out := BinOp(out, rhs, op);
        more := Accept(LevelTokens(level));
        LevelTokensExact(level, Current().kind);
      }
    }

    /** One turn of a level's loop: the operator, then its right operand. */
    method ParseLevelStep(level: nat) returns (op: Op, rhs: Expr)
      requires Valid() && 1 <= level <= 6 && TokenLevel(Current().kind) == level
      modifies this
      ensures Monotone()
      ensures op == OpOf(old(Current()).kind) && Level(op) == level
      ensures rhs == OperandAt(toks, old(cur) + 1, level).value && cur == OperandAt(toks, old(cur) + 1, level).end
      decreases Rem(), 18 - 2 * level
    {
      op := OpOf(Current().kind);
      LevelTokensExact(level, Current().kind);
      LevelTokensBuildTheirLevel(level, Current().kind);
      NextToken();
      rhs := ParseOperand(level);
    }

    /** The right operand of a level-`level` operator: the next level up,
        or parseMLB(1) after the multiplicative operators. */
    method ParseOperand(level: nat) returns (rhs: Expr)
      requires Valid() && 1 <= level <= 6
      modifies this
      ensures Monotone() && rhs == OperandAt(toks, old(cur), level).value && cur == OperandAt(toks, old(cur), level).end
      decreases Rem(), 19 - 2 * level
    {
      if level < 6 {
        rhs := ParseLevel(level + 1, 1);
      } else {
        rhs := ParseMLB(1);
      }
    }

    /** parseExp(i): the six precedence levels, then any `.f` / `[e]`
        suffixes on the whole expression. */
    method ParseExp(i: int) returns (out: Expr)
      requires Valid()
      modifies this
      ensures Monotone() && out == ExpAt(toks, old(cur), i).value && cur == ExpAt(toks, old(cur), i).end
      ensures i == 0 && Inert(old(Current()).kind) ==> error == old(error)
      decreases Rem(), 20
    {
      var e := ParseLevel(1, i);
      out := ParseStructArray(e);
    }

    /** getNeg(), after parseNeg() consumed `-`: unary minus is `0 - e` with
        `e` a whole expression, so `-a + b` is `0 - (a + b)`. */
    method GetNeg() returns (out: Expr)
      requires Valid()
      modifies this
      ensures Monotone() && out == BinOp(IntLit(0), ExpAt(toks, old(cur), 1).value, Sub)
      ensures cur == ExpAt(toks, old(cur), 1).end
      decreases Rem(), 21
    {
      var e := ParseExp(1);
      out := BinOp(IntLit(0), e, Sub);
    }

    /** getBracket(), after parseBracket() consumed `(`: a cast `(type) e`
        or a parenthesised expression. */
    method GetBracket() returns (out: Expr)
      requires Valid()
      modifies this
      ensures Monotone() && out == BracketAt(toks, old(cur)).value && cur == BracketAt(toks, old(cur)).end
      decreases Rem(), 22
    {
      var isType := ParseType(0);
      if isType {
        out := GetCast();
      } else {
        out := ParseExp(1);
        ExpectNext([RPAR]);
      }
    }

    /** The cast case of getBracket: the type, `)` and the operand. */
    method GetCast() returns (out: Expr)
      requires Valid()
      modifies this
      ensures Monotone() && out == CastAt(toks, old(cur)).value && cur == CastAt(toks, old(cur)).end
      decreases Rem(), 21
    {
      ghost var c0 := cur;
      var t := GetType();
      ExpectNext([RPAR]);
      ghost var ed := ExpAt(toks, cur, 1);
      assert CastAt(toks, c0) == Parsed(Typecast(t, ed.value), ed.end);
      var e := ParseExp(1);
      out := Typecast(t, e);
    }

    /** getVAt(), after parseVAt() consumed `*`: a dereference of a
        bracketed expression or a name, then suffixes; null otherwise. */
    method GetVAt() returns (out: Expr)
      requires Valid()
      modifies this
      ensures Monotone() && out == VAtAt(toks, old(cur)).value && cur == VAtAt(toks, old(cur)).end
      decreases Rem(), 2
    {
      var k := Current().kind;
      var e := Missing;
      if k == LPAR {
        NextToken();
        var b := GetBracket();
        e := ValueAt(b);
      } else if k == IDENTIFIER {
        var b := GetIdentorFunc();
        e := ValueAt(b);
      }
      out := ParseStructArray(e);
    }

    /** getIdentorFunc(): a variable or a call `name(e, ..., e)`, then
        suffixes. */
    method GetIdentorFunc() returns (out: Expr)
      requires Valid() && Current().kind == IDENTIFIER
      modifies this
      ensures Monotone() && out == IdentOrFuncAt(toks, old(cur)).value && cur == IdentOrFuncAt(toks, old(cur)).end
      decreases Rem(), 1
    {
      var e := ParseNameOrCall();
      out := ParseStructArray(e);
    }

    /** The name or call that getIdentorFunc's suffixes apply to. */
    method ParseNameOrCall() returns (e: Expr)
      requires Valid() && Current().kind == IDENTIFIER
      modifies this
      ensures Monotone() && IdentOrFuncAt(toks, old(cur)) == StructArrayAt(toks, cur, e)
      ensures cur > old(cur)
      decreases Rem(), 0
    {
      PastTheEndIsEof(toks, cur);
      ghost var c0 := cur;
      var name := Current().data;
      NextToken();
      var call := Accept([LPAR]);
      if call {
        var args := ParseCall();
        e := FunCall(name, args, None);
      } else {
        e := Var(name, None);
      }
      IdentOrFuncParts(toks, c0, cur, e);
    }

    /** The `( args )` of a call, from its `(`. */
    method ParseCall() returns (args: seq<Expr>)
      requires Valid() && Current().kind == LPAR
      modifies this
      ensures Monotone() && args == ArgsAt(toks, old(cur) + 1).value && cur == ArgsAt(toks, old(cur) + 1).end + 1
      decreases Rem(), 22
    {
      PastTheEndIsEof(toks, cur);
      NextToken();
      args := ParseArgs();
      ExpectNext([RPAR]);
    }

    /** The arguments of a call, after its `(`: none when `)` follows,
        otherwise expressions separated by commas. */
    method ParseArgs() returns (args: seq<Expr>)
      requires Valid()
      modifies this
      ensures Monotone() && args == ArgsAt(toks, old(cur)).value && cur == ArgsAt(toks, old(cur)).end
      decreases Rem(), 21
    {
      ArgsUnfold(toks, cur);
      args := [];
      var empty := Accept([RPAR]);
      if !empty {
        var a := ParseExp(1);
        var rest := ParseMoreArgs();
        args := [a] + rest;
      }
    }

    /** The loop of parseArgs: `, e` while a comma follows. */
    method ParseMoreArgs() returns (out: seq<Expr>)
      requires Valid()
      modifies this
      ensures Monotone() && out == MoreArgsAt(toks, old(cur)).value && cur == MoreArgsAt(toks, old(cur)).end
      decreases Rem(), 1
    {
      ghost var c0 := cur;
      out := [];
      var more := Accept([COMMA]);
      MoreArgsStart(toks, c0);
      while more
        invariant Monotone()
        invariant more <==> Current().kind == COMMA
        invariant MoreArgsAt(toks, c0) == Parsed(out + MoreArgsAt(toks, cur).value, MoreArgsAt(toks, cur).end)
        decreases Rem()
      {
        var a := ParseCommaArg(c0, out);
        out := out + [a];
        more := Accept([COMMA]);
      }
      MoreArgsStop(toks, c0, cur, out);
    }

    /** One `, e` of parseArgs' loop, carrying its invariant from `out` to
        `out + [a]`. */
    method ParseCommaArg(ghost c0: nat, ghost out: seq<Expr>) returns (a: Expr)
      requires Valid() && Current().kind == COMMA
      requires MoreArgsAt(toks, c0) == Parsed(out + MoreArgsAt(toks, cur).value, MoreArgsAt(toks, cur).end)
      modifies this
      ensures Monotone() && cur > old(cur)
      ensures MoreArgsAt(toks, c0) == Parsed((out + [a]) + MoreArgsAt(toks, cur).value, MoreArgsAt(toks, cur).end)
      decreases Rem(), 0
    {
      MoreArgsStep(toks, c0, cur, out);
      NextToken();
      a := ParseExp(1);
    }

    /** parseStructArray(in): `.field` and `[index]` suffixes, each wrapping
        what was read so far, until neither follows. */
    method ParseStructArray(e: Expr) returns (out: Expr)
      requires Valid()
      modifies this
      ensures Monotone() && out == StructArrayAt(toks, old(cur), e).value && cur == StructArrayAt(toks, old(cur), e).end
      ensures !OpensSuffix(old(Current()).kind) ==> error == old(error)
      decreases Rem(), 0, 1
    {
      var k := Current().kind;
      if k == DOT {
        out := ParseField(e);
      } else if k == LSBR {
        out := ParseIndex(e);
      } else {
        out := e;
      }
    }
    /** The `.field` case of parseStructArray. */
    method ParseField(e: Expr) returns (out: Expr)
      requires Valid() && Current().kind == DOT
      modifies this
      ensures Monotone() && out == StructArrayAt(toks, old(cur), e).value && cur == StructArrayAt(toks, old(cur), e).end
      decreases Rem(), 0, 0
    {
      PastTheEndIsEof(toks, cur);
      ghost var c0 := cur;
      NextToken();
      var _ := Expect([IDENTIFIER]);
      var field := Current().data;
      NextToken();
      var fe := FieldAccess(e, field);
      StructArrayParts(toks, c0, e, cur, fe);
      out := ParseStructArray(fe);
    }

    /** The `[index]` case of parseStructArray. */
    method ParseIndex(e: Expr) returns (out: Expr)
      requires Valid() && Current().kind == LSBR
      modifies this
      ensures Monotone() && out == StructArrayAt(toks, old(cur), e).value && cur == StructArrayAt(toks, old(cur), e).end
      decreases Rem(), 0, 0
    {
      PastTheEndIsEof(toks, cur);
      ghost var c0 := cur;
      NextToken();
      var index := ParseExp(1);
      ExpectNext([RSBR]);
      var ae := ArrayAccess(e, index);
      StructArrayParts(toks, c0, e, cur, ae);
      out := ParseStructArray(ae);
    }
    //== Statements, functions and the program

    /** parseBlock(): `{`, local declarations, statements up to `}` or the
        end of input, and the closing token. */
    method ParseBlock() returns (b: Block)
      requires Valid()
      modifies this
      ensures Monotone() && b == BlockAt(toks, old(cur)).value && cur == BlockAt(toks, old(cur)).end
      decreases Rem(), 1
    {
      ghost var c0 := cur;
      ExpectNext([LBRA]);
      var vars := ParseVarDecls(0);
      ghost var sd := StmtsAt(toks, cur);
      assert BlockAt(toks, c0) == Parsed(Block(vars, sd.value), sd.end + 1);
      var stmts := ParseStmts();
      NextToken();
      b := Block(vars, stmts);
    }

    /** parseBlock's loop: statements up to `}` or the end of input. */
    method ParseStmts() returns (stmts: seq<Stmt>)
      requires Valid()
      modifies this
      ensures Monotone() && stmts == StmtsAt(toks, old(cur)).value && cur == StmtsAt(toks, old(cur)).end
      decreases Rem(), if Current().kind == RBRA || Current().kind == EOF then 0 else 4
    {
      ghost var q := cur;
      StmtsStart(toks, q);
      stmts := [];
      var stop := Accept([RBRA, EOF]);
      while !stop
        invariant Monotone() && q <= cur
        invariant stop <==> Current().kind == RBRA || Current().kind == EOF
        invariant StmtsAt(toks, q) == Parsed(stmts + StmtsAt(toks, cur).value, StmtsAt(toks, cur).end)
        decreases Rem()
      {
        StmtsStep(toks, q, cur, stmts);
        var s := ParseStmt();
        stmts := stmts + [s];
        stop := Accept([RBRA, EOF]);
      }
      StmtsStop(toks, q, cur, stmts);
    }

    /** parseStmt(): the statement form is chosen by the first token. */
    method ParseStmt() returns (s: Stmt)
      requires Valid()
      modifies this
      ensures Monotone() && s == StmtAt(toks, old(cur)).value && cur == StmtAt(toks, old(cur)).end
      decreases Rem(), 3
    {
      var k := Current().kind;
      if k == LBRA {
        var b := ParseBlock();
        s := BlockStmt(b);
      } else if k == WHILE || k == IF {
        s := ParseCondStmt();
      } else if k == RETURN {
        s := ParseReturn();
      } else {
        s := ParseExprStmt();
      }
    }

    /** The `while (e) s` and `if (e) s [else s]` forms of parseStmt. */
    method ParseCondStmt() returns (s: Stmt)
      requires Valid() && (Current().kind == WHILE || Current().kind == IF)
      modifies this
      ensures Monotone() && s == CondStmtAt(toks, old(cur)).value && cur == CondStmtAt(toks, old(cur)).end
      decreases Rem(), 2
    {
      ghost var c0 := cur;
      PastTheEndIsEof(toks, cur);
      var k := Current().kind;
      NextToken();
      var cond := ParseCondition();
      assert CondStmtAt(toks, c0) == CondTailAt(toks, k, cond, cur);
      s := ParseCondTail(k, cond);
    }

    /** The body and, for an `if`, the optional `else` part. */
    method ParseCondTail(k: TokenClass, cond: Expr) returns (s: Stmt)
      requires Valid()
      modifies this
      ensures Monotone() && s == CondTailAt(toks, k, cond, old(cur)).value && cur == CondTailAt(toks, k, cond, old(cur)).end
      decreases Rem(), 5
    {
      ghost var c1 := cur;
      var body := ParseStmt();
      if k == WHILE {
        s := While(cond, body);
      } else {
        assert CondTailAt(toks, k, cond, c1) == var e := ElseAt(toks, cur); Parsed(If(cond, body, e.value), e.end);
        var elseS := ParseElse();
        s := If(cond, body, elseS);
      }
    }

    /** The optional `else s` of an `if`. */
    method ParseElse() returns (elseS: Option<Stmt>)
      requires Valid()
      modifies this
      ensures Monotone() && elseS == ElseAt(toks, old(cur)).value && cur == ElseAt(toks, old(cur)).end
      decreases Rem(), 4
    {
      elseS := None;
      var hasElse := Accept([ELSE]);
      if hasElse {
        var e := ParseElseBranch();
        elseS := Some(e);
      }
    }

    /** `else s`: the statement after `else`. */
    method ParseElseBranch() returns (e: Stmt)
      requires Valid() && Current().kind == ELSE
      modifies this
      ensures Monotone() && ElseAt(toks, old(cur)) == Parsed(Some(e), cur)
      decreases Rem(), 3
    {
      PastTheEndIsEof(toks, cur);
      NextToken();
      e := ParseStmt();
    }

    /** The parenthesised condition of a `while` or an `if`. */
    method ParseCondition() returns (cond: Expr)
      requires Valid()
      modifies this
      ensures Monotone() && cond == ConditionAt(toks, old(cur)).value && cur == ConditionAt(toks, old(cur)).end
    {
      ExpectNext([LPAR]);
      cond := ParseExp(1);
      ExpectNext([RPAR]);
    }

    /** The `return [e];` form of parseStmt: no expression gives `return;`. */
    method ParseReturn() returns (s: Stmt)
      requires Valid() && Current().kind == RETURN
      modifies this
      ensures Monotone() && s == ReturnAt(toks, old(cur)).value && cur == ReturnAt(toks, old(cur)).end
    {
      NextToken();
      var e := ParseExp(0);
      s := if e == Missing then Return(None) else Return(Some(e));
      ExpectNext([SC]);
    }

    /** The expression form of parseStmt: it is an assignment only when `=`
        and a right-hand side follow. */
    method ParseExprStmt() returns (s: Stmt)
      requires Valid()
      modifies this
      ensures Monotone() && s == ExprStmtAt(toks, old(cur)).value && cur == ExprStmtAt(toks, old(cur)).end
    {
      ghost var c0 := cur;
      ghost var ld := ExpAt(toks, cur, 1);
      var e1 := ParseExp(1);
      assert e1 == ld.value && cur == ld.end;
      var assign := Accept([ASSIGN]);
      if assign {
        assert Kind(toks, ld.end) == ASSIGN;
        NextToken();
        ghost var rd := ExpAt(toks, ld.end + 1, 1);
        var e2 := ParseExp(1);
        assert e2 == rd.value && cur == rd.end;
        s := if e2 == Missing then ExprStmt(e1) else Assign(e1, e2);
        assert ExprStmtAt(toks, c0) == Parsed(s, cur + 1);
      } else {
        s := ExprStmt(e1);
        assert ExprStmtAt(toks, c0) == Parsed(s, cur + 1);
      }
      ExpectNext([SC]);
    }

    /** One function declaration: type, name, parameters and body. */
    method ParseFunDecl() returns (f: FunDecl)
      requires Valid()
      modifies this
      ensures Monotone() && f == FunDeclAt(toks, old(cur)).value && cur == FunDeclAt(toks, old(cur)).end
      ensures cur > old(cur)
    {
      ghost var c0 := cur;
      var t, name := ParseFunHeader();
      assert FunDeclAt(toks, c0) == FunRestAt(toks, t, name, cur);
      f := ParseFunRest(t, name);
    }

    /** The rest of a function declaration: parameters, `)` and body. */
    method ParseFunRest(t: Type, name: string) returns (f: FunDecl)
      requires Valid()
      modifies this
      ensures Monotone() && f == FunRestAt(toks, t, name, old(cur)).value && cur == FunRestAt(toks, t, name, old(cur)).end
    {
      ghost var c0 := cur;
      var params := ParseParams();
      assert FunRestAt(toks, t, name, c0) == FunBodyAt(toks, t, name, params, cur);
      f := ParseFunBody(t, name, params);
    }

    /** `)` and the block that close a function declaration. */
    method ParseFunBody(t: Type, name: string, params: seq<VarDecl>) returns (f: FunDecl)
      requires Valid()
      modifies this
      ensures Monotone() && f == FunBodyAt(toks, t, name, params, old(cur)).value && cur == FunBodyAt(toks, t, name, params, old(cur)).end
    {
      ExpectNext([RPAR]);
      var body := ParseBlock();
      f := FunDecl(t, name, params, body);
    }

    /** The head of a function declaration: its type, its name and `(`. */
    method ParseFunHeader() returns (t: Type, name: string)
      requires Valid()
      modifies this
      ensures Monotone() && t == TypeAt(toks, old(cur)).value
      ensures name == TokenAt(toks, TypeAt(toks, old(cur)).end).data && cur == TypeAt(toks, old(cur)).end + 2
    {
      t := GetType();
      var _ := Expect([IDENTIFIER]);
      name := Current().data;
      NextToken();
      ExpectNext([LPAR]);
    }

    /** parseFunDecls(): function declarations as long as a type starts. */
    method ParseFunDecls() returns (out: seq<FunDecl>)
      requires Valid()
      modifies this
      ensures Monotone() && out == FunDeclsAt(toks, old(cur)).value && cur == FunDeclsAt(toks, old(cur)).end
      ensures !StartsType(old(Current()).kind) ==> error == old(error)
    {
      ghost var idle := !StartsType(old(Current()).kind);
      out := [];
      ghost var q: nat := cur;
      var more := ParseType(0);
      while more
        invariant Monotone() && q <= cur && (more ==> cur < |toks|)
        invariant more == TypeStartAt(toks, q).value && cur == TypeStartAt(toks, q).end
        invariant FunDeclsAt(toks, old(cur)).value == out + FunDeclsAt(toks, q).value
        invariant FunDeclsAt(toks, old(cur)).end == FunDeclsAt(toks, q).end
        invariant idle ==> !more && cur == old(cur) && error == old(error)
        decreases Rem()
      {
        ghost var c := q;
        var f := ParseFunDecl();
        FunDeclsUnfold(toks, c);
        AppendOne(out, f, FunDeclsAt(toks, cur).value);
        out := out + [f];
        q := cur;
        more := ParseType(0);
      }
      FunDeclsUnfold(toks, q);
    }

    /** parseProgram(): includes, struct declarations, global variables up to
        the first function header, functions, then end of input. */
    method ParseProgram() returns (p: Program)
      requires Valid()
      modifies this
      ensures Monotone() && p == ProgramAt(toks, old(cur)).value && cur == ProgramAt(toks, old(cur)).end
      ensures TokenAt(toks, cur - 1).kind == EOF || lastErrorToken == Some(cur - 1)
    {
      ghost var c0, e0, k0 := cur, error, crashed;
      var structs, globals, funs := ParseDecls();
      assert Since(c0, e0, k0);
      ghost var last := cur;
      ExpectNext([EOF]);
      assert Since(c0 + 1, e0, k0) && last == cur - 1;
      p := Program(structs, globals, funs);
    }

    /** The declarations of parseProgram, in their order. */
    method ParseDecls() returns (structs: seq<StructDecl>, globals: seq<VarDecl>, funs: seq<FunDecl>)
      requires Valid()
      modifies this
      ensures Monotone()
      ensures Program(structs, globals, funs) == ProgramAt(toks, old(cur)).value && cur + 1 == ProgramAt(toks, old(cur)).end
    {
      ghost var c0, e0, k0 := cur, error, crashed;
      ParseIncludes();
      assert Since(c0, e0, k0);
      structs := ParseStructDecls();
      assert Since(c0, e0, k0);
      globals := ParseVarDecls(0);
      assert Since(c0, e0, k0);
      funs := ParseFunDecls();
    }

    /** parse(): the program, or None when a literal's text made the parse
        throw; syntax errors are only counted in `error`. */
    method Parse() returns (r: Option<Program>)
      requires Valid()
      modifies this
      ensures Monotone() && cur == ProgramAt(toks, old(cur)).end
      ensures r == if crashed then None else Some(ProgramAt(toks, old(cur)).value)
      ensures TokenAt(toks, cur - 1).kind == EOF || lastErrorToken == Some(cur - 1)
    {
      var p := ParseProgram();
      r := if crashed then None else Some(p);
    }
  }
}

=== FILE: parser_examples.dfy ===
/** What the expression grammar builds for a few concrete token streams:
    precedence, left associativity, the unary minus and postfix chains. */
module ParserExamples {
  import opened Ast
  import opened Tokens
  import opened Parser

  /** When the token after a level's result is no operator at all, every
      looser level returns that result unchanged. */
  lemma {:induction false} LevelsPass(toks: seq<Token>, p: nat, from: nat, level: nat, i: int)
    requires 1 <= level <= from <= 6
    requires NoOperatorFrom(Kind(toks, LevelAt(toks, p, from, i).end), 1)
    ensures LevelAt(toks, p, level, i) == LevelAt(toks, p, from, i)
    decreases from - level
  {
    if level < from {
      LevelsPass(toks, p, from, level + 1, i);
      var first := LevelAt(toks, p, level + 1, i);
      assert first == LevelAt(toks, p, from, i);
      assert TokenLevel(Kind(toks, first.end)) != level;
      assert LevelAt(toks, p, level, i) == LevelLoopAt(toks, first.end, level, first.value);
    }
  }

  /** The variable a name token at `p` reads as. */
  function NameAt(toks: seq<Token>, p: nat): Expr
  {
    Var(TokenAt(toks, p).data, None)
  }

  /** A level whose result is followed by `;` or `]` is the whole
      expression. */
  lemma ExpressionEnds(toks: seq<Token>, p: nat, level: nat, r: Parsed<Expr>)
    requires 1 <= level <= 6 && LevelAt(toks, p, level, 1) == r && (Kind(toks, r.end) == SC || Kind(toks, r.end) == RSBR)
    ensures ExpAt(toks, p, 1) == r
  {
    LevelsPass(toks, p, level, 1, 1);
  }

  /** A name followed by an additive operator or a closing token is a
      variable, at the tightest level already. */
  lemma NameOperand(toks: seq<Token>, p: nat)
    requires Kind(toks, p) == IDENTIFIER && Kind(toks, p + 1) in {PLUS, MINUS, SC, RSBR}
    ensures LevelAt(toks, p, 6, 1) == OperandAt(toks, p, 5) == Parsed(NameAt(toks, p), p + 1)
  {
    assert MLBAt(toks, p, 1) == Parsed(NameAt(toks, p), p + 1);
  }

  /** One turn of the additive loop: the operator at `p` joins `left` and
      the operand after it. */
  lemma SumTurn(toks: seq<Token>, p: nat, left: Expr, rhs: Parsed<Expr>)
    requires (Kind(toks, p) == PLUS || Kind(toks, p) == MINUS) && OperandAt(toks, p + 1, 5) == rhs
    ensures LevelLoopAt(toks, p, 5, left)
            == LevelLoopAt(toks, rhs.end, 5, BinOp(left, rhs.value, OpOf(Kind(toks, p))))
  {
  }

  /** An operand followed by an additive loop that stops at a semicolon is
      the whole expression. */
  lemma SumChainEnds(toks: seq<Token>, p: nat, lhs: Parsed<Expr>, loop: Parsed<Expr>)
    requires LevelAt(toks, p, 6, 1) == lhs && LevelLoopAt(toks, lhs.end, 5, lhs.value) == loop
    requires Kind(toks, loop.end) == SC
    ensures ExpAt(toks, p, 1) == loop
  {
    assert LevelAt(toks, p, 5, 1) == loop;
    ExpressionEnds(toks, p, 5, loop);
  }

  /** An operand, an additive operator and a second operand followed by a
      semicolon make the whole expression. */
  lemma SumOfTwo(toks: seq<Token>, p: nat, lhs: Parsed<Expr>, rhs: Parsed<Expr>)
    requires LevelAt(toks, p, 6, 1) == lhs && (Kind(toks, lhs.end) == PLUS || Kind(toks, lhs.end) == MINUS)
    requires OperandAt(toks, lhs.end + 1, 5) == rhs && Kind(toks, rhs.end) == SC
    ensures ExpAt(toks, p, 1) == Parsed(BinOp(lhs.value, rhs.value, OpOf(Kind(toks, lhs.end))), rhs.end)
  {
    var r := Parsed(BinOp(lhs.value, rhs.value, OpOf(Kind(toks, lhs.end))), rhs.end);
    SumTurn(toks, lhs.end, lhs.value, rhs);
    SumChainEnds(toks, p, lhs, r);
  }

  /** `a + b * c ;`, for any three names: the product binds tighter, so it
      is the right operand of the sum. */
  lemma PrecedenceExample(toks: seq<Token>)
    requires Kind(toks, 0) == IDENTIFIER && Kind(toks, 1) == PLUS && Kind(toks, 2) == IDENTIFIER
    requires Kind(toks, 3) == ASTERIX && Kind(toks, 4) == IDENTIFIER && Kind(toks, 5) == SC
    ensures var a, b, c := NameAt(toks, 0), NameAt(toks, 2), NameAt(toks, 4);
            ExpAt(toks, 0, 1) == Parsed(BinOp(a, BinOp(b, c, Mul), Add), 5)
  {
    var a, b, c := NameAt(toks, 0), NameAt(toks, 2), NameAt(toks, 4);
    var lhs, rhs := Parsed(a, 1), Parsed(BinOp(b, c, Mul), 5);
    NameOperand(toks, 0);
    ProductOperand(toks, 2);
    SumOfTwo(toks, 0, lhs, rhs);
  }

  /** `a * b` at `p`, followed by a semicolon, as the right operand of an
      additive operator. */
  lemma ProductOperand(toks: seq<Token>, p: nat)
    requires Kind(toks, p) == IDENTIFIER && Kind(toks, p + 1) == ASTERIX
    requires Kind(toks, p + 2) == IDENTIFIER && Kind(toks, p + 3) == SC
    ensures OperandAt(toks, p, 5) == Parsed(BinOp(NameAt(toks, p), NameAt(toks, p + 2), Mul), p + 3)
  {
    var a, b := NameAt(toks, p), NameAt(toks, p + 2);
    assert MLBAt(toks, p, 1) == Parsed(a, p + 1);
    assert OperandAt(toks, p + 2, 6) == Parsed(b, p + 3) by {
      assert MLBAt(toks, p + 2, 1) == Parsed(b, p + 3);
    }
    assert LevelLoopAt(toks, p + 1, 6, a) == LevelLoopAt(toks, p + 3, 6, BinOp(a, b, Mul));
  }

  /** The last turn of the additive loop: an operator and a name, then a
      semicolon. */
  lemma SumTail(toks: seq<Token>, p: nat, left: Expr)
    requires (Kind(toks, p) == PLUS || Kind(toks, p) == MINUS) && Kind(toks, p + 1) == IDENTIFIER && Kind(toks, p + 2) == SC
    ensures LevelLoopAt(toks, p, 5, left) == Parsed(BinOp(left, NameAt(toks, p + 1), OpOf(Kind(toks, p))), p + 2)
  {
    NameOperand(toks, p + 1);
    SumTurn(toks, p, left, Parsed(NameAt(toks, p + 1), p + 2));
  }

  /** `a - b - c ;`, for any three names: operators of one level associate
      to the left. */
  lemma LeftAssociativityExample(toks: seq<Token>)
    requires Kind(toks, 0) == IDENTIFIER && Kind(toks, 1) == MINUS && Kind(toks, 2) == IDENTIFIER
    requires Kind(toks, 3) == MINUS && Kind(toks, 4) == IDENTIFIER && Kind(toks, 5) == SC
    ensures var a, b, c := NameAt(toks, 0), NameAt(toks, 2), NameAt(toks, 4);
            ExpAt(toks, 0, 1) == Parsed(BinOp(BinOp(a, b, Sub), c, Sub), 5)
  {
    var a, b, c := NameAt(toks, 0), NameAt(toks, 2), NameAt(toks, 4);
    NameOperand(toks, 0);
    NameOperand(toks, 2);
    SumTurn(toks, 1, a, Parsed(b, 3));
    SumTail(toks, 3, BinOp(a, b, Sub));
    SumChainEnds(toks, 0, Parsed(a, 1), Parsed(BinOp(BinOp(a, b, Sub), c, Sub), 5));
  }

  /** `a + b` at `p`, followed by a semicolon. */
  lemma SumAt(toks: seq<Token>, p: nat)
    requires Kind(toks, p) == IDENTIFIER && Kind(toks, p + 1) == PLUS && Kind(toks, p + 2) == IDENTIFIER
    requires Kind(toks, p + 3) == SC
    ensures ExpAt(toks, p, 1) == Parsed(BinOp(NameAt(toks, p), NameAt(toks, p + 2), Add), p + 3)
  {
    NameOperand(toks, p);
    NameOperand(toks, p + 2);
    SumOfTwo(toks, p, Parsed(NameAt(toks, p), p + 1), Parsed(NameAt(toks, p + 2), p + 3));
  }

  /** `- a + b ;`, for any two names: the minus sign takes a whole
      expression, so this is `0 - (a + b)` and not `(0 - a) + b`. */
  lemma UnaryMinusExample(toks: seq<Token>)
    requires Kind(toks, 0) == MINUS && Kind(toks, 1) == IDENTIFIER && Kind(toks, 2) == PLUS
    requires Kind(toks, 3) == IDENTIFIER && Kind(toks, 4) == SC
    ensures var a, b := NameAt(toks, 1), NameAt(toks, 3);
            ExpAt(toks, 0, 1) == Parsed(BinOp(IntLit(0), BinOp(a, b, Add), Sub), 4)
  {
    var a, b := NameAt(toks, 1), NameAt(toks, 3);
    SumAt(toks, 1);
    var r := Parsed(BinOp(IntLit(0), BinOp(a, b, Add), Sub), 4);
    assert MLBAt(toks, 0, 1) == r;
    assert LevelAt(toks, 0, 6, 1) == r;
    ExpressionEnds(toks, 0, 6, r);
  }

  /** The suffixes `. f [ i ] . g` at `p`, followed by a semicolon. */
  lemma FieldIndexField(toks: seq<Token>, p: nat, e: Expr)
    requires Kind(toks, p) == DOT && Kind(toks, p + 2) == LSBR && Kind(toks, p + 3) == IDENTIFIER
    requires Kind(toks, p + 4) == RSBR && Kind(toks, p + 5) == DOT && Kind(toks, p + 7) == SC
    ensures var f, i, g := TokenAt(toks, p + 1).data, NameAt(toks, p + 3), TokenAt(toks, p + 6).data;
            StructArrayAt(toks, p, e) == Parsed(FieldAccess(ArrayAccess(FieldAccess(e, f), i), g), p + 7)
  {
    var f, i, g := TokenAt(toks, p + 1).data, NameAt(toks, p + 3), TokenAt(toks, p + 6).data;
    NameOperand(toks, p + 3);
    ExpressionEnds(toks, p + 3, 6, Parsed(i, p + 4));
    StructArrayParts(toks, p, e, p + 2, FieldAccess(e, f));
    StructArrayParts(toks, p + 2, FieldAccess(e, f), p + 5, ArrayAccess(FieldAccess(e, f), i));
    StructArrayParts(toks, p + 5, ArrayAccess(FieldAccess(e, f), i), p + 7, FieldAccess(ArrayAccess(FieldAccess(e, f), i), g));
  }

  /** `a . f [ i ] . g ;`, for any names: suffixes apply in the order they
      are read. */
  lemma PostfixChainExample(toks: seq<Token>)
    requires Kind(toks, 0) == IDENTIFIER && Kind(toks, 1) == DOT && Kind(toks, 3) == LSBR
    requires Kind(toks, 4) == IDENTIFIER && Kind(toks, 5) == RSBR && Kind(toks, 6) == DOT
    requires Kind(toks, 8) == SC
    ensures var a, i := NameAt(toks, 0), NameAt(toks, 4);
            var f, g := TokenAt(toks, 2).data, TokenAt(toks, 7).data;
            ExpAt(toks, 0, 1) == Parsed(Postfix(a, [Field(f), Index(i), Field(g)]), 8)
  {
    var a, i := NameAt(toks, 0), NameAt(toks, 4);
    var f, g := TokenAt(toks, 2).data, TokenAt(toks, 7).data;
    var e := FieldAccess(ArrayAccess(FieldAccess(a, f), i), g);
    FieldIndexField(toks, 1, a);
    assert MLBAt(toks, 0, 1) == Parsed(e, 8);
    assert LevelAt(toks, 0, 6, 1) == Parsed(e, 8);
    ExpressionEnds(toks, 0, 6, Parsed(e, 8));
    PostfixExample(a, f, i, g);
  }
}

=== FILE: tokens.dfy ===
/** The token stream the parser consumes. The lexer itself is not part of
    this model: its output is a sequence of tokens, and once that sequence
    is exhausted it keeps answering with end-of-file tokens. */
module Tokens {
  import opened Ast

  /** The token classes the parser tests for (lexer.Token.TokenClass). */
  datatype TokenClass =
    | IDENTIFIER | INT | VOID | CHAR | IF | ELSE | WHILE | RETURN | STRUCT | SIZEOF | INCLUDE
    | CHAR_LITERAL | STRING_LITERAL | INT_LITERAL
    | LBRA | RBRA | LPAR | RPAR | LSBR | RSBR | SC | COMMA | DOT | ASSIGN
    | EQ | NE | LT | GT | LE | GE | PLUS | MINUS | ASTERIX | DIV | REM | AND | OR
    | EOF | INVALID

  /** A token: its class and its raw text. */
  datatype Token = Token(kind: TokenClass, data: string)

  /** The token the lexer hands out as its `i`-th answer (counting from 0). */
  function TokenAt(toks: seq<Token>, i: nat): Token
  {
    if i < |toks| then toks[i] else Token(EOF, "")
  }

  /** Every position past the input answers end-of-file, so a token of any
      other class can only sit inside the input. */
  lemma PastTheEndIsEof(toks: seq<Token>, i: nat)
    requires TokenAt(toks, i).kind != EOF
    ensures i < |toks|
  {
  }

  predicate IsDigit(c: char)
  {
    '0' <= c <= '9'
  }

  function DigitsValue(s: string): (v: nat)
    requires forall k :: 0 <= k < |s| ==> IsDigit(s[k])
  {
    if s == [] then 0
    else
      var last := s[|s| - 1];
      assert IsDigit(last);
      DigitsValue(s[..|s| - 1]) * 10 + (last as int - '0' as int)
  }

  const MinInt := -0x8000_0000
  const MaxInt := 0x7FFF_FFFF

  /** Every character of `s` is a decimal digit. */
  predicate AllDigits(s: string)
    decreases |s|
  {
    |s| == 0 || (IsDigit(s[0]) && AllDigits(s[1..]))
  }

  lemma {:induction false} AllDigitsMeans(s: string)
    ensures AllDigits(s) <==> forall k :: 0 <= k < |s| ==> IsDigit(s[k])
    decreases |s|
  {
    if |s| > 0 {
      AllDigitsMeans(s[1..]);
      assert forall k :: 1 <= k < |s| ==> s[k] == s[1..][k - 1];
    }
  }

  /** `s` without its leading sign, if it has one. */
  function Unsigned(s: string): (u: string)
    ensures |s| > 0 && (s[0] == '-' || s[0] == '+') ==> u == s[1..]
    ensures |s| == 0 || (s[0] != '-' && s[0] != '+') ==> u == s
  {
    if |s| > 0 && (s[0] == '-' || s[0] == '+') then s[1..] else s
  }

  /** The value of an optionally signed run of decimal digits: the digits'
      value, negated after a leading minus sign. */
  function SignedValue(s: string): int
    requires AllDigits(Unsigned(s))
  {
    AllDigitsMeans(Unsigned(s));
    var magnitude: int := DigitsValue(Unsigned(s));
    if |s| > 0 && s[0] == '-' then -magnitude else magnitude
  }

  /** Java's Integer.parseInt: an optional sign, at least one decimal digit,
      and a value that fits in 32 bits; None stands for the
      NumberFormatException it throws otherwise. */
  function ParseInt(s: string): (r: Option<int>)
    ensures r.Some? ==> MinInt <= r.value <= MaxInt
    ensures r.Some? ==> Unsigned(s) != [] && AllDigits(Unsigned(s)) && r.value == SignedValue(s)
    ensures Unsigned(s) != [] && AllDigits(Unsigned(s)) ==> (r.Some? <==> MinInt <= SignedValue(s) <= MaxInt)
  {
    var digits := Unsigned(s);
    if digits == [] || !AllDigits(digits) then None
    else
      var v := SignedValue(s);
      if MinInt <= v <= MaxInt then Some(v) else None
  }

  lemma ParseIntExamples()
    ensures ParseInt("42") == Some(42)
    ensures ParseInt("-7") == Some(-7)
    ensures ParseInt("") == None
  {
    assert DigitsValue("42") == DigitsValue("4") * 10 + 2;
    assert "-7"[0] == '-' && "-7"[1..] == "7" && IsDigit("7"[0]);
    assert DigitsValue("7") == 7;
  }
}

=== FILE: typecheck.dfy ===
/** The type checker (sem.TypeCheckVisitor). Its typing rules are small
    decisions over the Type union; they are stated here as functions
    (TypeErrors, EqualityRule, ArithRule, CastRule, FieldType, CheckExpr,
    CheckStmt, ...), and the visitor class below, which keeps the struct
    table, the current function's return type and the error counter, is
    proved to follow them.

    A visit either yields a result and a number of reported errors, or
    throws (a NullPointerException or ClassCastException in the code), which
    aborts the whole check. Types are compared structurally: the code's
    `==` on BaseTypeEnum values is structural, and its `==` on other Type
    objects (an identity test) is taken to be structural as well. */
module TypeCheck {
  import opened Ast

  /** The `structs` table: declarations by struct name. */
  type StructTable = map<string, StructDecl>

  /** Errors reported by accepting a type: visitBaseType reports a VOID,
      visitStructType a struct missing from the table; pointer and array
      types are returned without looking inside. */
  function TypeErrors(structs: StructTable, t: Type): (n: nat)
    ensures n <= 1
    ensures n == 1 <==> t == VoidType || (t.Struct? && t.name !in structs)
  {
    match t
    case Base(k) => if k == Void then 1 else 0
    case Struct(name) => if name in structs then 0 else 1
    case _ => 0
  }

  /** Errors reported by visiting the declarations `decls` in order. */
  function DeclErrors(structs: StructTable, decls: seq<VarDecl>): nat
    decreases |decls|
  {
    if decls == [] then 0
    else DeclErrors(structs, decls[..|decls| - 1]) + TypeErrors(structs, decls[|decls| - 1].ty)
  }

  /** A declaration draws an error exactly when its type is void or an
      undeclared struct. */
  predicate BadDecl(structs: StructTable, d: VarDecl)
  {
    d.ty == VoidType || (d.ty.Struct? && d.ty.name !in structs)
  }

  /** Declarations are error-free exactly when none is void or of an
      undeclared struct type, and each bad one adds one error. */
  lemma {:induction false} DeclErrorsZeroIff(structs: StructTable, decls: seq<VarDecl>)
    ensures DeclErrors(structs, decls) == 0 <==> forall k :: 0 <= k < |decls| ==> !BadDecl(structs, decls[k])
    ensures DeclErrors(structs, decls) <= |decls|
    decreases |decls|
  {
    if decls != [] {
      var init := decls[..|decls| - 1];
      DeclErrorsZeroIff(structs, init);
      assert forall k :: 0 <= k < |init| ==> init[k] == decls[k];
    }
  }

  /** The struct table after registering `decls` in order: a later
      declaration of a name replaces an earlier one. */
  function Registered(decls: seq<StructDecl>): StructTable
    decreases |decls|
  {
    if decls == [] then map[]
    else Registered(decls[..|decls| - 1])[decls[|decls| - 1].name := decls[|decls| - 1]]
  }

  /** A name is in the table exactly when some declaration carries it, and
      it maps to the last such declaration. */
  lemma {:induction false} RegisteredLookup(decls: seq<StructDecl>, name: string)
    ensures name in Registered(decls) <==> exists k :: 0 <= k < |decls| && decls[k].name == name
    ensures name in Registered(decls) ==>
              exists k :: 0 <= k < |decls| && Registered(decls)[name] == decls[k] && decls[k].name == name
                          && forall j :: k < j < |decls| ==> decls[j].name != name
    decreases |decls|
  {
    if decls != [] {
      var init := decls[..|decls| - 1];
      RegisteredLookup(init, name);
      assert forall k :: 0 <= k < |init| ==> init[k] == decls[k];
      if decls[|decls| - 1].name == name {
        assert Registered(decls)[name] == decls[|decls| - 1];
      }
    }
  }

  /** The type slot an expression node holds before it is visited: literals
      carry their type from construction, every other node holds null. A
      string literal is taken to carry `char[length + 1]`; SizeOfExpr and
      TypecastExpr keep their type operand in a field of their own, so their
      slot is null as well. */
  function InitialSlot(e: Expr): Option<Type>
  {
    match e
    case IntLit(_) => Some(IntType)
    case ChrLit(_) => Some(CharType)
    case StrLit(s, _) => Some(StrLitType(s))
    case _ => None
  }

  function StrLitType(s: string): Type
  {
    Array(CharType, |s| + 1)
  }

  /** The outcome of visiting an expression: the type it returns, the type
      left in its slot and the errors reported; or an exception. */
  datatype Typed = Typed(ret: Option<Type>, slot: Option<Type>, errs: nat) | TypeThrown

  /** The types an equality test rejects when they differ. */
  predicate EqBad(t: Type)
  {
    t.Struct? || t.Array? || t == VoidType
  }

  /** visitBinOp for `==` and `!=`, given the operand types: an error (and a
      null type) only when both sides are struct, array or void and differ;
      otherwise the left operand's type. A null left operand, or a null
      right one behind a rejected left one, throws. */
  function EqualityRule(structs: StructTable, e1: Option<Type>, e2: Option<Type>): (r: Typed)
    ensures r.TypeThrown? <==> e1.None? || (EqBad(e1.value) && e2.None?)
    ensures r.Typed? ==> (r.ret.None? <==> EqBad(e1.value) && EqBad(e2.value) && e1 != e2)
    ensures r.Typed? && r.ret.Some? ==> r.ret == e1 && r.slot == e1
    ensures r.Typed? && r.ret.None? ==> r.slot.None? && r.errs >= 1
    ensures r.Typed? && !EqBad(e1.value) ==> r.errs == 0
  {
    if e1.None? then TypeThrown
    else
      var t1 := e1.value;
      // `e1 instanceof StructType || e1 instanceof ArrayType || e1.accept(this) == VOID`
      var err1 := if t1.Struct? || t1.Array? then 0 else TypeErrors(structs, t1);
      if !EqBad(t1) then Typed(e1, e1, err1)
      else if e2.None? then TypeThrown
      else
        var t2 := e2.value;
        var err2 := if t2.Struct? || t2.Array? then 0 else TypeErrors(structs, t2);
        if !EqBad(t2) then Typed(e1, e1, err1 + err2)
        else
          // `e1.accept(this) != e2.accept(this)` accepts both once more
          var errs := err1 + err2 + TypeErrors(structs, t1) + TypeErrors(structs, t2);
          if t1 != t2 then Typed(None, None, errs + 1) else Typed(e1, e1, errs)
  }

  /** visitBinOp for every other operator: INT when both operands are INT,
      otherwise an error and null. A null operand that is reached throws. */
  function ArithRule(structs: StructTable, e1: Option<Type>, e2: Option<Type>): (r: Typed)
    ensures r.TypeThrown? <==> e1.None? || (e1 == Some(IntType) && e2.None?)
    ensures r.Typed? ==> (r.ret.Some? <==> e1 == Some(IntType) && e2 == Some(IntType))
    ensures r.Typed? && r.ret.Some? ==> r.ret == Some(IntType) && r.slot == Some(IntType) && r.errs == 0
    ensures r.Typed? && r.ret.None? ==> r.slot.None? && r.errs >= 1
  {
    if e1.None? then TypeThrown
    else
      var err1 := TypeErrors(structs, e1.value);
      if e1.value != IntType then Typed(None, None, err1 + 1)
      else if e2.None? then TypeThrown
      else
        var err2 := TypeErrors(structs, e2.value);
        if e2.value == IntType then Typed(Some(IntType), Some(IntType), err1 + err2)
        else Typed(None, None, err1 + err2 + 1)
  }

  /** The declared type of the first field called `name`, if any. */
  function FieldType(fields: seq<VarDecl>, name: string): (r: Option<Type>)
    ensures r.None? <==> forall k :: 0 <= k < |fields| ==> fields[k].name != name
    ensures r.Some? ==> exists k :: 0 <= k < |fields| && fields[k].name == name && r.value == fields[k].ty
                                  && forall j :: 0 <= j < k ==> fields[j].name != name
    decreases |fields|
  {
    if fields == [] then None
    else if fields[0].name == name then Some(fields[0].ty)
    else
      var r := FieldType(fields[1..], name);
      if r.Some? then
        var k :| 0 <= k < |fields| - 1 && fields[1..][k].name == name && r.value == fields[1..][k].ty
                 && forall j :: 0 <= j < k ==> fields[1..][j].name != name;
        assert fields[k + 1].name == name && forall j :: 0 <= j < k + 1 ==> fields[j].name != name;
        r
      else r
  }

  /** visitTypecastExpr, given the target type and the operand's slot (the
      operand itself is not visited): char to int gives INT; an array gives a
      pointer to the target when the target is its element type; a pointer
      gives a pointer to the target; everything else is an error. Only an
      int target looks at a null slot, and throws. The cast's own slot is
      never set. */
  function CastRule(structs: StructTable, target: Type, src: Option<Type>): (r: Typed)
    ensures r.TypeThrown? <==> target == IntType && src.None?
    ensures r.Typed? ==> r.slot.None?
    ensures target == IntType && src == Some(CharType) ==> r.Typed? && r.ret == Some(IntType)
    ensures src.Some? && src.value.Array? ==>
              r.Typed? && (r.ret.Some? <==> target == src.value.elem)
              && (r.ret.Some? ==> r.ret == Some(Pointer(target)))
    ensures src.Some? && src.value.Pointer? ==> r.Typed? && r.ret == Some(Pointer(target))
    ensures src.Some? && !src.value.Array? && !src.value.Pointer? && !(target == IntType && src == Some(CharType))
            ==> r.Typed? && r.ret.None?
    ensures r.Typed? && r.ret.None? ==> r.errs >= 1
  {
    var err0 := TypeErrors(structs, target);
    if target == IntType && src.None? then TypeThrown
    else
      var err1 := if target == IntType then TypeErrors(structs, src.value) else 0;
      if target == IntType && src == Some(CharType) then Typed(Some(IntType), None, err0 + err1)
      else if src.Some? && src.value.Array? then
        if target == src.value.elem then Typed(Some(Pointer(target)), None, err0 + err1)
        else Typed(None, None, err0 + err1 + 1)
      else if src.Some? && src.value.Pointer? then Typed(Some(Pointer(target)), None, err0 + err1)
      else Typed(None, None, err0 + err1 + 1)
  }

  /** Adds the errors of an earlier visit to an outcome. */
  function After(errs: nat, r: Typed): Typed
  {
    if r.TypeThrown? then TypeThrown else Typed(r.ret, r.slot, errs + r.errs)
  }

  /** Visiting an expression. Operands are visited left to right; the
      index of an array access and the operand of a cast are not visited,
      only their slots are read. */
  function CheckExpr(structs: StructTable, e: Expr): (r: Typed)
    ensures e.Missing? ==> r.TypeThrown?
    ensures e.SizeOf? ==> r.Typed? && r.ret == Some(IntType)
    ensures e.FunCall? ==> (r.TypeThrown? <==> e.fd.None?) && (r.Typed? ==> r.ret == e.fd && r.errs == 0)
    ensures e.Var? ==> (r.TypeThrown? <==> e.vd.None?) && (r.Typed? ==> r.ret == e.vd && r.errs == 0)
    decreases e
  {
    match e
    case IntLit(_) => Typed(Some(IntType), Some(IntType), 0)
    case ChrLit(_) => Typed(Some(CharType), Some(CharType), 0)
    case StrLit(s, _) => Typed(Some(StrLitType(s)), Some(StrLitType(s)), 0)
    case Var(_, vd) => if vd.None? then TypeThrown else Typed(vd, vd, 0)
    case FunCall(_, _, fd) => if fd.None? then TypeThrown else Typed(fd, fd, 0)
    case BinOp(lhs, rhs, op) =>
      var a := CheckExpr(structs, lhs);
      if a.TypeThrown? then TypeThrown
      else
        var b := CheckExpr(structs, rhs);
        if b.TypeThrown? then TypeThrown
        else if op == Eq || op == Ne then After(a.errs + b.errs, EqualityRule(structs, a.ret, b.ret))
        else After(a.errs + b.errs, ArithRule(structs, a.ret, b.ret))
    case ArrayAccess(arr, index) =>
      var a := CheckExpr(structs, arr);
      if a.TypeThrown? then TypeThrown
      else After(a.errs, IndexRule(structs, a.slot, InitialSlot(index)))
    case FieldAccess(record, field) =>
      var a := CheckExpr(structs, record);
      if a.TypeThrown? then TypeThrown
      else After(a.errs, FieldRule(structs, a.ret, field))
    case ValueAt(ptr) =>
      var a := CheckExpr(structs, ptr);
      if a.TypeThrown? then TypeThrown
      else if a.ret.Some? && a.ret.value.Pointer? then Typed(a.slot, a.slot, a.errs)
      else Typed(None, None, a.errs + 1)
    case SizeOf(_) => Typed(Some(IntType), None, 0)
    case Typecast(target, operand) => CastRule(structs, target, InitialSlot(operand))
    case Missing => TypeThrown
  }

  /** visitArrayAccessExpr after visiting the array, given its slot and the
      index's slot: an array or pointer indexed by an INT yields the array or
      pointer type itself; anything else is an error. */
  function IndexRule(structs: StructTable, arr: Option<Type>, index: Option<Type>): (r: Typed)
    ensures r.TypeThrown? <==> arr.Some? && (arr.value.Array? || arr.value.Pointer?) && index.None?
    ensures r.Typed? ==> (r.ret.Some? <==> arr.Some? && (arr.value.Array? || arr.value.Pointer?) && index == Some(IntType))
    ensures r.Typed? && r.ret.Some? ==> r.ret == arr && r.slot == arr && r.errs == 0
    ensures r.Typed? && r.ret.None? ==> r.slot.None? && r.errs >= 1
  {
    if arr.Some? && (arr.value.Array? || arr.value.Pointer?) then
      if index.None? then TypeThrown
      else
        var err := TypeErrors(structs, index.value);
        if index.value == IntType then Typed(arr, arr, err) else Typed(None, None, err + 1)
    else Typed(None, None, 1)
  }

  /** visitFieldAccessExpr after visiting the record, given its type: the
      record must be of a declared struct type (otherwise the cast or the
      table lookup throws); the first field with the name gives the type,
      and no such field is an error. */
  function FieldRule(structs: StructTable, t: Option<Type>, field: string): (r: Typed)
    ensures r.TypeThrown? <==> t.None? || !t.value.Struct? || t.value.name !in structs
    ensures r.Typed? ==> r.ret == r.slot && r.ret == FieldType(structs[t.value.name].fields, field)
    ensures r.Typed? ==> (r.errs == 1 <==> forall k :: 0 <= k < |structs[t.value.name].fields| ==>
                                              structs[t.value.name].fields[k].name != field)
  {
    if t.None? || !t.value.Struct? || t.value.name !in structs then TypeThrown
    else
      var ft := FieldType(structs[t.value.name].fields, field);
      if ft.None? then Typed(None, None, 1) else Typed(ft, ft, 0)
  }

  //== Statements, blocks, functions and the program

  /** The outcome of visiting a statement or declaration: the errors
      reported, or an exception. */
  datatype Count = Count(errs: nat) | Thrown

  /** Adds the errors of an earlier visit to an outcome. */
  function Plus(errs: nat, c: Count): Count
  {
    if c.Thrown? then Thrown else Count(errs + c.errs)
  }

  /** A type the assignment check rejects on both sides. */
  predicate AssignBad(t: Type)
  {
    t == VoidType || t.Array?
  }

  /** visitAssign after visiting both sides, given their types: the left
      type is accepted; only when it is void or an array is the right type
      looked at (a null one throws) and the assignment rejected when that is
      void or an array too. */
  function AssignRule(structs: StructTable, t1: Option<Type>, t2: Option<Type>): (r: Count)
    ensures r.Thrown? <==> t1.None? || (AssignBad(t1.value) && t2.None?)
    ensures r.Count? && TypeErrors(structs, t1.value) == 0 && (t2.Some? ==> TypeErrors(structs, t2.value) == 0) ==>
              (r.errs == 1 <==> t1.value.Array? && t2.Some? && t2.value.Array?) && r.errs <= 1
    ensures r.Count? && t1.value == VoidType ==> r.errs >= 1
  {
    if t1.None? then Thrown
    else
      var err1 := TypeErrors(structs, t1.value);
      if !AssignBad(t1.value) then Count(err1)
      else if t2.None? then Thrown
      else
        var err2 := TypeErrors(structs, t2.value);
        Count(err1 + err2 + if AssignBad(t2.value) then 1 else 0)
  }

  /** visitReturn given the function's return type (null outside a
      function): the return type is accepted, which reports an error for
      every return in a void function; returning a value there is a second
      error. Otherwise the return type is accepted again and compared with
      the value's type; `return;` in a non-void function throws. */
  function ReturnRule(structs: StructTable, ret: Option<Type>, value: Option<Expr>): (r: Count)
    ensures ret == Some(VoidType) ==> r == Count(if value.Some? then 2 else 1)
    ensures ret.Some? && ret.value != VoidType ==>
              (r.Thrown? <==> value.None? || CheckExpr(structs, value.value).TypeThrown?)
    ensures ret.Some? && ret.value != VoidType && r.Count? && TypeErrors(structs, ret.value) == 0 ==>
              (r.errs == CheckExpr(structs, value.value).errs <==> CheckExpr(structs, value.value).ret == ret)
  {
    if ret.None? then Thrown
    else
      var err0 := TypeErrors(structs, ret.value);
      if ret.value == VoidType then Count(err0 + if value.Some? then 1 else 0)
      else
        var err1 := TypeErrors(structs, ret.value);
        if value.None? then Thrown
        else
          var a := CheckExpr(structs, value.value);
          if a.TypeThrown? then Thrown
          else Count(err0 + err1 + a.errs + if a.ret == ret then 0 else 1)
  }

  /** Visiting a statement. A while or if visits only its condition (the
      bodies are not visited) and reports an error when its type is not INT;
      an expression statement is not visited at all. */
  function CheckStmt(structs: StructTable, ret: Option<Type>, s: Stmt): (r: Count)
    ensures (s.While? || s.If?) ==>
              && (r.Thrown? <==> CheckExpr(structs, s.cond).TypeThrown?)
              && (r.Count? ==> (r.errs == CheckExpr(structs, s.cond).errs + 1 <==> CheckExpr(structs, s.cond).ret != Some(IntType)))
              && (r.Count? ==> r.errs <= CheckExpr(structs, s.cond).errs + 1)
    ensures s.ExprStmt? ==> r == Count(0)
    decreases s, 0
  {
    match s
    case BlockStmt(b) => CheckBlock(structs, ret, b)
    case While(cond, _) => CondRule(CheckExpr(structs, cond))
    case If(cond, _, _) => CondRule(CheckExpr(structs, cond))
    case Return(value) => ReturnRule(structs, ret, value)
    case Assign(lhs, rhs) => CheckAssign(structs, lhs, rhs)
    case ExprStmt(_) => Count(0)
  }

  /** An assignment: both sides are visited, then the assignment rule. */
  function CheckAssign(structs: StructTable, lhs: Expr, rhs: Expr): (r: Count)
    ensures CheckExpr(structs, lhs).TypeThrown? ==> r.Thrown?
    ensures r.Count? ==> CheckExpr(structs, rhs).Typed? && r.errs >= CheckExpr(structs, lhs).errs + CheckExpr(structs, rhs).errs
  {
    var a := CheckExpr(structs, lhs);
    if a.TypeThrown? then Thrown
    else
      var b := CheckExpr(structs, rhs);
      if b.TypeThrown? then Thrown
      else Plus(a.errs + b.errs, AssignRule(structs, a.ret, b.ret))
  }

  /** A `while` or `if` condition: one error unless its type is int. */
  function CondRule(c: Typed): (r: Count)
    ensures r.Thrown? <==> c.TypeThrown?
    ensures r.Count? ==> (r.errs == c.errs <==> c.ret == Some(IntType)) && r.errs <= c.errs + 1
  {
    if c.TypeThrown? then Thrown else Count(c.errs + if c.ret == Some(IntType) then 0 else 1)
  }

  /** Visiting a block: its declarations, then its statements in order. */
  function CheckBlock(structs: StructTable, ret: Option<Type>, b: Block): (r: Count)
    ensures r.Count? ==> r.errs >= DeclErrors(structs, b.vars)
    ensures b.stmts == [] ==> r == Count(DeclErrors(structs, b.vars))
    decreases b, 1
  {
    Plus(DeclErrors(structs, b.vars), StmtsCount(structs, ret, b, |b.stmts|))
  }

  /** Visiting the first `n` statements of a block; an exception stops the
      visit. */
  function StmtsCount(structs: StructTable, ret: Option<Type>, b: Block, n: nat): Count
    requires n <= |b.stmts|
    decreases b, 0, n
  {
    if n == 0 then Count(0)
    else
      var c := StmtsCount(structs, ret, b, n - 1);
      if c.Thrown? then Thrown else Plus(c.errs, CheckStmt(structs, ret, b.stmts[n - 1]))
  }

  /** visitFunDecl: the parameters, then the body, with the function's
      return type as `funretT`. The return type itself is not visited. */
  function CheckFun(structs: StructTable, f: FunDecl): (r: Count)
    ensures r.Count? ==> r.errs >= DeclErrors(structs, f.params) + DeclErrors(structs, f.body.vars)
  {
    Plus(DeclErrors(structs, f.params), CheckBlock(structs, Some(f.ret), f.body))
  }

  /** Visiting the first `n` functions in order. */
  function FunsCount(structs: StructTable, funs: seq<FunDecl>, n: nat): Count
    requires n <= |funs|
  {
    if n == 0 then Count(0)
    else
      var c := FunsCount(structs, funs, n - 1);
      if c.Thrown? then Thrown else Plus(c.errs, CheckFun(structs, funs[n - 1]))
  }

  /** The field errors of the first `n` struct declarations: each is checked
      right after it is registered, so a field may name its own struct or an
      earlier one, but not a later one. */
  function StructErrors(decls: seq<StructDecl>, n: nat): nat
    requires n <= |decls|
  {
    if n == 0 then 0
    else StructErrors(decls, n - 1) + DeclErrors(Registered(decls[..n]), decls[n - 1].fields)
  }

  /** visitProgram: struct declarations, then globals and functions against
      the complete struct table. */
  function CheckProgram(p: Program): (r: Count)
    ensures r.Count? ==> r.errs >= StructErrors(p.structs, |p.structs|) + DeclErrors(Registered(p.structs), p.globals)
    ensures p.funs == [] ==> r == Count(StructErrors(p.structs, |p.structs|) + DeclErrors(Registered(p.structs), p.globals))
  {
    var structs := Registered(p.structs);
    Plus(StructErrors(p.structs, |p.structs|) + DeclErrors(structs, p.globals),
         FunsCount(structs, p.funs, |p.funs|))
  }

  /** The loop in visitFieldAccessExpr finds what FieldType describes: the
      first field with the name. */
  lemma FirstFieldWins(fields: seq<VarDecl>, name: string, k: nat)
    requires k < |fields| && fields[k].name == name
    requires forall j :: 0 <= j < k ==> fields[j].name != name
    ensures FieldType(fields, name) == Some(fields[k].ty)
  {
  }

  //== Consequences of the rules

  /** A global or local of a struct type declared anywhere in the program
      draws no error, because every struct declaration is registered before
      globals and functions are checked. */
  lemma DeclaredStructIsKnown(p: Program, k: nat, x: string)
    requires k < |p.structs|
    ensures DeclErrors(Registered(p.structs), [VarDecl(Struct(p.structs[k].name), x)]) == 0
  {
    RegisteredLookup(p.structs, p.structs[k].name);
    assert [VarDecl(Struct(p.structs[k].name), x)][..0] == [];
  }

  /** A field naming a struct that is declared only later, and not before,
      is reported: struct declarations are checked in program order. */
  lemma ForwardStructReferenceReported(decls: seq<StructDecl>, k: nat, j: nat, f: nat)
    requires k < j < |decls| && f < |decls[k].fields|
    requires decls[k].fields[f].ty == Struct(decls[j].name)
    requires forall i :: 0 <= i <= k ==> decls[i].name != decls[j].name
    ensures DeclErrors(Registered(decls[..k + 1]), decls[k].fields) >= 1
  {
    var prefix := decls[..k + 1];
    RegisteredLookup(prefix, decls[j].name);
    DeclErrorsZeroIff(Registered(prefix), decls[k].fields);
    assert BadDecl(Registered(prefix), decls[k].fields[f]);
  }

  /** `(int) c` with `c` a char variable throws: the cast does not visit its
      operand, whose slot is still null. */
  lemma CastOfUnvisitedVariableThrows(structs: StructTable, x: string)
    ensures CheckExpr(structs, Typecast(IntType, Var(x, Some(CharType)))).TypeThrown?
    ensures CheckExpr(structs, Typecast(IntType, ChrLit('a'))) == Typed(Some(IntType), None, 0)
  {
  }

  /** Indexing yields the array type itself, not its element type, and an
      index that is a variable throws, its slot never having been filled. */
  lemma IndexingKeepsArrayType(structs: StructTable, a: string, i: string, n: int, v: int)
    ensures CheckExpr(structs, ArrayAccess(Var(a, Some(Array(IntType, n))), IntLit(v)))
            == Typed(Some(Array(IntType, n)), Some(Array(IntType, n)), 0)
    ensures CheckExpr(structs, ArrayAccess(Var(a, Some(Array(IntType, n))), Var(i, Some(IntType)))).TypeThrown?
  {
  }

  /** Once a statement throws, the rest of the block is not visited. */
  lemma {:induction false} StmtsThrownStays(structs: StructTable, ret: Option<Type>, b: Block, k: nat, n: nat)
    requires k <= n <= |b.stmts| && StmtsCount(structs, ret, b, k).Thrown?
    ensures StmtsCount(structs, ret, b, n).Thrown?
    decreases n - k
  {
    if k < n {
      StmtsThrownStays(structs, ret, b, k, n - 1);
    }
  }

  /** Once a function throws, the later functions are not visited. */
  lemma {:induction false} FunsThrownStays(structs: StructTable, funs: seq<FunDecl>, k: nat, n: nat)
    requires k <= n <= |funs| && FunsCount(structs, funs, k).Thrown?
    ensures FunsCount(structs, funs, n).Thrown?
    decreases n - k
  {
    if k < n {
      FunsThrownStays(structs, funs, k, n - 1);
    }
  }

  //== The visitor

  class TypeCheckVisitor {
    /** Declared structs by name (`structs`). */
    var structs: StructTable
    /** The return type of the function being checked (`funretT`). */
    var funretT: Option<Type>
    /** The error counter of the base visitor. */
    var errors: nat
    /** Set when a visit throws; nothing is visited after that. */
    var thrown: bool

    constructor()
      ensures structs == map[] && funretT == None && errors == 0 && !thrown
    {
      structs, funretT, errors, thrown := map[], None, 0, false;
    }

    /** The visitor's state after an expression visit agrees with the
        outcome `r` the typing rules give. */
    ghost predicate Typed(r: Typed, t: Option<Type>, slot: Option<Type>, before: nat)
      reads this
    {
      (thrown <==> r.TypeThrown?) && (!thrown ==> t == r.ret && slot == r.slot && errors == before + r.errs)
    }

    /** The same for a statement or declaration visit. */
    ghost predicate Counted(c: Count, before: nat)
      reads this
    {
      (thrown <==> c.Thrown?) && (!thrown ==> errors == before + c.errs)
    }

    /** visitBaseType, visitStructType, visitPointerType, visitArrayType:
        accepting a type returns it and reports a VOID or an undeclared
        struct. */
    method VisitType(t: Type) returns (r: Type)
      modifies this`errors
      ensures r == t && errors == old(errors) + TypeErrors(structs, t)
    {
      r := t;
      if t == VoidType {
        errors := errors + 1;
      } else if t.Struct? && t.name !in structs {
        errors := errors + 1;
      }
    }

    /** visitVarDecl: accepts the declared type. */
    method VisitVarDecl(vd: VarDecl)
      modifies this`errors
      ensures errors == old(errors) + TypeErrors(structs, vd.ty)
    {
      var _ := VisitType(vd.ty);
    }

    /** The loops over declaration lists in visitStructTypeDecl,
        visitBlock, visitFunDecl and visitProgram. */
    method VisitVarDecls(decls: seq<VarDecl>)
      modifies this`errors
      ensures errors == old(errors) + DeclErrors(structs, decls)
    {
      for k := 0 to |decls|
        invariant errors == old(errors) + DeclErrors(structs, decls[..k])
      {
        assert decls[..k + 1][..k] == decls[..k];
        VisitVarDecl(decls[k]);
      }
      assert decls[..|decls|] == decls;
    }

    /** visitStructTypeDecl: registers the declaration, then checks its
        fields, which may therefore name the struct itself. */
    method VisitStructTypeDecl(sd: StructDecl)
      modifies this`structs, this`errors
      ensures structs == old(structs)[sd.name := sd]
      ensures errors == old(errors) + DeclErrors(structs, sd.fields)
    {
      structs := structs[sd.name := sd];
      VisitVarDecls(sd.fields);
    }

    //-- Expressions

    method VisitExpr(e: Expr) returns (t: Option<Type>, slot: Option<Type>)
      requires !thrown
      modifies this`errors, this`thrown
      ensures Typed(CheckExpr(structs, e), t, slot, old(errors))
      decreases e, 1
    {
      t, slot := None, None;
      match e
      case IntLit(_) =>
        var r := VisitType(IntType);
        t, slot := Some(r), Some(IntType);
      case ChrLit(_) =>
        var r := VisitType(CharType);
        t, slot := Some(r), Some(CharType);
      case StrLit(s, _) =>
        var r := VisitType(StrLitType(s));
        t, slot := Some(r), Some(StrLitType(s));
      case Var(_, vd) =>
        // visitVarExpr: `v.type = v.vd.type`
        if vd.None? {
          thrown := true;
        } else {
          t, slot := vd, vd;
        }
      case FunCall(_, _, fd) =>
        // visitFunCallExpr: `fce.type = fce.fd.type`
        if fd.None? {
          thrown := true;
        } else {
          t, slot := fd, fd;
        }
      case BinOp(_, _, _) =>
        t, slot := VisitBinOp(e);
      case ArrayAccess(_, _) =>
        t, slot := VisitArrayAccessExpr(e);
      case FieldAccess(_, _) =>
        t, slot := VisitFieldAccessExpr(e);
      case ValueAt(_) =>
        t, slot := VisitValueAtExpr(e);
      case SizeOf(_) =>
        t, slot := Some(IntType), None;
      case Typecast(target, operand) =>
        t, slot := VisitTypecastExpr(target, InitialSlot(operand));
      case Missing =>
        thrown := true;
    }

    /** visitBinOp: both operands, then the equality or arithmetic rule. */
    method VisitBinOp(e: Expr) returns (t: Option<Type>, slot: Option<Type>)
      requires !thrown && e.BinOp?
      modifies this`errors, this`thrown
      ensures Typed(CheckExpr(structs, e), t, slot, old(errors))
      decreases e, 0
    {
      t, slot := None, None;
      var e1, s1 := VisitExpr(e.lhs);
      if thrown {
        return;
      }
      var e2, s2 := VisitExpr(e.rhs);
      if thrown {
        return;
      }
      if e.op == Ne || e.op == Eq {
        t, slot := EqualityCheck(e1, e2);
      } else {
        t, slot := ArithCheck(e1, e2);
      }
    }

    /** The `==` / `!=` branch of visitBinOp. */
    method EqualityCheck(e1: Option<Type>, e2: Option<Type>) returns (t: Option<Type>, slot: Option<Type>)
      requires !thrown
      modifies this`errors, this`thrown
      ensures Typed(EqualityRule(structs, e1, e2), t, slot, old(errors))
    {
      t, slot := None, None;
      if e1.None? {
        thrown := true;
        return;
      }
      var bad1 := e1.value.Struct? || e1.value.Array?;
      if !bad1 {
        var a := VisitType(e1.value);
        bad1 := a == VoidType;
      }
      var differ := false;
      if bad1 {
        if e2.None? {
          thrown := true;
          return;
        }
        var bad2 := e2.value.Struct? || e2.value.Array?;
        if !bad2 {
          var a := VisitType(e2.value);
          bad2 := a == VoidType;
        }
        if bad2 {
          var a1 := VisitType(e1.value);
          var a2 := VisitType(e2.value);
          differ := a1 != a2;
        }
      }
      if differ {
        errors := errors + 1;
        t, slot := None, None;
      } else {
        t, slot := e1, e1;
      }
    }

    /** The arithmetic and comparison branch of visitBinOp. */
    method ArithCheck(e1: Option<Type>, e2: Option<Type>) returns (t: Option<Type>, slot: Option<Type>)
      requires !thrown
      modifies this`errors, this`thrown
      ensures Typed(ArithRule(structs, e1, e2), t, slot, old(errors))
    {
      t, slot := None, None;
      if e1.None? {
        thrown := true;
        return;
      }
      var a1 := VisitType(e1.value);
      var ok := a1 == IntType;
      if ok {
        if e2.None? {
          thrown := true;
          return;
        }
        var a2 := VisitType(e2.value);
        ok := a2 == IntType;
      }
      if ok {
        t, slot := Some(IntType), Some(IntType);
      } else {
        errors := errors + 1;
        t, slot := None, None;
      }
    }

    /** visitArrayAccessExpr: visits the array only and reads the index's
        slot. */
    method VisitArrayAccessExpr(e: Expr) returns (t: Option<Type>, slot: Option<Type>)
      requires !thrown && e.ArrayAccess?
      modifies this`errors, this`thrown
      ensures Typed(CheckExpr(structs, e), t, slot, old(errors))
      decreases e, 0
    {
      t, slot := None, None;
      var _, arr := VisitExpr(e.arr);
      if thrown {
        return;
      }
      var index := InitialSlot(e.index);
      var ok := arr.Some? && (arr.value.Array? || arr.value.Pointer?);
      if ok {
        if index.None? {
          thrown := true;
          return;
        }
        var a := VisitType(index.value);
        ok := a == IntType;
      }
      if ok {
        var a := VisitType(arr.value);
        t, slot := Some(a), Some(a);
      } else {
        errors := errors + 1;
        t, slot := None, None;
      }
    }

    /** visitFieldAccessExpr: the record's type must be a declared struct;
        the loop stops at the first field with the name. */
    method VisitFieldAccessExpr(e: Expr) returns (t: Option<Type>, slot: Option<Type>)
      requires !thrown && e.FieldAccess?
      modifies this`errors, this`thrown
      ensures Typed(CheckExpr(structs, e), t, slot, old(errors))
      decreases e, 0
    {
      t, slot := None, None;
      var rt, _ := VisitExpr(e.record);
      if thrown {
        return;
      }
      if rt.None? || !rt.value.Struct? || rt.value.name !in structs {
        thrown := true;
        return;
      }
      var fields := structs[rt.value.name].fields;
      t := None;
      var k := 0;
      while k < |fields|
        invariant k <= |fields|
        invariant t.None? ==> forall j :: 0 <= j < k ==> fields[j].name != e.field
        invariant t.Some? ==> t == FieldType(fields, e.field)
        decreases |fields| - k
      {
        if fields[k].name == e.field {
          t := Some(fields[k].ty);
          FirstFieldWins(fields, e.field, k);
          break;
        }
        k := k + 1;
      }
      slot := t;
      if t.None? {
        errors := errors + 1;
      }
    }

    /** visitValueAtExpr: a pointer operand gives the operand's slot. */
    method VisitValueAtExpr(e: Expr) returns (t: Option<Type>, slot: Option<Type>)
      requires !thrown && e.ValueAt?
      modifies this`errors, this`thrown
      ensures Typed(CheckExpr(structs, e), t, slot, old(errors))
      decreases e, 0
    {
      t, slot := None, None;
      var pt, ps := VisitExpr(e.ptr);
      if thrown {
        return;
      }
      if pt.Some? && pt.value.Pointer? {
        t, slot := ps, ps;
      } else {
        errors := errors + 1;
        t, slot := None, None;
      }
    }

    /** visitTypecastExpr, given the target and the operand's slot. */
    method VisitTypecastExpr(target: Type, src: Option<Type>) returns (t: Option<Type>, slot: Option<Type>)
      requires !thrown
      modifies this`errors, this`thrown
      ensures Typed(CastRule(structs, target, src), t, slot, old(errors))
    {
      t, slot := None, None;
      var a := VisitType(target);
      var charToInt := a == IntType;
      if charToInt {
        if src.None? {
          thrown := true;
          return;
        }
        var b := VisitType(src.value);
        charToInt := b == CharType;
      }
      if charToInt {
        t := Some(IntType);
      } else if src.Some? && src.value.Array? {
        if target == src.value.elem {
          t := Some(Pointer(target));
        } else {
          errors := errors + 1;
          t := None;
        }
      } else if src.Some? && src.value.Pointer? {
        t := Some(Pointer(target));
      } else {
        errors := errors + 1;
        t := None;
      }
    }
    //-- Statements

    method VisitStmt(s: Stmt)
      requires !thrown
      modifies this`errors, this`thrown
      ensures Counted(CheckStmt(structs, funretT, s), old(errors))
      decreases s, 0
    {
      match s
      case BlockStmt(b) => VisitBlock(b);
      case While(cond, _) => VisitCond(cond);
      case If(cond, _, _) => VisitCond(cond);
      case Return(value) => VisitReturn(value);
      case Assign(lhs, rhs) => VisitAssign(lhs, rhs);
      case ExprStmt(_) =>
    }

    /** visitWhile and visitIf: the condition must be INT. */
    method VisitCond(cond: Expr)
      requires !thrown
      modifies this`errors, this`thrown
      ensures Counted(CondRule(CheckExpr(structs, cond)), old(errors))
    {
      var t, _ := VisitExpr(cond);
      if thrown {
        return;
      }
      if t != Some(IntType) {
        errors := errors + 1;
      }
    }

    /** visitAssign. */
    method VisitAssign(lhs: Expr, rhs: Expr)
      requires !thrown
      modifies this`errors, this`thrown
      ensures Counted(CheckAssign(structs, lhs, rhs), old(errors))
    {
      var e1, _ := VisitExpr(lhs);
      if thrown {
        return;
      }
      var e2, _ := VisitExpr(rhs);
      if thrown {
        return;
      }
      ghost var visited := errors;
      AssignTypes(e1, e2);
      assert Counted(AssignRule(structs, e1, e2), visited);
    }

    /** The assignment rule once both sides are visited: an assignable
        left side is accepted, and a VOID or array one is reported only
        when the right side is also VOID or an array. */
    method AssignTypes(e1: Option<Type>, e2: Option<Type>)
      requires !thrown
      modifies this`errors, this`thrown
      ensures Counted(AssignRule(structs, e1, e2), old(errors))
    {
      if e1.None? {
        thrown := true;
        return;
      }
      var a1 := VisitType(e1.value);
      var bad := a1 == VoidType || e1.value.Array?;
      if bad {
        if e2.None? {
          thrown := true;
          return;
        }
        var a2 := VisitType(e2.value);
        bad := a2 == VoidType || e2.value.Array?;
      }
      if bad {
        errors := errors + 1;
      }
    }

    /** visitReturn. */
    method VisitReturn(value: Option<Expr>)
      requires !thrown
      modifies this`errors, this`thrown
      ensures Counted(ReturnRule(structs, funretT, value), old(errors))
    {
      if funretT.None? {
        thrown := true;
        return;
      }
      var a := VisitType(funretT.value);
      if a == VoidType {
        if value.Some? {
          errors := errors + 1;
        }
      } else {
        var b := VisitType(funretT.value);
        if value.None? {
          thrown := true;
          return;
        }
        var t, _ := VisitExpr(value.value);
        if thrown {
          return;
        }
        if Some(b) != t {
          errors := errors + 1;
        }
      }
    }

    /** visitBlock: declarations, then statements until one throws. */
    method VisitBlock(b: Block)
      requires !thrown
      modifies this`errors, this`thrown
      ensures Counted(CheckBlock(structs, funretT, b), old(errors))
      decreases b, 1
    {
      VisitVarDecls(b.vars);
      ghost var start := errors;
      var k := 0;
      while k < |b.stmts| && !thrown
        invariant k <= |b.stmts|
        invariant Counted(StmtsCount(structs, funretT, b, k), start)
        decreases |b.stmts| - k
      {
        VisitStmt(b.stmts[k]);
        k := k + 1;
      }
      if thrown {
        StmtsThrownStays(structs, funretT, b, k, |b.stmts|);
      }
    }

    //-- Declarations

    /** visitFunDecl: records the return type, then checks the parameters
        and the body. */
    method VisitFunDecl(f: FunDecl)
      requires !thrown
      modifies this`funretT, this`errors, this`thrown
      ensures funretT == Some(f.ret)
      ensures Counted(CheckFun(structs, f), old(errors))
    {
      funretT := Some(f.ret);
      VisitVarDecls(f.params);
      VisitBlock(f.body);
    }

    /** visitProgram: a fresh struct table, every struct declaration in
        order, then the globals and the functions against the full table. */
    method VisitProgram(p: Program)
      requires !thrown
      modifies this
      ensures structs == Registered(p.structs)
      ensures Counted(CheckProgram(p), old(errors))
    {
      structs := map[];
      VisitStructDecls(p.structs);
      VisitVarDecls(p.globals);
      VisitFunDecls(p.funs);
    }

    /** visitProgram's first loop: every struct declaration in order,
        starting from an empty table. */
    method VisitStructDecls(decls: seq<StructDecl>)
      requires structs == map[]
      modifies this`structs, this`errors
      ensures structs == Registered(decls)
      ensures errors == old(errors) + StructErrors(decls, |decls|)
    {
      for k := 0 to |decls|
        invariant structs == Registered(decls[..k])
        invariant errors == old(errors) + StructErrors(decls, k)
      {
        assert decls[..k + 1][..k] == decls[..k];
        VisitStructTypeDecl(decls[k]);
      }
      assert decls[..|decls|] == decls;
    }

    /** visitProgram's last loop: the functions in order, until one
        throws. */
    method VisitFunDecls(funs: seq<FunDecl>)
      requires !thrown
      modifies this`funretT, this`errors, this`thrown
      ensures Counted(FunsCount(structs, funs, |funs|), old(errors))
    {
      var k := 0;
      while k < |funs| && !thrown
        invariant k <= |funs|
        invariant Counted(FunsCount(structs, funs, k), old(errors))
        decreases |funs| - k
      {
        VisitFunDecl(funs[k]);
        k := k + 1;
      }
      if thrown {
        FunsThrownStays(structs, funs, k, |funs|);
      }
    }
  }
}
